=== FILE: README.md ===
# Podcast generation flow

A Dafny model of SurfSense's podcast generation, end to end:

- the backend routes that list podcasts, accept a generation form, classify a queued job's status and serve a provider's voice catalogue;
- the agent's voice tables and its configuration;
- the client's wire contracts (the schemas and their validators);
- the client's API calls: encoding the multipart form, the error message, the status and voice paths;
- the React components that validate and submit the form, poll the task, load voices, count words, and list, delete and download podcasts.

Every decision is a pure function over immutable datatypes. The generator's polling effect is a transition function folded over a sequence of poll ticks. The database, the job queue, permission checks, the network and UTF-8 decoding are inputs: booleans, result records, or function parameters.

Modules, one per source file, plus shared ones:

| file | module | models |
|---|---|---|
| `results.dfy` | `Results` | `Option`, `Result`, bytes |
| `strings.dfy` | `Strings` | ASCII whitespace as Python's `str.strip` and JavaScript's `trim` see it (they differ on four control characters), trimming, lower-casing, substring search, decimal printing and parsing |
| `json.dfy` | `Json` | JSON values, Python and JavaScript truthiness, `dict.get`, JavaScript `String()` |
| `multipart.dfy` | `Multipart` | the multipart form body and how a field is read from it |
| `percent_encoding.dfy` | `PercentEncoding` | `encodeURIComponent` and Python `unquote` |
| `voice_tables.dfy` | `VoiceTables` | `utils.py` |
| `configuration.dfy` | `AgentConfig` | `configuration.py` |
| `podcast_routes.dfy` | `Routes` | `podcasts_routes.py` |
| `podcast_types.dfy` | `Contracts` | `podcast.types.ts` |
| `api_service.dfy` | `ApiService` | `podcasts-api.service.ts` |
| `generator.dfy` | `Generator` | `podcast-generator.tsx` |
| `tts_panel.dfy` | `TtsPanel` | `tts-config-panel.tsx` |
| `history.dfy` | `History` | `podcast-history.tsx` |
| `content_input.dfy` | `ContentInput` | `content-input-panel.tsx` |
| `flow.dfy` | `Flow` | how the layers fit: client form to backend form, backend replies to client validators, job status to component state |

Framework behaviour the model relies on:

- FastAPI binds an empty form value as absent, so the parameter's declared default applies (`Routes.FormText`).
- Starlette's form data gives the last value sent under a repeated name (`Multipart.LastPart`).
- The server percent-decodes the request path before matching routes; a plain path parameter matches one non-empty segment without '/' (`Routes.MatchVoices`).
- FastAPI answers an unbindable form with a 422 whose `detail` is a list of objects (`Flow.ErrorResponse`).

## Model

| member | source | states |
|---|---|---|
| Routes.ReadPodcasts | surfsense_backend/app/routes/podcasts_routes.py:38-77 | an omitted skip reads as 0 and an omitted limit as 100; then a 400 "Invalid pagination parameters" exactly when skip < 0 or limit < 1; a permission denial exactly when the pagination is valid, a search space is named and read permission is missing; otherwise the page OFFSET skip LIMIT limit of the selected rows |
| Routes.OmittedPagingDefaults | surfsense_backend/app/routes/podcasts_routes.py:39-40 | a request without skip, as the history list sends it, pages from the first selected row; without limit it gets min(100, rows) rows, with a limit n ≥ 1 it gets min(n, rows) |
| Routes.PaginationGuardComesFirst | surfsense_backend/app/routes/podcasts_routes.py:49-50 | with bad pagination the answer does not depend on the rows, the search space or the permission, so no query runs |
| Routes.Page | surfsense_backend/app/routes/podcasts_routes.py:64-65 | the page's length is min(limit, rows left after skip), and its i-th row is row skip + i |
| Routes.PagesConcatenate | surfsense_backend/app/routes/podcasts_routes.py:64-65 | two consecutive pages together are the page of their combined length |
| Routes.ClassifyJob | surfsense_backend/app/routes/podcasts_routes.py:242-275 | not ready maps to processing with the state label; ready, successful and a dict whose status is "success" maps to success with its podcast_id, title and transcript_entries; another dict maps to error with its `error` or "Unknown error"; a non-dict maps to "Unexpected task result format"; a failed job maps to error with the stringified result, or "Task failed" when the result is falsy |
| Routes.StatusReplyJson | surfsense_backend/app/routes/podcasts_routes.py:248-275 | every reply is an object whose `status` is "processing", "success" or "error", matching its variant |
| Routes.VoicesReply | surfsense_backend/app/routes/podcasts_routes.py:300-305 | the reply has exactly the keys provider and voices; provider is the unquoted segment and voices is that provider's catalogue, entry for entry |
| Routes.FormText | surfsense_backend/app/routes/podcasts_routes.py:315-323 | a form value is bound only when present and non-empty, and is then the value of the last part of that name |
| Multipart.LastPart | surfsense_backend/app/routes/podcasts_routes.py:315-323 | a part of that name is found exactly when one was sent, and it is one of the parts sent |
| Multipart.LastPartIsLast | surfsense_backend/app/routes/podcasts_routes.py:315-323 | the part found is the last one sent under that name |
| Multipart.LastPartConcat | surfsense_backend/app/routes/podcasts_routes.py:315-323 | in a form sent in two pieces, a name sent in the second piece is read from it, and otherwise from the first |
| Multipart.RepeatedNameBindsLast | surfsense_backend/app/routes/podcasts_routes.py:315-323 | of two values sent under one name, the second is bound |
| Routes.ReadForm | surfsense_backend/app/routes/podcasts_routes.py:315-323 | binding fails exactly when search_space_id is missing or not an integer; otherwise the title defaults to "SurfSense Podcast", source_type to "text", and the optional fields are absent when not sent |
| Routes.SourceContent | surfsense_backend/app/routes/podcasts_routes.py:357-383 | text with missing content, or content that is all Python whitespace (the six ASCII spaces and the separators U+001C-U+001F), is a 400; otherwise the content is the text stripped of that whitespace, which is non-empty; a document without a file is a 400, an undecodable one is a 400, and a decodable one gives the decoded text; any other source type is a 400 |
| Routes.CustomVoices | surfsense_backend/app/routes/podcasts_routes.py:386-392 | no map exactly when both voices are falsy; otherwise key 0 is present exactly when speaker 0's voice is truthy and key 1 exactly when speaker 1's is, each with that voice |
| Routes.GeneratePodcast | surfsense_backend/app/routes/podcasts_routes.py:346-405 | without permission the request is denied before anything else; with permission a job is submitted exactly when the source is usable; the job carries the source content, form fields and voice map, and the reply is processing with the task id |
| Routes.BlankTextSubmitsNothing | surfsense_backend/app/routes/podcasts_routes.py:357-361 | a text request with missing content, or content made only of Python whitespace (separators U+001C-U+001F included), never submits a job |
| Routes.SubmittedTextIsStripped | surfsense_backend/app/routes/podcasts_routes.py:362 | a submitted text job's content is a non-empty slice of the text that starts and ends with a character Python's strip keeps |
| Strings.Trim | surfsense_backend/app/routes/podcasts_routes.py:362 | the trimmed text is the slice left after removing leading and trailing whitespace of the given kind; it is empty exactly when the text is all whitespace, and otherwise starts and ends with a non-whitespace character |
| Strings.BlankInBoth | surfsense_backend/app/routes/podcasts_routes.py:358 | text that is blank to JavaScript's trim is blank to Python's strip, while "\u001c" is blank only to Python |
| Routes.MatchTaskStatus | surfsense_backend/app/routes/podcasts_routes.py:224 | a path matches the status route only as prefix + id + "/status" with a non-empty id that contains no '/' |
| Routes.MatchTaskStatusOf | surfsense_backend/app/routes/podcasts_routes.py:224 | every non-empty id without '/' is recovered from its status path |
| Routes.MatchVoices | surfsense_backend/app/routes/podcasts_routes.py:283 | the catalogue route as declared matches a decoded path only as the prefix followed by one non-empty segment without '/' |
| Routes.MatchVoicesExactly | surfsense_backend/app/routes/podcasts_routes.py:283 | the declared route gives back exactly the non-empty segments without '/', and matches nothing else after its prefix |
| Routes.MatchVoicesAnyPath | surfsense_backend/app/routes/podcasts_routes.py:283 | a path-typed parameter would match the prefix followed by anything, '/' included |
| Routes.MatchVoicesAnyPathExactly | surfsense_backend/app/routes/podcasts_routes.py:283 | the path-typed route gives back every string after its prefix |
| Routes.MatchAudio | surfsense_backend/app/routes/podcasts_routes.py:162-165 | a path matches the streaming routes only as the podcasts prefix, one non-empty segment without '/', then "/audio" or "/stream", and the id is that segment read as an integer |
| Routes.MatchAudioExactly | surfsense_backend/app/routes/podcasts_routes.py:163 | the audio route reads the id from every one-segment path, and matches no empty or slashed segment |
| VoiceTables.ProviderType | surfsense_backend/app/agents/podcaster/utils.py:21-23 | the vendor type contains no '/' and is never longer than the provider string; without a '/' it is the whole string lower-cased |
| VoiceTables.ProviderTypeOfModelString | surfsense_backend/app/agents/podcaster/utils.py:110 | for "vendor/rest" the type is the lower-cased vendor, whatever rest holds |
| VoiceTables.ProviderTypeIgnoresCase | surfsense_backend/app/agents/podcaster/utils.py:110 | lower-casing the provider string first does not change the type |
| VoiceTables.VoiceForProvider | surfsense_backend/app/agents/podcaster/utils.py:1-84 | the empty voice exactly for an unknown provider; Kokoro gives a named voice; OpenAI and Azure give named voices and "alloy" outside speakers 0-5; Vertex AI gives a language-and-name record and the speaker-0 record outside 0-5 |
| VoiceTables.KokoroSpeakers | surfsense_backend/app/agents/podcaster/utils.py:12-18 | exactly "local/kokoro" maps speaker 0 to am_adam, speaker 1 to af_bella and any other speaker to af_heart |
| VoiceTables.KokoroMatchIsExact | surfsense_backend/app/agents/podcaster/utils.py:12 | "Local/Kokoro" gets no voice and an empty catalogue: the match is case-sensitive |
| VoiceTables.OpenAIAndAzureAgree | surfsense_backend/app/agents/podcaster/utils.py:25-35 | an OpenAI and an Azure provider string give the same voice for every speaker and the same catalogue |
| VoiceTables.AvailableVoices | surfsense_backend/app/agents/podcaster/utils.py:87-145 | the catalogue is empty exactly for an unknown provider, has at least six voices otherwise, and its ids are distinct |
| VoiceTables.DefaultVoicesAreOffered | surfsense_backend/app/agents/podcaster/utils.py:1-145 | for a known provider, every speaker's default voice, fallbacks included, is an id of the same provider's catalogue (for Vertex AI, the voice's name) |
| AgentConfig.Configurable | surfsense_backend/app/agents/podcaster/configuration.py:31 | no config or an empty one, or a missing or falsy `configurable`, reads as the empty map; a truthy object gives its members; a truthy non-object has no items |
| AgentConfig.KeepFields | surfsense_backend/app/agents/podcaster/configuration.py:32-33 | the kept keys are exactly the input's keys that are field names, each with its value |
| AgentConfig.Construct | surfsense_backend/app/agents/podcaster/configuration.py:18-24 | construction succeeds exactly when podcast_title and search_space_id are present; otherwise it names the missing ones; user_prompt, tts_provider and custom_voices default to None |
| AgentConfig.FromRunnableConfig | surfsense_backend/app/agents/podcaster/configuration.py:26-33 | the configuration is constructed from the field-name entries of `configurable` only |
| AgentConfig.ConfigurationRoundTrip | surfsense_backend/app/agents/podcaster/configuration.py:26-33 | a configuration written into `configurable`, among any other keys, reads back unchanged |
| AgentConfig.UnknownKeysIgnored | surfsense_backend/app/agents/podcaster/configuration.py:32-33 | adding keys that are not field names changes nothing |
| AgentConfig.EmptyConfigurationFails | surfsense_backend/app/agents/podcaster/configuration.py:31-33 | no configuration, or an empty `configurable`, fails for both required fields |
| AgentConfig.OptionalFieldsDefaultToNone | surfsense_backend/app/agents/podcaster/configuration.py:20-24 | giving only the two required fields yields None for the other three |
| Contracts.ParseTranscriptEntry | surfsense_web/contracts/types/podcast.types.ts:7-10 | an entry is accepted exactly when it is an object with a numeric speaker_id and a string dialog, which are then its members |
| Contracts.TranscriptEntryRoundTrip | surfsense_web/contracts/types/podcast.types.ts:7-10 | every entry written as an object reads back as itself |
| Contracts.ParseTranscript | surfsense_web/contracts/types/podcast.types.ts:15 | a transcript is accepted exactly when it is an array of valid entries, and then reads entry for entry |
| Contracts.TranscriptRoundTrip | surfsense_web/contracts/types/podcast.types.ts:15 | every transcript written as an array reads back as itself |
| Contracts.ParseStringRecord | surfsense_web/contracts/types/podcast.types.ts:19 | a record is accepted exactly when it is an object of strings, and it is then the object the record writes |
| Contracts.StringRecordRoundTrip | surfsense_web/contracts/types/podcast.types.ts:19 | every string record written as an object reads back as itself |
| Contracts.NullableReadBack | surfsense_web/contracts/types/podcast.types.ts:15-21 | a nullable member read and written again is the same JSON value |
| Contracts.ParsePodcast | surfsense_web/contracts/types/podcast.types.ts:12-24 | a podcast is accepted exactly when every member has its type (the nullable ones may be null, updated_at may be missing), and every member of the podcast is then the one in the object |
| Contracts.PodcastRoundTrip | surfsense_web/contracts/types/podcast.types.ts:12-24 | every podcast written as the backend writes it (updated_at left out when there is none) reads back as itself |
| Contracts.ParseTtsVoice | surfsense_web/contracts/types/podcast.types.ts:33-37 | a voice is valid exactly when id, name and description are strings, which are then its fields |
| Contracts.ParseVoices | surfsense_web/contracts/types/podcast.types.ts:43 | a voice list is valid exactly when every entry is, and then it parses entry for entry |
| Contracts.ParseTtsVoicesResponse | surfsense_web/contracts/types/podcast.types.ts:41-44 | a catalogue reply is accepted exactly when it is an object with a string provider and an array of valid voices; it then carries that provider and those voices in order |
| Contracts.TtsVoicesResponseRoundTrip | surfsense_web/contracts/types/podcast.types.ts:41-44 | every catalogue reply written as an object reads back as itself |
| Contracts.ParseGenerateRequest | surfsense_web/contracts/types/podcast.types.ts:102-112 | a request validates exactly when every member has its type and source_type is "text" or "document"; a missing title becomes "SurfSense Podcast"; a failure reports every issue |
| Contracts.IssuesNameEveryBadMember | surfsense_web/contracts/types/podcast.types.ts:102-112 | the issues name exactly the invalid members, in schema order |
| Contracts.ParseGenerateResponse | surfsense_web/contracts/types/podcast.types.ts:116-119 | a generate reply is valid exactly when status is literally "processing" and task_id is a string, which is then the result |
| Contracts.ParseTaskStatus | surfsense_web/contracts/types/podcast.types.ts:133-148 | a status is discriminated by `status`; a processing status is valid exactly when `state` is absent or a string, and carries that state; a success is valid exactly when podcast_id and transcript_entries are numbers and title is a string, and carries those three values; an error is valid exactly when `error` is a string, and carries it |
| Contracts.NullStateRejected | surfsense_web/contracts/types/podcast.types.ts:134-136 | a processing status whose `state` is null is rejected, because an optional member may be absent but not null |
| Contracts.TaskStatusRoundTrip | surfsense_web/contracts/types/podcast.types.ts:133-148 | each of the three variants survives the wire unchanged |
| Contracts.NullPodcastIdRejected | surfsense_web/contracts/types/podcast.types.ts:140 | a success with a null podcast_id is rejected |
| Contracts.UnknownStatusRejected | surfsense_web/contracts/types/podcast.types.ts:133 | any other discriminator is rejected |
| ApiService.OptionalParts | surfsense_web/lib/apis/podcasts-api.service.ts:103-117 | no more parts than members; every part is a text part with a non-empty value and one of the members' names |
| ApiService.OptionalPartsField | surfsense_web/lib/apis/podcasts-api.service.ts:103-117 | a member is sent exactly when it is truthy, and then with its own value |
| ApiService.SourceParts | surfsense_web/lib/apis/podcasts-api.service.ts:119-125 | text_content is sent only for a text request with truthy text; document_file only for a document request with a file |
| ApiService.EncodeForm | surfsense_web/lib/apis/podcasts-api.service.ts:99-101 | the corrected form: it starts with search_space_id (in decimal), the validated request's podcast_title and source_type |
| ApiService.OptionalMembersSentIffGiven | surfsense_web/lib/apis/podcasts-api.service.ts:103-117 | user_prompt, tts_provider and both voices each appear in the form exactly when truthy, with their values |
| ApiService.NoEmptyOptionalValues | surfsense_web/lib/apis/podcasts-api.service.ts:103-121 | no text part after the first three has an empty value |
| ApiService.NeverBothSources | surfsense_web/lib/apis/podcasts-api.service.ts:119-125 | text content only goes with a text request and a document only with a document request, so never both |
| ApiService.EncodeFormAsWritten | surfsense_web/lib/apis/podcasts-api.service.ts:99-101 | the first three members are read from the caller's request, so a missing title is sent as "undefined" |
| ApiService.AsWrittenDropsDefaultTitle | surfsense_web/lib/apis/podcasts-api.service.ts:100 | with no title given, the form as written sends "undefined", while the validated request's title is "SurfSense Podcast" |
| ApiService.AsWrittenAgreesWhenTitleGiven | surfsense_web/lib/apis/podcasts-api.service.ts:99-125 | whenever the caller gives a title, the form as written is the corrected form |
| ApiService.AsWrittenTitlesUndefined | surfsense_web/lib/apis/podcasts-api.service.ts:100 | the form as written is always the corrected form of the validated request with its title replaced by "undefined" when the caller gave none |
| ApiService.LaterPartsKeepNames | surfsense_web/lib/apis/podcasts-api.service.ts:103-125 | no part after the first three is named search_space_id, podcast_title or source_type, so the backend reads those three from the front |
| ApiService.FailureMessage | surfsense_web/lib/apis/podcasts-api.service.ts:134-137 | an unparsable body gives "Unknown error"; a truthy `detail` gives its string form; otherwise "HTTP " and the status |
| ApiService.InvalidRequestMessage | surfsense_web/lib/apis/podcasts-api.service.ts:93-94 | the message starts with "Invalid request: " |
| ApiService.GeneratePodcast | surfsense_web/lib/apis/podcasts-api.service.ts:87-141 | nothing is sent exactly when validation fails, which raises the validation message; otherwise the form as written is sent (the first three members from the caller's request); the call yields a task id exactly when the response is ok and its body passes the reply schema; a non-ok response raises its failure message and a network failure its own |
| ApiService.TaskStatusPath | surfsense_web/lib/apis/podcasts-api.service.ts:156-159 | the path is "/api/v1/podcasts/task/", the id unchanged, then "/status" |
| ApiService.VoicesPath | surfsense_web/lib/apis/podcasts-api.service.ts:176-178 | the path is the voices prefix followed by the encoded provider, which holds no '/' |
| ApiService.VoicesPathRoundTrip | surfsense_web/lib/apis/podcasts-api.service.ts:176 | unquoting the path segment gives back every ASCII provider string |
| PercentEncoding.EncodeURIComponent | surfsense_web/lib/apis/podcasts-api.service.ts:176 | the output holds only unreserved characters and '%', so never '/', '?' or '#'; an all-unreserved string is unchanged |
| PercentEncoding.UnquoteEncodeRoundTrip | surfsense_backend/app/routes/podcasts_routes.py:300 | `unquote` inverts `encodeURIComponent` on ASCII strings |
| PercentEncoding.UnquotePlainPrefix | surfsense_backend/app/routes/podcasts_routes.py:300 | a prefix without '%' passes through `unquote` unchanged |
| PercentEncoding.EncodeModelString | surfsense_web/lib/apis/podcasts-api.service.ts:175-176 | "vendor/model" with unreserved parts is sent as "vendor%2Fmodel" |
| PercentEncoding.ProviderSegmentExample | surfsense_web/lib/apis/podcasts-api.service.ts:175-176 | "openai/tts-1" is sent as "openai%2Ftts-1" and decodes back |
| Generator.OnPoll | surfsense_web/components/podcasts/podcast-generator.tsx:40-67 | without a task id, or on a processing or failed poll, nothing changes; a success clears isGenerating and the task id, records the podcast id and notifies once when there is a callback; an error clears them and records the message |
| Generator.NoTaskNoPolling | surfsense_web/components/podcasts/podcast-generator.tsx:41 | without a truthy task id any number of ticks leaves the state unchanged |
| Generator.PendingTicksChangeNothing | surfsense_web/components/podcasts/podcast-generator.tsx:43-64 | ticks that are processing or throw leave the state unchanged |
| Generator.RunConcat | surfsense_web/components/podcasts/podcast-generator.tsx:43-64 | running two tick sequences one after the other is running their concatenation |
| Generator.SuccessNotifiesOnce | surfsense_web/components/podcasts/podcast-generator.tsx:47-53 | pending ticks, then a success, then anything: exactly one notification with the podcast id, and the phase is done |
| Generator.ErrorEndsSession | surfsense_web/components/podcasts/podcast-generator.tsx:54-59 | pending ticks, then an error, then anything: no notification, the phase is failed, and the error is the status message |
| Generator.AtMostOneNotification | surfsense_web/components/podcasts/podcast-generator.tsx:40-67 | any tick sequence notifies at most once, and then with the id recorded as generated |
| Generator.FirstProblem | surfsense_web/components/podcasts/podcast-generator.tsx:71-89 | the form passes exactly when the text is not all JavaScript whitespace (text source), a document is chosen (document source), a provider is set and both voices are set; the checks run in that order: blank text gives the text message, a missing document the upload message, and once the source is given an empty provider gives the provider message and then a missing voice the voices message |
| Generator.FirstProblemLikeServer | surfsense_web/components/podcasts/podcast-generator.tsx:71-74 | the text check made with the backend's whitespace: a text form passes exactly when it passes the component's checks and its text is not all Python whitespace; it differs from the component's check only by reporting missing text |
| Generator.BuildRequest | surfsense_web/components/podcasts/podcast-generator.tsx:96-106 | the request built from a passing form validates; text is sent only for a text source, the file only for a document source, and an empty prompt is left out |
| Generator.HandleGenerate | surfsense_web/components/podcasts/podcast-generator.tsx:69-116 | while generating, or when a check fails, nothing changes and nothing is sent; otherwise the built request is sent; success stores the task id with isGenerating set and no error; a failure clears isGenerating and records the message, or "Failed to start podcast generation" |
| Generator.StartedTaskIsPolled | surfsense_web/components/podcasts/podcast-generator.tsx:108 | once a non-empty task id arrives, the component is waiting on it |
| TtsPanel.AutoSelect | surfsense_web/components/podcasts/tts-config-panel.tsx:64-69 | a chosen voice is kept; an unset one takes the catalogue entry at its index when the list is long enough, else stays unset |
| TtsPanel.OnProviderChange | surfsense_web/components/podcasts/tts-config-panel.tsx:46-79 | an empty provider clears the voices without a request; a load sets the voices, clears the error and auto-selects; a failure sets "Failed to load voices"; loading always ends |
| TtsPanel.ChosenVoicesKept | surfsense_web/components/podcasts/tts-config-panel.tsx:64-69 | already-chosen voices are never overwritten |
| TtsPanel.FailureHidesSelectors | surfsense_web/components/podcasts/tts-config-panel.tsx:70-72 | after a failed load the error is shown and the selectors are hidden |
| TtsPanel.FreshSpeakersGetFirstTwo | surfsense_web/components/podcasts/tts-config-panel.tsx:64-69 | unset speakers get the first two voices, which differ when the ids do, and the selectors are shown |
| TtsPanel.OfferedProvidersHaveVoices | surfsense_web/components/podcasts/tts-config-panel.tsx:26-31 | every provider in the selector has a backend catalogue of at least two voices |
| History.FormatDuration | surfsense_web/components/podcasts/podcast-history.tsx:92-97 | null or 0 gives "N/A"; otherwise the floor of seconds/60, ':', and the JavaScript remainder padded to two characters |
| History.DurationRoundTrip | surfsense_web/components/podcasts/podcast-history.tsx:92-97 | for positive whole seconds, minutes * 60 + seconds read back from the text is the input |
| History.ProviderLabel | surfsense_web/components/podcasts/podcast-history.tsx:110-117 | null or empty gives "Default"; the checks for openai, vertex, kokoro and azure run in order and the first hit wins; otherwise the string itself |
| History.FirstCheckWins | surfsense_web/components/podcasts/podcast-history.tsx:112-115 | a string naming both openai and azure is labelled OpenAI |
| History.OfferedProvidersLabelled | surfsense_web/components/podcasts/podcast-history.tsx:110-117 | each provider the settings panel offers is labelled OpenAI, Vertex AI, Kokoro and Azure respectively |
| History.CharNotIn | surfsense_web/components/podcasts/podcast-history.tsx:112-115 | a needle holding a character the text lacks is not contained in it |
| History.RemoveId | surfsense_web/components/podcasts/podcast-history.tsx:62 | a podcast is kept exactly when it was there and has another id |
| History.RemoveIdConcat | surfsense_web/components/podcasts/podcast-history.tsx:62 | removal works piece by piece, so the kept podcasts keep their order |
| History.RemoveAbsentId | surfsense_web/components/podcasts/podcast-history.tsx:62 | a list without that id is unchanged |
| History.HandleDelete | surfsense_web/components/podcasts/podcast-history.tsx:58-72 | the pending delete is always reset; on success the list loses that id and the selection is cleared only when it was that id; on failure the list and the selection are unchanged |
| History.ConfirmDelete | surfsense_web/components/podcasts/podcast-history.tsx:229-242 | the dialog always closes, leaving no pending id; with id 0 nothing is deleted and the list and selection stay as they were; otherwise the pending id is deleted |
| History.ZeroIdIsNeverDeleted | surfsense_web/components/podcasts/podcast-history.tsx:229-240 | confirming a pending id 0 keeps the list and the expanded podcast, and closes the dialog |
| History.TogglePlay | surfsense_web/components/podcasts/podcast-history.tsx:187-190 | pressing play on the selected podcast deselects it, on any other selects that one |
| History.HandleDownload | surfsense_web/components/podcasts/podcast-history.tsx:75-89 | refused exactly when there is no file location; otherwise the href is "/api/v1/podcasts/{id}/audio" and the file name is the title plus ".mp3" |
| History.DownloadIsStreamed | surfsense_web/components/podcasts/podcast-history.tsx:83 | the download link is matched by the backend's audio route, which reads back the podcast's own id |
| ContentInput.WordCountIsRuns | surfsense_web/components/podcasts/content-input-panel.tsx:35-36 | the word count is the number of maximal runs of non-whitespace |
| ContentInput.BlankHasNoWords | surfsense_web/components/podcasts/content-input-panel.tsx:35-36 | empty or whitespace-only content counts 0 words |
| ContentInput.PaddingKeepsWordCount | surfsense_web/components/podcasts/content-input-panel.tsx:35 | leading or trailing whitespace does not change the count |
| ContentInput.HandleTextChange | surfsense_web/components/podcasts/content-input-panel.tsx:30-37 | the raw text is forwarded untrimmed, and the count shown is its number of runs |
| ContentInput.OnDrop | surfsense_web/components/podcasts/content-input-panel.tsx:39-46 | a drop selects its first accepted file; an empty drop leaves the selection unchanged |
| ContentInput.OfAcceptedType | surfsense_web/components/podcasts/content-input-panel.tsx:51-57 | the files kept are exactly the dropped files whose lower-cased name ends in .txt, .pdf, .docx, .doc or .md |
| ContentInput.DropAccepted | surfsense_web/components/podcasts/content-input-panel.tsx:48-58 | at most one file is handed to the drop handler, always a dropped file of an accepted type, and none exactly when the drop holds other than one such file |
| ContentInput.DropSelectsDroppedDocument | surfsense_web/components/podcasts/content-input-panel.tsx:39-58 | after any drop the selection is unchanged or a dropped file of an accepted type |
| ContentInput.SingleDrop | surfsense_web/components/podcasts/content-input-panel.tsx:39-58 | one dropped file replaces the selection exactly when its type is accepted |
| ContentInput.TwoDocumentsKeepSelection | surfsense_web/components/podcasts/content-input-panel.tsx:50 | two acceptable documents dropped together exceed maxFiles, so the selection stays |
| ContentInput.UpperCasePdfAccepted | surfsense_web/components/podcasts/content-input-panel.tsx:53 | a ".PDF" file is accepted: extensions are compared without case |
| Flow.FormRoundTrip | surfsense_web/lib/apis/podcasts-api.service.ts:98-125 | with the corrected encoder, the backend binds the form as the request: same search space, the validated title, each optional member only when truthy, and only the source member of the request's kind |
| Flow.DefaultTitleAgrees | surfsense_web/contracts/types/podcast.types.ts:104 | with the corrected encoder, a request without a title reaches the backend with the backend's own default title |
| Flow.UntitledRequestIsNamedUndefined | surfsense_web/lib/apis/podcasts-api.service.ts:100 | as written, a request without a title reaches the backend titled "undefined", all else bound as the request |
| Flow.AlwaysSentFields | surfsense_web/lib/apis/podcasts-api.service.ts:99-101 | from the corrected form the backend binds search_space_id in decimal, the title (absent when empty, so defaulted) and the source type's name |
| Flow.TextFormStartsJob | surfsense_backend/app/routes/podcasts_routes.py:357-405 | a text form whose text is not all Python whitespace and that passed the component's other checks, sent as written by a permitted user, queues a job with the Python-stripped text, the provider, both voices and the title, and the reply passes the client's schema with the task id |
| Flow.SeparatorTextIsRefused | surfsense_backend/app/routes/podcasts_routes.py:357-361 | a text form whose text is only Python whitespace is answered 400 "text_content is required…" even when the component's checks passed |
| Flow.SeparatorPassesClientCheck | surfsense_web/components/podcasts/podcast-generator.tsx:71-74 | text "\u001c" passes the component's check but not the backend's |
| Flow.SubmitSends | surfsense_web/lib/apis/podcasts-api.service.ts:128-140 | against the backend, given the form as written, the client call yields the task id for an ok response, and otherwise the failure message of the backend's error response |
| Flow.GenerateStartsPolling | surfsense_web/components/podcasts/podcast-generator.tsx:91-108 | pressing generate on a text form that passes the checks, with text not all Python whitespace, as a permitted user leaves the component waiting on the queued task |
| Flow.DeniedGenerateShowsDetail | surfsense_backend/app/routes/podcasts_routes.py:348-354 | pressing generate without permission ends with the backend's denial message as the component's error, and nothing is polled |
| Flow.DetailReachesUser | surfsense_web/lib/apis/podcasts-api.service.ts:134-137 | the detail of a backend HTTP error or denial is the client's error message |
| Flow.UnboundFormShowsObject | surfsense_web/lib/apis/podcasts-api.service.ts:136 | a framework 422 (its detail is a list of objects) is reported as "[object Object]" |
| Flow.GenerateReplyParses | surfsense_backend/app/routes/podcasts_routes.py:405 | the generation reply passes the client's schema with the same task id |
| Flow.StatusPoll | surfsense_web/lib/apis/podcasts-api.service.ts:146-160 | a poll tick is a status exactly when the response is ok, parsed, and passes the status schema; otherwise the call throws |
| Flow.RunningJobIsProcessing | surfsense_backend/app/routes/podcasts_routes.py:270-275 | a job still running reaches the component as processing with its state label |
| Flow.SuccessIsDelivered | surfsense_backend/app/routes/podcasts_routes.py:244-253 | a well-typed success record reaches the component as that success |
| Flow.UntypedSuccessKeepsPolling | surfsense_backend/app/routes/podcasts_routes.py:250 | a success record whose podcast_id is missing or not a number is rejected by the client, so the tick changes nothing and the task is polled again |
| Flow.FailedJobIsError | surfsense_backend/app/routes/podcasts_routes.py:264-269 | a job that raised reaches the component as an error with the exception text or "Task failed" |
| Flow.UnsuccessfulResultIsError | surfsense_backend/app/routes/podcasts_routes.py:254-263 | a finished job whose result is not a success record reaches the component as an error with the record's message, "Unknown error", or the unexpected-format message |
| Flow.PendingIffNotFinished | surfsense_backend/app/routes/podcasts_routes.py:242-275 | a tick leaves the task running exactly when the job is not ready or its report fails the client's schema |
| Flow.WorkerSuccessNotifiesOnce | surfsense_web/components/podcasts/podcast-generator.tsx:43-64 | polls of a running job, then its success, then anything, notify the parent exactly once with the worker's podcast id |
| Flow.StatusPathRoutes | surfsense_web/lib/apis/podcasts-api.service.ts:156-159 | the client's status path reaches the status route exactly when the id is non-empty and has no '/', and the route then sees the same id |
| Flow.VoicesReplyParses | surfsense_backend/app/routes/podcasts_routes.py:300-305 | the catalogue reply passes the client's schema, entry for entry |
| Flow.ProviderVoicesReachClient | surfsense_web/lib/apis/podcasts-api.service.ts:176-178 | with the path-typed route, asking for the voices of an ASCII provider without '%' yields that provider and its catalogue |
| Flow.VoicesEndpoint | surfsense_backend/app/routes/podcasts_routes.py:283-305 | the endpoint answers ok exactly when the route matches the percent-decoded path, with the catalogue reply of the matched segment, and 404 otherwise |
| Flow.VoiceLoadOf | surfsense_web/components/podcasts/tts-config-panel.tsx:56-77 | the panel loads voices exactly when the response is ok, parsed and passes the catalogue schema, and then gets the reply's voices |
| Flow.DecodedVoicesPath | surfsense_web/lib/apis/podcasts-api.service.ts:176-178 | the server sees the voices path of an ASCII provider as the route prefix followed by the provider itself, '/' included |
| Flow.SlashedProviderNotFound | surfsense_backend/app/routes/podcasts_routes.py:283 | as declared, a provider holding '/' is not found (404), and the panel shows "Failed to load voices" and keeps both speakers' voices |
| Flow.PlainProviderIsRouted | surfsense_backend/app/routes/podcasts_routes.py:283-305 | as declared, a non-empty ASCII provider without '/' or '%' reaches the handler, and the client gets its catalogue |
| Flow.OfferedProvidersAreSlashed | surfsense_web/components/podcasts/tts-config-panel.tsx:26-31 | every provider the panel offers is an ASCII string holding '/' and no '%' |
| Flow.OfferedProviderFailsToLoad | surfsense_web/components/podcasts/tts-config-panel.tsx:46-79 | as declared, choosing any offered provider fails to load voices and hides the selectors |
| Flow.OfferedProviderFillsSpeakers | surfsense_web/components/podcasts/tts-config-panel.tsx:26-31 | with the path-typed route, choosing any offered provider loads its catalogue, which fills both unset speakers with two different voices and shows the selectors |

## Left out

- The database queries, commits and rollbacks: a query's result is the `rows` input of `Routes.ReadPodcasts`, and database errors (the 500 replies) are not modelled.
- Permission checks: `check_permission` belongs to an access-control module that is not part of this model. Permission is a boolean input, and the status of a denial is a parameter (`Flow.ErrorResponse`).
- The Celery job queue: a job's result is the record `Routes.JobResult`, and a submission's task id is an input. The catch-all 500 reply of the status and generation endpoints is not modelled.
- Python `str()` of a job's exception is the parameter `show`.
- UTF-8 decoding of an uploaded document is the parameter `decode`, which may fail. Reading the upload is not modelled.
- The routes for reading, deleting and streaming one podcast are left out: file streaming is I/O. Only their audio path appears, as the download link.
- The client's `getPodcasts`, `getPodcast` and `deletePodcast` calls, and `baseApiService`, are not modelled. A delete's outcome is the boolean `deleted`.
- The schema library: its messages are given only for the generation request's checks, and the reply-shape message is the parameter `shapeError`.
- Routing: the server's percent-decoding of a path before matching is modelled for the catalogue route (`Flow.VoicesEndpoint`); `Routes.MatchTaskStatus` matches the raw path.
- Multipart.TextField: a file part sent where a text field is expected reads as absent; FastAPI answers such a form with a 422, which is not modelled.
- Form binding approximates FastAPI's integer parsing with optional '-' and decimal digits. Its 422 body is given one entry, without the message text.
- Numbers on the wire are integers. Floating-point durations and ids are not modelled.
- Text is ASCII as far as whitespace, lower-casing and percent-decoding go: the non-ASCII whitespace that Python's `strip` and JavaScript's `trim` also remove, and non-ASCII lower-casing, are not modelled. The percent-decoding of multi-byte UTF-8 escapes is not modelled, so the encode/decode round trips are stated for ASCII strings.
- The 5-second `setInterval`, overlapping polls and React's effect re-subscription are not modelled: poll ticks are a sequence of events.
- Toasts, console logging, JSX rendering, `formatDate` and the file-size display are not modelled.
- ContentInput.AcceptedType: a file is judged by the extension of its name only; react-dropzone also accepts a file by its browser-reported MIME type, which `DocumentFile` does not carry.
- The gateway route and the Next.js rewrites are not part of this model.
- History.FormatDuration: stated for integer seconds only; JavaScript's floor and `%` on fractional seconds are not modelled.
- Flow.ProviderVoicesReachClient: stated for providers without '%'. Such a provider is decoded twice, once by the server and once by `unquote`, so it does not come back unchanged.
- ApiService.InvalidRequestMessage: the contract states only the message's prefix. The joined issue messages follow the schema library's wording, which is not part of this model.

## Findings

| source | as written | input that shows it | evidently intended | confidence | as-written member | corrected member |
|---|---|---|---|---|---|---|
| surfsense_web/lib/apis/podcasts-api.service.ts:99-101 | the three members always sent are read from the caller's request rather than from the validated one, so the schema's default title is computed and then dropped | a request with no podcast_title (a JavaScript caller can omit it) is sent with podcast_title "undefined" | send the validated request's title, which defaults to "SurfSense Podcast" | low: typed callers always pass a title, and the component always does; not executed | ApiService.AsWrittenDropsDefaultTitle, Flow.UntitledRequestIsNamedUndefined | ApiService.EncodeForm, Flow.DefaultTitleAgrees |
| surfsense_web/components/podcasts/podcast-generator.tsx:71 | the component tests for blank text with JavaScript's `trim`, and the backend with Python's `strip` (surfsense_backend/app/routes/podcasts_routes.py:358), which also removes the separators U+001C-U+001F | text "\u001c" passes the component's check, is sent, and is refused with a 400 | the same test on both sides, so text the backend refuses is reported before anything is sent | low: needs control characters in the text; not executed | Flow.SeparatorPassesClientCheck, Flow.SeparatorTextIsRefused | Generator.FirstProblemLikeServer, Flow.TextFormStartsJob |
| surfsense_backend/app/routes/podcasts_routes.py:283 | the catalogue route's provider is a plain path parameter, which matches one segment of the already-decoded path, so the `unquote` at line 300 is reached only for providers without '/'; the client encodes the '/' (surfsense_web/lib/apis/podcasts-api.service.ts:175-178), but the server decodes it before matching | provider "openai/tts-1", requested as "/api/v1/podcasts/tts-voices/openai%2Ftts-1", is not found (404), as is every provider the settings panel offers | a path-typed parameter (`{provider:path}`), so every provider string reaches the handler | medium: depends on the server decoding %2F before routing, as Uvicorn and Starlette do; not executed | Routes.MatchVoices, Flow.SlashedProviderNotFound, Flow.OfferedProviderFailsToLoad | Routes.MatchVoicesAnyPath, Flow.ProviderVoicesReachClient, Flow.OfferedProviderFillsSpeakers |

=== FILE: api_service.dfy ===
/**
 * The client's podcast API calls: validating and encoding a generation request
 * as a multipart form, turning the reply (or its failure) into a task id or an
 * error message, and building the task-status and voice-catalogue paths.
 *
 * The network and the server are a function parameter `respond` from the form
 * sent to the outcome of the request.
 */
module ApiService {
  import opened Results
  import opened Strings
  import opened Json
  import opened Multipart
  import opened Contracts
  import PercentEncoding

  // ---------------------------------------------------------------------------
  // Encoding the form
  // ---------------------------------------------------------------------------

  function SourceTypeName(t: SourceType): (name: string)
    ensures name == "text" <==> t == Text
    ensures name == "document" <==> t == Document
  {
    match t
    case Text => "text"
    case Document => "document"
  }

  /** The optional text members of a request, by wire name, in the order they are appended. */
  function OptionalMembers(req: GenerateRequest): seq<(string, Option<string>)> {
    [("user_prompt", req.userPrompt), ("tts_provider", req.ttsProvider),
     ("speaker_0_voice", req.speaker0Voice), ("speaker_1_voice", req.speaker1Voice)]
  }

  function MemberNames(ms: seq<(string, Option<string>)>): set<string> {
    set m | m in ms :: m.0
  }

  predicate DistinctMemberNames(ms: seq<(string, Option<string>)>) {
    forall i, j :: 0 <= i < j < |ms| ==> ms[i].0 != ms[j].0
  }

  /** The value of the member called `name`. */
  function LookupMember(ms: seq<(string, Option<string>)>, name: string): (v: Option<string>)
    ensures name !in MemberNames(ms) ==> v.None?
  {
    if ms == [] then None
    else if ms[0].0 == name then ms[0].1
    else
      assert MemberNames(ms[1..]) <= MemberNames(ms);
      LookupMember(ms[1..], name)
  }

  /** One part per truthy member, in order; a falsy member sends nothing. */
  function OptionalParts(ms: seq<(string, Option<string>)>): (parts: seq<FormPart>)
    ensures |parts| <= |ms|
    ensures forall i :: 0 <= i < |parts| ==>
              parts[i].TextPart? && parts[i].value != "" && parts[i].name in MemberNames(ms)
  {
    if ms == [] then []
    else
      var rest := OptionalParts(ms[1..]);
      assert MemberNames(ms[1..]) <= MemberNames(ms);
      if Given(ms[0].1) then
        assert ms[0] in ms;
        [TextPart(ms[0].0, ms[0].1.value)] + rest
      else rest
  }

  /** A member is sent exactly when it is truthy, and then with its own value. */
  lemma {:induction false} OptionalPartsField(ms: seq<(string, Option<string>)>, name: string)
    requires DistinctMemberNames(ms)
    ensures HasPart(OptionalParts(ms), name) <==> Given(LookupMember(ms, name))
    ensures Given(LookupMember(ms, name)) ==> TextField(OptionalParts(ms), name) == LookupMember(ms, name)
  {
    if ms != [] {
      var rest := ms[1..];
      var first: seq<FormPart> := if Given(ms[0].1) then [TextPart(ms[0].0, ms[0].1.value)] else [];
      assert OptionalParts(ms) == first + OptionalParts(rest);
      assert DistinctMemberNames(rest) by {
        assert forall i :: 0 <= i < |rest| ==> rest[i] == ms[i + 1];
      }
      OptionalPartsField(rest, name);
      HasPartConcat(first, OptionalParts(rest), name);
      if ms[0].0 == name {
        assert name !in MemberNames(rest) by {
          assert forall m :: m in rest ==> exists i :: 0 <= i < |rest| && rest[i] == m && ms[i + 1] == m;
        }
        if Given(ms[0].1) {
          TextFieldKeep(first, OptionalParts(rest), name);
        }
      } else {
        assert !HasPart(first, name);
        TextFieldSkip(first, OptionalParts(rest), name);
      }
    }
  }

  /** The source member: the text for a text request when truthy, the document for a document request. */
  function SourceParts(req: GenerateRequest): (parts: seq<FormPart>)
    ensures HasPart(parts, "text_content") ==> req.sourceType == Text
    ensures HasPart(parts, "document_file") ==> req.sourceType == Document
    ensures req.sourceType == Text ==>
              parts == (if Given(req.textContent) then [TextPart("text_content", req.textContent.value)] else [])
    ensures req.sourceType == Document ==>
              parts == (if req.documentFile.Some? then [FilePart("document_file", req.documentFile.value)] else [])
  {
    match req.sourceType
    case Text => if Given(req.textContent) then [TextPart("text_content", req.textContent.value)] else []
    case Document => if req.documentFile.Some? then [FilePart("document_file", req.documentFile.value)] else []
  }

  /** The three members that are always sent. */
  function AlwaysSent(req: GenerateRequest): seq<FormPart> {
    [TextPart("search_space_id", IntToString(req.searchSpaceId)),
     TextPart("podcast_title", req.podcastTitle),
     TextPart("source_type", SourceTypeName(req.sourceType))]
  }

  /** The form sent for a validated request. */
  function EncodeForm(req: GenerateRequest): (parts: seq<FormPart>)
    ensures |parts| >= 3
    ensures parts[0] == TextPart("search_space_id", IntToString(req.searchSpaceId))
    ensures parts[1] == TextPart("podcast_title", req.podcastTitle)
    ensures parts[2] == TextPart("source_type", SourceTypeName(req.sourceType))
  {
    AlwaysSent(req) + OptionalParts(OptionalMembers(req)) + SourceParts(req)
  }

  /** The names of the optional text members. */
  const OPTIONAL_NAMES: set<string> := {"user_prompt", "tts_provider", "speaker_0_voice", "speaker_1_voice"}

  lemma OptionalMembersShape(req: GenerateRequest)
    ensures DistinctMemberNames(OptionalMembers(req))
    ensures MemberNames(OptionalMembers(req)) == OPTIONAL_NAMES
  {
    var ms := OptionalMembers(req);
    assert ms[0] in ms && ms[1] in ms && ms[2] in ms && ms[3] in ms;
  }

  /** Splitting the form into its three sections, for a name the other two sections do not use. */
  lemma SectionsOfForm(req: GenerateRequest, name: string)
    ensures HasPart(EncodeForm(req), name) <==>
              HasPart(AlwaysSent(req), name) || HasPart(OptionalParts(OptionalMembers(req)), name)
              || HasPart(SourceParts(req), name)
  {
    HasPartConcat(AlwaysSent(req), OptionalParts(OptionalMembers(req)), name);
    HasPartConcat(AlwaysSent(req) + OptionalParts(OptionalMembers(req)), SourceParts(req), name);
  }

  /** No part after the first three is called by one of their names. */
  lemma LaterPartsKeepNames(req: GenerateRequest, name: string)
    requires name in {"search_space_id", "podcast_title", "source_type"}
    ensures !HasPart(OptionalParts(OptionalMembers(req)) + SourceParts(req), name)
  {
    var b, c := OptionalParts(OptionalMembers(req)), SourceParts(req);
    OptionalMembersShape(req);
    HasPartConcat(b, c, name);
    assert forall i :: 0 <= i < |b| ==> b[i].Name() == b[i].name;
  }

  /** The text is sent only for a text request and the document only for a document request, so never both. */
  lemma NeverBothSources(req: GenerateRequest)
    ensures HasPart(EncodeForm(req), "text_content") ==> req.sourceType == Text
    ensures HasPart(EncodeForm(req), "document_file") ==> req.sourceType == Document
    ensures !(HasPart(EncodeForm(req), "text_content") && HasPart(EncodeForm(req), "document_file"))
  {
    OptionalMembersShape(req);
    SectionsOfForm(req, "text_content");
    SectionsOfForm(req, "document_file");
  }

  /**
   * Each optional member (user prompt, provider and the two voices) is sent,
   * with its value, exactly when it is truthy.
   */
  lemma OptionalMembersSentIffGiven(req: GenerateRequest, name: string)
    requires name in OPTIONAL_NAMES
    ensures HasPart(EncodeForm(req), name) <==> Given(LookupMember(OptionalMembers(req), name))
    ensures Given(LookupMember(OptionalMembers(req), name)) ==>
              TextField(EncodeForm(req), name) == LookupMember(OptionalMembers(req), name)
  {
    var ms := OptionalMembers(req);
    OptionalMembersShape(req);
    OptionalPartsField(ms, name);
    assert !HasPart(AlwaysSent(req), name);
    assert !HasPart(SourceParts(req), name);
    MiddleSection(AlwaysSent(req), OptionalParts(ms), SourceParts(req), name);
  }

  /** No optional member is ever sent with an empty value. */
  lemma NoEmptyOptionalValues(req: GenerateRequest)
    ensures forall i :: 3 <= i < |EncodeForm(req)| && EncodeForm(req)[i].TextPart? ==> EncodeForm(req)[i].value != ""
  {
    var a, b, c := AlwaysSent(req), OptionalParts(OptionalMembers(req)), SourceParts(req);
    assert forall i :: 3 <= i < |a + b + c| ==> (a + b + c)[i] == (b + c)[i - 3];
    assert forall i :: 0 <= i < |b + c| ==> (b + c)[i] == if i < |b| then b[i] else c[i - |b|];
  }

  /**
   * The form as the source builds it: the three members always sent are read from
   * the caller's request rather than from the validated one, so a title left out
   * by the caller is sent as JavaScript's `String(undefined)`.
   */
  function EncodeFormAsWritten(raw: RawGenerateRequest): (parts: seq<FormPart>)
    requires ValidRequest(raw)
    ensures |parts| >= 3
    ensures parts[1] == TextPart("podcast_title", if raw.podcastTitle.Undefined? then "undefined" else raw.podcastTitle.j.s)
  {
    var req := ParseGenerateRequest(raw).value;
    [TextPart("search_space_id", JsString(raw.searchSpaceId.j)),
     TextPart("podcast_title", if raw.podcastTitle.Undefined? then "undefined" else JsString(raw.podcastTitle.j)),
     TextPart("source_type", JsString(raw.sourceType.j))]
    + OptionalParts(OptionalMembers(req)) + SourceParts(req)
  }

  /** The form as written sends the title "undefined" when the caller gives none. */
  lemma AsWrittenDropsDefaultTitle(raw: RawGenerateRequest)
    requires ValidRequest(raw) && raw.podcastTitle.Undefined?
    ensures TextField(EncodeFormAsWritten(raw), "podcast_title") == Some("undefined")
    ensures TextField(EncodeForm(ParseGenerateRequest(raw).value), "podcast_title") == Some(DEFAULT_PODCAST_TITLE)
  {
    var req := ParseGenerateRequest(raw).value;
    var written := [TextPart("search_space_id", JsString(raw.searchSpaceId.j)),
                    TextPart("podcast_title", "undefined"),
                    TextPart("source_type", JsString(raw.sourceType.j))];
    assert EncodeFormAsWritten(raw) == written + OptionalParts(OptionalMembers(req)) + SourceParts(req);
    TitleOfForm(written, req);
    TitleOfForm(AlwaysSent(req), req);
  }

  /** The title a form reads is the second of its first three parts, the later ones being a request's optional and source members. */
  lemma TitleOfForm(front: seq<FormPart>, req: GenerateRequest)
    requires |front| == 3 && front[1].TextPart? && front[1].name == "podcast_title" && front[2].Name() == "source_type"
    ensures TextField(front + OptionalParts(OptionalMembers(req)) + SourceParts(req), "podcast_title") == Some(front[1].value)
  {
    var later := OptionalParts(OptionalMembers(req)) + SourceParts(req);
    assert front + OptionalParts(OptionalMembers(req)) + SourceParts(req) == front + later;
    assert front[..2] == [front[0], front[1]];
    assert LastPart(front, "podcast_title") == LastPart(front[..2], "podcast_title");
    LaterPartsKeepNames(req, "podcast_title");
    TextFieldKeep(front, later, "podcast_title");
  }

  /** Without a title, the form as written is the corrected form of the same request titled "undefined". */
  lemma AsWrittenTitlesUndefined(raw: RawGenerateRequest)
    requires ValidRequest(raw) && raw.podcastTitle.Undefined?
    ensures EncodeFormAsWritten(raw) == EncodeForm(ParseGenerateRequest(raw).value.(podcastTitle := "undefined"))
  {
  }

  /** Whenever the caller gives a title, the form as written and the corrected form are the same. */
  lemma AsWrittenAgreesWhenTitleGiven(raw: RawGenerateRequest)
    requires ValidRequest(raw) && !raw.podcastTitle.Undefined?
    ensures EncodeFormAsWritten(raw) == EncodeForm(ParseGenerateRequest(raw).value)
  {
  }

  // ---------------------------------------------------------------------------
  // Sending it
  // ---------------------------------------------------------------------------

  /** A response body: decoded JSON, or text the JSON parser rejected with `message`. */
  datatype Body = Parsed(json: Json) | Unparsable(message: string)

  /** What a request comes to: a network failure, or a response with its status and body. */
  datatype FetchOutcome = NetworkError(message: string) | Response(ok: bool, status: int, body: Body)

  /** The error a call raises, by the class the source throws and its message. */
  datatype ClientError = ValidationError(message: string) | RequestError(message: string) {
    function Message(): string {
      match this
      case ValidationError(m) => m
      case RequestError(m) => m
    }
  }

  const NULL_DETAIL := "Cannot read properties of null (reading 'detail')"

  /** The message for a response that is not ok: the body's `detail` when truthy, else the status. */
  function FailureMessage(status: int, body: Body): (m: string)
    ensures body.Unparsable? ==> m == "Unknown error"
    ensures body == Parsed(JNull) ==> m == NULL_DETAIL
    ensures body.Parsed? && body.json != JNull ==>
              var detail := Member(body.json, "detail");
              if detail.Some? && JsTruthy(detail.value) then m == JsString(detail.value)
              else m == "HTTP " + IntToString(status)
  {
    match body
    case Unparsable(_) => "Unknown error"
    case Parsed(JNull) => NULL_DETAIL
    case Parsed(j) =>
      match Member(j, "detail")
      case Some(d) => if JsTruthy(d) then JsString(d) else "HTTP " + IntToString(status)
      case None => "HTTP " + IntToString(status)
  }

  /** The message of a failed client-side validation. */
  function InvalidRequestMessage(issues: seq<Issue>): (m: string)
    ensures |m| >= 17 && m[..17] == "Invalid request: "
  {
    "Invalid request: " + Join(seq(|issues|, i requires 0 <= i < |issues| => issues[i].message), ", ")
  }

  /** A generation call: what was sent (nothing when validation failed) and the task id or the error raised. */
  datatype Submission = Submission(sent: Option<seq<FormPart>>, result: Result<string, ClientError>)

  /**
   * The client's generation call. `respond` is the network and the server;
   * `shapeError` is the schema library's message for a reply of the wrong shape.
   */
  function GeneratePodcast(raw: RawGenerateRequest, respond: seq<FormPart> -> FetchOutcome, shapeError: Json -> string)
    : (s: Submission)
    ensures s.sent.None? <==> !ValidRequest(raw)
    ensures s.sent.None? ==> s.result == Failure(ValidationError(InvalidRequestMessage(RequestIssues(raw))))
    ensures s.sent.Some? ==> s.sent.value == EncodeFormAsWritten(raw)
    ensures s.result.Success? <==>
              s.sent.Some? && respond(s.sent.value).Response? && respond(s.sent.value).ok
              && respond(s.sent.value).body.Parsed?
              && ParseGenerateResponse(respond(s.sent.value).body.json).Some?
    ensures s.result.Success? ==> Some(s.result.value) == ParseGenerateResponse(respond(s.sent.value).body.json)
    ensures s.sent.Some? && respond(s.sent.value).Response? && !respond(s.sent.value).ok ==>
              s.result == Failure(RequestError(FailureMessage(respond(s.sent.value).status, respond(s.sent.value).body)))
    ensures s.sent.Some? && respond(s.sent.value).NetworkError? ==>
              s.result == Failure(RequestError(respond(s.sent.value).message))
  {
    match ParseGenerateRequest(raw)
    case Failure(issues) => Submission(None, Failure(ValidationError(InvalidRequestMessage(issues))))
    case Success(_) =>
      var parts := EncodeFormAsWritten(raw);
      var outcome := respond(parts);
      Submission(Some(parts),
        match outcome
        case NetworkError(m) => Failure(RequestError(m))
        case Response(false, status, body) => Failure(RequestError(FailureMessage(status, body)))
        case Response(true, _, Unparsable(m)) => Failure(RequestError(m))
        case Response(true, _, Parsed(j)) =>
          match ParseGenerateResponse(j)
          case Some(taskId) => Success(taskId)
          case None => Failure(RequestError(shapeError(j))))
  }

  // ---------------------------------------------------------------------------
  // Paths
  // ---------------------------------------------------------------------------

  /** The task-status path; the id is inserted as it is. */
  function TaskStatusPath(taskId: string): (path: string)
    ensures |path| == |taskId| + 29
    ensures path[..22] == "/api/v1/podcasts/task/" && path[22..22 + |taskId|] == taskId
    ensures path[22 + |taskId|..] == "/status"
  {
    "/api/v1/podcasts/task/" + taskId + "/status"
  }

  const VOICES_PREFIX := "/api/v1/podcasts/tts-voices/"

  /** The voice-catalogue path, with the provider percent-encoded as a single segment. */
  function VoicesPath(provider: string): (path: string)
    ensures |path| >= |VOICES_PREFIX| && path[..|VOICES_PREFIX|] == VOICES_PREFIX
    ensures path[|VOICES_PREFIX|..] == PercentEncoding.EncodeURIComponent(provider)
    ensures '/' !in path[|VOICES_PREFIX|..]
  {
    VOICES_PREFIX + PercentEncoding.EncodeURIComponent(provider)
  }

  /** The path segment is decoded back to the provider it was built from. */
  lemma VoicesPathRoundTrip(provider: string)
    requires PercentEncoding.IsAscii(provider)
    ensures PercentEncoding.Unquote(VoicesPath(provider)[|VOICES_PREFIX|..]) == provider
  {
    PercentEncoding.UnquoteEncodeRoundTrip(provider);
  }
}

=== FILE: configuration.dfy ===
/**
 * The podcast agent's configuration, read from the run configuration's
 * `configurable` mapping: only the configuration's own field names are kept, the
 * optional fields default to `None`, and the two required fields must be present.
 */
module AgentConfig {
  import opened Results
  import opened Json

  /** The agent's configuration. Values are not type-checked on construction, so each is a JSON value. */
  datatype Configuration = Configuration(
    podcastTitle: Json,
    searchSpaceId: Json,
    userPrompt: Json,
    ttsProvider: Json,
    customVoices: Json)

  /** The configuration's initialisable field names. */
  const INIT_FIELDS: set<string> := {"podcast_title", "search_space_id", "user_prompt", "tts_provider", "custom_voices"}

  /** Why no configuration could be built. */
  datatype ConfigError =
      /** `configurable` is truthy but not a mapping, so it has no items to read. */
    | NotAMapping
      /** Required fields missing from the filtered mapping, in declaration order. */
    | MissingArguments(names: seq<string>)

  /**
   * The `configurable` mapping of a run configuration (`None` when no
   * configuration is given); a missing or falsy entry counts as empty.
   */
  function Configurable(config: Option<map<string, Json>>): (r: Result<map<string, Json>, ConfigError>)
    ensures config.None? || config == Some(map[]) ==> r == Success(map[])
    ensures config.Some? && config.value != map[] ==>
              var entry := PyGet(config.value, "configurable", JNull);
              if !PyTruthy(entry) then r == Success(map[])
              else if entry.JObj? then r == Success(entry.fields)
              else r == Failure(NotAMapping)
  {
    if config.None? || config.value == map[] then Success(map[])
    else
      var entry := PyGet(config.value, "configurable", JNull);
      if !PyTruthy(entry) then Success(map[])
      else if entry.JObj? then Success(entry.fields)
      else Failure(NotAMapping)
  }

  /** The entries whose keys are field names. */
  function KeepFields(m: map<string, Json>): (kept: map<string, Json>)
    ensures kept.Keys == m.Keys * INIT_FIELDS
    ensures forall k :: k in kept ==> kept[k] == m[k]
  {
    map k | k in m && k in INIT_FIELDS :: m[k]
  }

  function MissingRequired(kwargs: map<string, Json>): (names: seq<string>)
    ensures forall i :: 0 <= i < |names| ==> names[i] !in kwargs
    ensures "podcast_title" !in kwargs ==> "podcast_title" in names
    ensures "search_space_id" !in kwargs ==> "search_space_id" in names
  {
    (if "podcast_title" in kwargs then [] else ["podcast_title"])
    + (if "search_space_id" in kwargs then [] else ["search_space_id"])
  }

  /** Construction from keyword arguments whose keys are all field names. */
  function Construct(kwargs: map<string, Json>): (r: Result<Configuration, ConfigError>)
    requires kwargs.Keys <= INIT_FIELDS
    ensures r.Success? <==> "podcast_title" in kwargs && "search_space_id" in kwargs
    ensures r.Failure? ==> r.error == MissingArguments(MissingRequired(kwargs)) && r.error.names != []
    ensures r.Success? ==>
              && r.value.podcastTitle == kwargs["podcast_title"]
              && r.value.searchSpaceId == kwargs["search_space_id"]
              && r.value.userPrompt == PyGet(kwargs, "user_prompt", JNull)
              && r.value.ttsProvider == PyGet(kwargs, "tts_provider", JNull)
              && r.value.customVoices == PyGet(kwargs, "custom_voices", JNull)
  {
    if MissingRequired(kwargs) != [] then Failure(MissingArguments(MissingRequired(kwargs)))
    else
      Success(Configuration(
        kwargs["podcast_title"], kwargs["search_space_id"],
        PyGet(kwargs, "user_prompt", JNull), PyGet(kwargs, "tts_provider", JNull), PyGet(kwargs, "custom_voices", JNull)))
  }

  /** `Configuration.from_runnable_config`. */
  function FromRunnableConfig(config: Option<map<string, Json>>): (r: Result<Configuration, ConfigError>)
    ensures Configurable(config).Failure? ==> r == Failure(NotAMapping)
    ensures Configurable(config).Success? ==> r == Construct(KeepFields(Configurable(config).value))
  {
    match Configurable(config)
    case Failure(e) => Failure(e)
    case Success(m) => Construct(KeepFields(m))
  }

  /** The mapping that describes a configuration, with every field present. */
  function AsMapping(c: Configuration): (m: map<string, Json>)
    ensures m.Keys == INIT_FIELDS
  {
    map["podcast_title" := c.podcastTitle, "search_space_id" := c.searchSpaceId, "user_prompt" := c.userPrompt,
        "tts_provider" := c.ttsProvider, "custom_voices" := c.customVoices]
  }

  /** A configuration survives being written into a run configuration and read back, whatever else is there. */
  lemma ConfigurationRoundTrip(c: Configuration, others: map<string, Json>)
    requires others.Keys !! INIT_FIELDS
    ensures FromRunnableConfig(Some(map["configurable" := JObj(AsMapping(c) + others)])) == Success(c)
  {
    var m := AsMapping(c) + others;
    var config := map["configurable" := JObj(m)];
    assert PyTruthy(JObj(m)) by {
      assert "podcast_title" in m;
    }
    assert Configurable(Some(config)) == Success(m) by {
      assert "configurable" in config && config["configurable"] == JObj(m);
      assert config != map[];
    }
    assert KeepFields(m) == AsMapping(c);
    ConstructAll(c);
  }

  /** A mapping with every field constructs the configuration it describes. */
  lemma ConstructAll(c: Configuration)
    ensures Construct(AsMapping(c)) == Success(c)
  {
    var m := AsMapping(c);
    assert "podcast_title" in m && "search_space_id" in m;
    assert MissingRequired(m) == [];
  }

  /** Keys that are not field names make no difference. */
  lemma UnknownKeysIgnored(m: map<string, Json>, others: map<string, Json>)
    requires others.Keys !! INIT_FIELDS
    ensures KeepFields(m + others) == KeepFields(m)
  {
  }

  /** Only field names are passed on, so construction never sees an unexpected keyword. */
  lemma OnlyFieldsPassed(config: Option<map<string, Json>>)
    requires Configurable(config).Success?
    ensures KeepFields(Configurable(config).value).Keys <= INIT_FIELDS
  {
  }

  /** Without a configuration, or with an empty `configurable`, construction fails for both required fields. */
  lemma EmptyConfigurationFails(config: Option<map<string, Json>>)
    requires config.None? || (config.Some? && "configurable" in config.value && config.value["configurable"] == JObj(map[]))
    ensures FromRunnableConfig(config) == Failure(MissingArguments(["podcast_title", "search_space_id"]))
  {
    assert Configurable(config) == Success(map[]);
    assert KeepFields(map[]) == map[];
    assert MissingRequired(map[]) == ["podcast_title", "search_space_id"];
    assert Construct(map[]) == Failure(MissingArguments(["podcast_title", "search_space_id"]));
  }

  /** The optional fields left out default to `None`. */
  lemma OptionalFieldsDefaultToNone(title: Json, space: Json)
    ensures FromRunnableConfig(Some(map["configurable" := JObj(map["podcast_title" := title, "search_space_id" := space])]))
            == Success(Configuration(title, space, JNull, JNull, JNull))
  {
    var m := map["podcast_title" := title, "search_space_id" := space];
    var config := map["configurable" := JObj(m)];
    assert PyTruthy(JObj(m)) by {
      assert "podcast_title" in m;
    }
    assert Configurable(Some(config)) == Success(m) by {
      assert "configurable" in config && config["configurable"] == JObj(m);
      assert config != map[];
    }
    assert KeepFields(m) == m;
    assert MissingRequired(m) == [];
    assert "user_prompt" !in m && "tts_provider" !in m && "custom_voices" !in m;
  }
}

=== FILE: content_input.dfy ===
/**
 * The content input panel: the word count shown under the text box, the text
 * handed to the parent on every change, and the choice of the dropped document.
 */
module ContentInput {
  import opened Results
  import opened Strings
  import opened Multipart

  /** The position of the first whitespace character, or `|s|` when there is none. */
  function FirstSpace(s: string): (i: nat)
    ensures i <= |s|
    ensures forall k :: 0 <= k < i ==> !IsSpace(JsWhitespace, s[k])
    ensures i < |s| ==> IsSpace(JsWhitespace, s[i])
  {
    if s == [] then 0
    else if IsSpace(JsWhitespace, s[0]) then 0
    else 1 + FirstSpace(s[1..])
  }

  /**
   * JavaScript's `s.split(/\s+/)`: the pieces between maximal runs of whitespace,
   * an empty piece at either end when `s` starts or ends with whitespace.
   */
  function SplitOnSpaces(s: string): (pieces: seq<string>)
    ensures |pieces| >= 1
    decreases |s|
  {
    var i := FirstSpace(s);
    if i == |s| then [s]
    else
      var j := i + LeadingSpaces(JsWhitespace, s[i..]);
      [s[..i]] + SplitOnSpaces(s[j..])
  }

  /** `filter(Boolean)` on strings: the non-empty pieces, in order. */
  function NonEmpty(pieces: seq<string>): (r: seq<string>)
    ensures |r| <= |pieces|
    ensures forall k :: 0 <= k < |r| ==> r[k] != ""
  {
    if pieces == [] then []
    else (if pieces[0] == "" then [] else [pieces[0]]) + NonEmpty(pieces[1..])
  }

  /** The word count the panel shows for `content`. */
  function WordCount(content: string): nat {
    |NonEmpty(SplitOnSpaces(Trim(JsWhitespace, content)))|
  }

  /**
   * The number of maximal runs of non-whitespace characters in `s`, given whether
   * the character before `s` is whitespace (or there is none).
   */
  function Runs(s: string, afterSpace: bool): nat
    decreases |s|
  {
    if s == [] then 0
    else (if afterSpace && !IsSpace(JsWhitespace, s[0]) then 1 else 0) + Runs(s[1..], IsSpace(JsWhitespace, s[0]))
  }

  /** Whether the character just before the end of `a` is whitespace (the start counts as whitespace when `afterSpace`). */
  function EndsAfterSpace(a: string, afterSpace: bool): bool {
    if a == [] then afterSpace else IsSpace(JsWhitespace, a[|a| - 1])
  }

  lemma {:induction false} RunsConcat(a: string, b: string, afterSpace: bool)
    ensures Runs(a + b, afterSpace) == Runs(a, afterSpace) + Runs(b, EndsAfterSpace(a, afterSpace))
    decreases |a|
  {
    if a == [] {
      assert a + b == b;
    } else {
      assert (a + b)[0] == a[0];
      assert (a + b)[1..] == a[1..] + b;
      RunsConcat(a[1..], b, IsSpace(JsWhitespace, a[0]));
      if |a| > 1 {
        assert a[1..][|a[1..]| - 1] == a[|a| - 1];
      }
    }
  }

  lemma {:induction false} RunsOfSpaces(s: string, afterSpace: bool)
    requires AllSpace(JsWhitespace, s)
    ensures Runs(s, afterSpace) == 0
    decreases |s|
  {
    if s != [] {
      assert forall k :: 0 <= k < |s| - 1 ==> s[1..][k] == s[k + 1];
      RunsOfSpaces(s[1..], IsSpace(JsWhitespace, s[0]));
    }
  }

  lemma {:induction false} RunsOfWord(w: string)
    requires forall k :: 0 <= k < |w| ==> !IsSpace(JsWhitespace, w[k])
    ensures Runs(w, true) == if w == [] then 0 else 1
  {
    if w != [] {
      RunsOfWordTail(w[1..]);
    }
  }

  lemma {:induction false} RunsOfWordTail(w: string)
    requires forall k :: 0 <= k < |w| ==> !IsSpace(JsWhitespace, w[k])
    ensures Runs(w, false) == 0
    decreases |w|
  {
    if w != [] {
      RunsOfWordTail(w[1..]);
    }
  }

  /** A run of whitespace forgets what came before it. */
  lemma RunsAfterSpaces(sp: string, rest: string, afterSpace: bool)
    requires sp != [] && AllSpace(JsWhitespace, sp)
    ensures Runs(sp + rest, afterSpace) == Runs(rest, true)
  {
    RunsConcat(sp, rest, afterSpace);
    RunsOfSpaces(sp, afterSpace);
  }

  lemma NonEmptyConcat(a: seq<string>, b: seq<string>)
    ensures NonEmpty(a + b) == NonEmpty(a) + NonEmpty(b)
  {
    if a == [] {
      assert a + b == b;
    } else {
      assert (a + b)[0] == a[0];
      assert (a + b)[1..] == a[1..] + b;
      NonEmptyConcat(a[1..], b);
    }
  }

  /** Splitting on whitespace and dropping empty pieces leaves one piece per run. */
  lemma {:induction false} SplitCountsRuns(s: string)
    ensures |NonEmpty(SplitOnSpaces(s))| == Runs(s, true)
    decreases |s|
  {
    if FirstSpace(s) == |s| {
      RunsOfWord(s);
    } else {
      var w, rest := SplitFirst(s);
      NonEmptyConcat([w], SplitOnSpaces(rest));
      NonEmptySingle(w);
      SplitCountsRuns(rest);
    }
  }

  /** The first piece of a split and the text after the whitespace that ends it. */
  lemma SplitFirst(s: string) returns (w: string, rest: string)
    requires FirstSpace(s) < |s|
    ensures |rest| < |s|
    ensures SplitOnSpaces(s) == [w] + SplitOnSpaces(rest)
    ensures Runs(s, true) == (if w == [] then 0 else 1) + Runs(rest, true)
  {
    var i := FirstSpace(s);
    var j := SpaceRun(s, i);
    SplitOnce(s, i, j - i);
    w, rest := s[..i], s[j..];
    RunsSplit(s, i, j);
  }

  /** One step of the split: the piece before the first whitespace, then the split of what follows its run. */
  lemma SplitOnce(s: string, i: nat, k: nat)
    requires i == FirstSpace(s) && i < |s| && k == LeadingSpaces(JsWhitespace, s[i..])
    ensures SplitOnSpaces(s) == [s[..i]] + SplitOnSpaces(s[i + k..])
  {
  }

  /** The end of the run of whitespace starting at `i`. */
  lemma SpaceRun(s: string, i: nat) returns (j: nat)
    requires i < |s| && IsSpace(JsWhitespace, s[i])
    ensures j == i + LeadingSpaces(JsWhitespace, s[i..])
    ensures i < j <= |s| && AllSpace(JsWhitespace, s[i..j])
  {
    var t := s[i..];
    var l := LeadingSpaces(JsWhitespace, t);
    assert IsSpace(JsWhitespace, t[0]);
    j := i + l;
    assert t[..l] == s[i..j];
  }

  /** Counting runs across a word and the whitespace after it. */
  lemma RunsSplit(s: string, i: nat, j: nat)
    requires i < j <= |s|
    requires forall k :: 0 <= k < i ==> !IsSpace(JsWhitespace, s[k])
    requires AllSpace(JsWhitespace, s[i..j])
    ensures Runs(s, true) == (if i == 0 then 0 else 1) + Runs(s[j..], true)
  {
    var w, sp, rest := s[..i], s[i..j], s[j..];
    assert forall k :: 0 <= k < |w| ==> w[k] == s[k];
    assert s == w + (sp + rest);
    WordThenSpaces(w, sp, rest);
  }

  lemma NonEmptySingle(w: string)
    ensures NonEmpty([w]) == if w == [] then [] else [w]
  {
    assert [w][1..] == [];
  }

  /** A word followed by whitespace counts one run, or none when the word is empty, before what follows. */
  lemma WordThenSpaces(w: string, sp: string, rest: string)
    requires forall k :: 0 <= k < |w| ==> !IsSpace(JsWhitespace, w[k])
    requires sp != [] && AllSpace(JsWhitespace, sp)
    ensures Runs(w + (sp + rest), true) == (if w == [] then 0 else 1) + Runs(rest, true)
  {
    RunsConcat(w, sp + rest, true);
    RunsOfWord(w);
    RunsAfterSpaces(sp, rest, EndsAfterSpace(w, true));
  }

  /** Leading and trailing whitespace add no runs. */
  lemma TrimKeepsRuns(s: string)
    ensures Runs(Trim(JsWhitespace, s), true) == Runs(s, true)
  {
    var l := LeadingSpaces(JsWhitespace, s);
    var t := Trim(JsWhitespace, s);
    var front := s[..l];
    var back := s[l + |t|..];
    assert s == front + (t + back);
    RunsConcat(front, t + back, true);
    RunsOfSpaces(front, true);
    assert EndsAfterSpace(front, true);
    RunsConcat(t, back, true);
    RunsOfSpaces(back, EndsAfterSpace(t, true));
  }

  /** The word count is the number of maximal runs of non-whitespace characters. */
  lemma WordCountIsRuns(content: string)
    ensures WordCount(content) == Runs(content, true)
  {
    SplitCountsRuns(Trim(JsWhitespace, content));
    TrimKeepsRuns(content);
  }

  /** Empty or whitespace-only content has no words. */
  lemma BlankHasNoWords(content: string)
    requires AllSpace(JsWhitespace, content)
    ensures WordCount(content) == 0
  {
    WordCountIsRuns(content);
    RunsOfSpaces(content, true);
  }

  lemma RunsIgnorePadding(front: string, content: string, back: string)
    requires AllSpace(JsWhitespace, front) && AllSpace(JsWhitespace, back)
    ensures Runs(front + content + back, true) == Runs(content, true)
  {
    assert front + content + back == front + (content + back);
    RunsConcat(front, content + back, true);
    RunsOfSpaces(front, true);
    RunsConcat(content, back, true);
    RunsOfSpaces(back, EndsAfterSpace(content, true));
  }

  /** Padding the content with whitespace does not change its word count. */
  lemma PaddingKeepsWordCount(front: string, content: string, back: string)
    requires AllSpace(JsWhitespace, front) && AllSpace(JsWhitespace, back)
    ensures WordCount(front + content + back) == WordCount(content)
  {
    var padded := front + content + back;
    WordCountIsRuns(padded);
    WordCountIsRuns(content);
    RunsIgnorePadding(front, content, back);
  }

  /** What a change of the text box does: the text handed to the parent and the count shown. */
  datatype TextChange = TextChange(forwarded: string, wordCount: nat)

  function HandleTextChange(content: string): (c: TextChange)
    ensures c.forwarded == content
    ensures c.wordCount == Runs(content, true)
  {
    WordCountIsRuns(content);
    TextChange(content, WordCount(content))
  }


  // ---------------------------------------------------------------------------
  // The drop zone
  // ---------------------------------------------------------------------------

  /** The file extensions the drop zone accepts, compared without regard to case. */
  const ACCEPTED_EXTENSIONS := [".txt", ".pdf", ".docx", ".doc", ".md"]

  /** At most this many files are accepted from one drop. */
  const MAX_FILES := 1

  predicate EndsWith(s: string, suffix: string) {
    |suffix| <= |s| && s[|s| - |suffix|..] == suffix
  }

  /** A file the drop zone's accept list lets through. */
  predicate AcceptedType(f: DocumentFile) {
    exists k :: 0 <= k < |ACCEPTED_EXTENSIONS| && EndsWith(Lower(f.name), ACCEPTED_EXTENSIONS[k])
  }

  /** The dropped files of an accepted type, in drop order. */
  function OfAcceptedType(dropped: seq<DocumentFile>): (r: seq<DocumentFile>)
    ensures forall f :: f in r <==> f in dropped && AcceptedType(f)
    ensures |r| <= |dropped|
  {
    if dropped == [] then []
    else
      var rest := OfAcceptedType(dropped[1..]);
      assert forall f :: f in dropped <==> f == dropped[0] || f in dropped[1..];
      if AcceptedType(dropped[0]) then [dropped[0]] + rest else rest
  }

  /**
   * The files the drop zone hands to the drop handler: those of an accepted type,
   * unless there are more of them than `MAX_FILES`, when every one is rejected.
   */
  function DropAccepted(dropped: seq<DocumentFile>): (accepted: seq<DocumentFile>)
    ensures |accepted| <= MAX_FILES
    ensures forall f :: f in accepted ==> f in dropped && AcceptedType(f)
    ensures accepted == [] <==> |OfAcceptedType(dropped)| != 1
  {
    var typed := OfAcceptedType(dropped);
    if |typed| > MAX_FILES then [] else typed
  }

  /** A drop selects its first accepted file; an empty drop keeps the current selection. */
  function OnDrop(accepted: seq<DocumentFile>, current: Option<DocumentFile>): (selected: Option<DocumentFile>)
    ensures accepted == [] ==> selected == current
    ensures accepted != [] ==> selected == Some(accepted[0])
  {
    if |accepted| > 0 then Some(accepted[0]) else current
  }

  /** After a drop the selection is either unchanged or a dropped file of an accepted type. */
  lemma DropSelectsDroppedDocument(dropped: seq<DocumentFile>, current: Option<DocumentFile>)
    ensures var selected := OnDrop(DropAccepted(dropped), current);
            selected == current || (selected.Some? && selected.value in dropped && AcceptedType(selected.value))
  {
  }

  /** One dropped file replaces the selection exactly when its type is accepted. */
  lemma SingleDrop(f: DocumentFile, current: Option<DocumentFile>)
    ensures OnDrop(DropAccepted([f]), current) == if AcceptedType(f) then Some(f) else current
  {
  }

  /** Two documents dropped at once exceed the limit: both are rejected and the selection stays. */
  lemma TwoDocumentsKeepSelection(f: DocumentFile, g: DocumentFile, current: Option<DocumentFile>)
    requires AcceptedType(f) && AcceptedType(g)
    ensures OnDrop(DropAccepted([f, g]), current) == current
  {
    assert [f, g][1..] == [g];
    assert [g][1..] == [];
  }

  /** A PDF is accepted whatever the case of its extension. */
  lemma UpperCasePdfAccepted(stem: string, bytes: seq<Byte>)
    ensures AcceptedType(DocumentFile(stem + ".PDF", bytes))
  {
    var name := Lower(stem + ".PDF");
    assert name[|name| - 4..] == ".pdf";
    assert EndsWith(name, ACCEPTED_EXTENSIONS[1]);
  }
}

=== FILE: flow.dfy ===
/**
 * The generation flow across its layers: the form the client sends is the form
 * the backend binds, the reply of each endpoint is accepted by the client's
 * validator for it, and the statuses the backend reports drive the generator
 * component to the end the job reached.
 */
module Flow {
  import opened Results
  import opened Strings
  import opened Json
  import opened Multipart
  import opened Contracts
  import VoiceTables
  import PercentEncoding
  import Routes
  import ApiService
  import Generator
  import TtsPanel

  // ---------------------------------------------------------------------------
  // The form, from the client to the backend
  // ---------------------------------------------------------------------------

  /**
   * The form the backend should bind from a validated request: an empty title
   * falls back to the form default, a falsy optional member is absent, and only
   * the source member of the request's own kind is present.
   */
  function Received(req: GenerateRequest): Routes.GenerateForm {
    Routes.GenerateForm(
      req.searchSpaceId,
      if req.podcastTitle == "" then Routes.DEFAULT_TITLE else req.podcastTitle,
      Truthy(req.userPrompt),
      Truthy(req.ttsProvider),
      Truthy(req.speaker0Voice),
      Truthy(req.speaker1Voice),
      ApiService.SourceTypeName(req.sourceType),
      if req.sourceType == Text then Truthy(req.textContent) else None,
      if req.sourceType == Document then req.documentFile else None)
  }

  /** The members sent after the three that are always sent. */
  function Tail(req: GenerateRequest): seq<FormPart> {
    ApiService.OptionalParts(ApiService.OptionalMembers(req)) + ApiService.SourceParts(req)
  }

  lemma AlwaysSentFields(req: GenerateRequest)
    ensures Routes.FormText(ApiService.EncodeForm(req), "search_space_id") == Some(IntToString(req.searchSpaceId))
    ensures Routes.FormText(ApiService.EncodeForm(req), "podcast_title")
            == if req.podcastTitle == "" then None else Some(req.podcastTitle)
    ensures Routes.FormText(ApiService.EncodeForm(req), "source_type") == Some(ApiService.SourceTypeName(req.sourceType))
  {
    var a := ApiService.AlwaysSent(req);
    assert ApiService.EncodeForm(req) == a + Tail(req);
    assert TextField(a, "search_space_id") == Some(IntToString(req.searchSpaceId));
    assert TextField(a, "podcast_title") == Some(req.podcastTitle);
    assert TextField(a, "source_type") == Some(ApiService.SourceTypeName(req.sourceType));
    ApiService.LaterPartsKeepNames(req, "search_space_id");
    ApiService.LaterPartsKeepNames(req, "podcast_title");
    ApiService.LaterPartsKeepNames(req, "source_type");
    TextFieldKeep(a, Tail(req), "search_space_id");
    TextFieldKeep(a, Tail(req), "podcast_title");
    TextFieldKeep(a, Tail(req), "source_type");
  }

  lemma OptionalFieldArrives(req: GenerateRequest, name: string)
    requires name in ApiService.OPTIONAL_NAMES
    ensures Routes.FormText(ApiService.EncodeForm(req), name)
            == Truthy(ApiService.LookupMember(ApiService.OptionalMembers(req), name))
  {
    var parts := ApiService.EncodeForm(req);
    var v := ApiService.LookupMember(ApiService.OptionalMembers(req), name);
    ApiService.OptionalMembersSentIffGiven(req, name);
  }

  /** No part of the first two sections is called `name`. */
  lemma NotInFront(req: GenerateRequest, name: string)
    requires name !in ApiService.OPTIONAL_NAMES
    requires name !in {"search_space_id", "podcast_title", "source_type"}
    ensures !HasPart(ApiService.AlwaysSent(req) + ApiService.OptionalParts(ApiService.OptionalMembers(req)), name)
  {
    var a, b := ApiService.AlwaysSent(req), ApiService.OptionalParts(ApiService.OptionalMembers(req));
    ApiService.OptionalMembersShape(req);
    HasPartConcat(a, b, name);
    assert forall i :: 0 <= i < |b| ==> b[i].Name() == b[i].name;
  }

  lemma SourceFieldsArrive(req: GenerateRequest)
    ensures Routes.FormText(ApiService.EncodeForm(req), "text_content")
            == if req.sourceType == Text then Truthy(req.textContent) else None
    ensures FileField(ApiService.EncodeForm(req), "document_file")
            == if req.sourceType == Document then req.documentFile else None
  {
    var front := ApiService.AlwaysSent(req) + ApiService.OptionalParts(ApiService.OptionalMembers(req));
    var src := ApiService.SourceParts(req);
    assert ApiService.EncodeForm(req) == front + src;
    NotInFront(req, "text_content");
    NotInFront(req, "document_file");
    TextFieldSkip(front, src, "text_content");
    FileFieldSkip(front, src, "document_file");
  }

  /** The backend binds exactly the form the client meant to send. */
  lemma FormRoundTrip(req: GenerateRequest)
    ensures Routes.ReadForm(ApiService.EncodeForm(req)) == Success(Received(req))
  {
    var parts := ApiService.EncodeForm(req);
    AlwaysSentFields(req);
    IntRoundTrip(req.searchSpaceId);
    OptionalFieldArrives(req, "user_prompt");
    OptionalFieldArrives(req, "tts_provider");
    OptionalFieldArrives(req, "speaker_0_voice");
    OptionalFieldArrives(req, "speaker_1_voice");
    SourceFieldsArrive(req);
    LookupOptional(req);
    var form := Received(req);
    assert Routes.FormText(parts, "podcast_title").GetOr(Routes.DEFAULT_TITLE) == form.podcastTitle;
    assert Routes.FormText(parts, "source_type").GetOr(Routes.DEFAULT_SOURCE_TYPE) == form.sourceType;
    assert Routes.FormText(parts, "user_prompt") == form.userPrompt;
    assert Routes.FormText(parts, "tts_provider") == form.ttsProvider;
    assert Routes.FormText(parts, "speaker_0_voice") == form.speaker0Voice;
    assert Routes.FormText(parts, "speaker_1_voice") == form.speaker1Voice;
    assert Routes.FormText(parts, "text_content") == form.textContent;
    assert FileField(parts, "document_file") == form.documentFile;
    BindFields(parts, form);
  }

  lemma LookupOptional(req: GenerateRequest)
    ensures ApiService.LookupMember(ApiService.OptionalMembers(req), "user_prompt") == req.userPrompt
    ensures ApiService.LookupMember(ApiService.OptionalMembers(req), "tts_provider") == req.ttsProvider
    ensures ApiService.LookupMember(ApiService.OptionalMembers(req), "speaker_0_voice") == req.speaker0Voice
    ensures ApiService.LookupMember(ApiService.OptionalMembers(req), "speaker_1_voice") == req.speaker1Voice
  {
    var ms := ApiService.OptionalMembers(req);
    var t1 := ms[1..];
    assert t1 == [ms[1], ms[2], ms[3]];
    var t2 := t1[1..];
    assert t2 == [ms[2], ms[3]];
    var t3 := t2[1..];
    assert t3 == [ms[3]];
    assert ApiService.LookupMember(t3, "speaker_1_voice") == req.speaker1Voice;
    assert ApiService.LookupMember(t2, "speaker_1_voice") == req.speaker1Voice;
    assert ApiService.LookupMember(t1, "speaker_1_voice") == req.speaker1Voice;
    assert ApiService.LookupMember(t2, "speaker_0_voice") == req.speaker0Voice;
    assert ApiService.LookupMember(t1, "speaker_0_voice") == req.speaker0Voice;
  }

  /** A form binds to `form` when each of its fields reads as that field. */
  lemma BindFields(parts: seq<FormPart>, form: Routes.GenerateForm)
    requires Routes.FormText(parts, "search_space_id") == Some(IntToString(form.searchSpaceId))
    requires ParseInt(IntToString(form.searchSpaceId)) == Some(form.searchSpaceId)
    requires Routes.FormText(parts, "podcast_title").GetOr(Routes.DEFAULT_TITLE) == form.podcastTitle
    requires Routes.FormText(parts, "source_type").GetOr(Routes.DEFAULT_SOURCE_TYPE) == form.sourceType
    requires Routes.FormText(parts, "user_prompt") == form.userPrompt
    requires Routes.FormText(parts, "tts_provider") == form.ttsProvider
    requires Routes.FormText(parts, "speaker_0_voice") == form.speaker0Voice
    requires Routes.FormText(parts, "speaker_1_voice") == form.speaker1Voice
    requires Routes.FormText(parts, "text_content") == form.textContent
    requires FileField(parts, "document_file") == form.documentFile
    ensures Routes.ReadForm(parts) == Success(form)
  {
  }

  /**
   * A request without a title, as the client sends it, is bound by the backend as
   * intended except for the title, which is the text "undefined" and not the default.
   */
  lemma UntitledRequestIsNamedUndefined(raw: RawGenerateRequest)
    requires ValidRequest(raw) && raw.podcastTitle.Undefined?
    ensures Routes.ReadForm(ApiService.EncodeFormAsWritten(raw))
            == Success(Received(ParseGenerateRequest(raw).value).(podcastTitle := "undefined"))
  {
    var req := ParseGenerateRequest(raw).value;
    ApiService.AsWrittenTitlesUndefined(raw);
    FormRoundTrip(req.(podcastTitle := "undefined"));
  }

  /** The corrected form of a request without a title gets the same default title on both sides. */
  lemma DefaultTitleAgrees(raw: RawGenerateRequest)
    requires ValidRequest(raw) && raw.podcastTitle.Undefined?
    ensures Received(ParseGenerateRequest(raw).value).podcastTitle == DEFAULT_PODCAST_TITLE
    ensures Routes.DEFAULT_TITLE == DEFAULT_PODCAST_TITLE
  {
  }

  // ---------------------------------------------------------------------------
  // The backend as the client sees it
  // ---------------------------------------------------------------------------

  /**
   * The response for an error the routes raise. An HTTP error carries its detail;
   * the status of a permission denial is decided by the access-control module, so
   * it is a parameter; a form that cannot be bound gets the framework's list of
   * validation errors.
   */
  function ErrorResponse(e: Routes.RouteError, deniedStatus: int): (o: ApiService.FetchOutcome)
    ensures o.Response? && !o.ok && o.body.Parsed?
  {
    match e
    case HttpError(status, detail) => ApiService.Response(false, status, ApiService.Parsed(JObj(map["detail" := JStr(detail)])))
    case PermissionDenied(detail) =>
      ApiService.Response(false, deniedStatus, ApiService.Parsed(JObj(map["detail" := JStr(detail)])))
    case Unprocessable(field) =>
      var item := JObj(map["loc" := JArr([JStr("body"), JStr(field)]), "type" := JStr("missing")]);
      ApiService.Response(false, 422, ApiService.Parsed(JObj(map["detail" := JArr([item])])))
  }

  /** The generation endpoint as one request: bind the form, run the handler, answer. */
  function Backend(parts: seq<FormPart>, permitted: bool, decode: seq<Byte> -> Option<string>, taskId: string,
                   deniedStatus: int): (o: ApiService.FetchOutcome)
    ensures o.Response?
    ensures o.ok ==> o.body.Parsed? && ParseGenerateResponse(o.body.json) == Some(taskId)
  {
    match Routes.ReadForm(parts)
    case Failure(e) => ErrorResponse(e, deniedStatus)
    case Success(form) =>
      match Routes.GeneratePodcast(form, permitted, decode, taskId)
      case Failure(e) => ErrorResponse(e, deniedStatus)
      case Success(acc) => ApiService.Response(true, 200, ApiService.Parsed(acc.reply))
  }

  /** A detail the backend raises is the message the client reports, whatever the status. */
  lemma DetailReachesUser(e: Routes.RouteError, deniedStatus: int)
    requires e.HttpError? || e.PermissionDenied?
    requires e.detail != ""
    ensures var o := ErrorResponse(e, deniedStatus);
            ApiService.FailureMessage(o.status, o.body) == e.detail
  {
  }

  /** A form the framework cannot bind is reported by the client as the text of a JavaScript object. */
  lemma UnboundFormShowsObject(field: string)
    ensures var o := ErrorResponse(Routes.Unprocessable(field), 0);
            ApiService.FailureMessage(o.status, o.body) == "[object Object]"
  {
    var item := JObj(map["loc" := JArr([JStr("body"), JStr(field)]), "type" := JStr("missing")]);
    assert JsString(JArr([item])) == Join(["[object Object]"], ",");
  }

  /** The generation reply is accepted by the client's validator, with the same task id. */
  lemma GenerateReplyParses(taskId: string)
    ensures ParseGenerateResponse(Routes.GenerateReplyJson(taskId)) == Some(taskId)
  {
  }

  /** The request the generator builds from a form that passed its checks. */
  lemma BuiltRequest(f: Generator.Form, searchSpaceId: int)
    requires Generator.FirstProblem(f).None?
    ensures ParseGenerateRequest(Generator.BuildRequest(f, searchSpaceId)) == Success(GenerateRequest(
              searchSpaceId, f.podcastTitle, if f.userPrompt == "" then None else Some(f.userPrompt),
              Some(f.ttsProvider), Some(f.speaker0Voice), Some(f.speaker1Voice), f.sourceType,
              if f.sourceType == Text then Some(f.textContent) else None,
              if f.sourceType == Document then f.documentFile else None))
  {
  }

  /**
   * A text form that passes the generator's checks with the backend's notion of
   * whitespace, sent by a permitted user, is accepted: the form the client sends
   * binds as intended, the job gets the stripped text, the chosen provider, both
   * voices and the title (the default one when the title was cleared), and the
   * client gets the queue's task id back.
   */
  lemma TextFormStartsJob(f: Generator.Form, searchSpaceId: int, decode: seq<Byte> -> Option<string>,
                          taskId: string)
    requires Generator.FirstProblemLikeServer(f).None? && f.sourceType == Text
    ensures var raw := Generator.BuildRequest(f, searchSpaceId);
            var req := ParseGenerateRequest(raw).value;
            var r := Routes.GeneratePodcast(Received(req), true, decode, taskId);
            && Routes.ReadForm(ApiService.EncodeFormAsWritten(raw)) == Success(Received(req))
            && r.Success?
            && r.value.job.sourceContent == Trim(PyWhitespace, f.textContent)
            && r.value.job.searchSpaceId == searchSpaceId
            && r.value.job.podcastTitle == (if f.podcastTitle == "" then Routes.DEFAULT_TITLE else f.podcastTitle)
            && r.value.job.ttsProvider == Some(f.ttsProvider)
            && r.value.job.customVoices == Some(map[0 := f.speaker0Voice, 1 := f.speaker1Voice])
            && r.value.job.sourceType == "text"
            && ParseGenerateResponse(r.value.reply) == Some(taskId)
  {
    var raw := Generator.BuildRequest(f, searchSpaceId);
    var req := ParseGenerateRequest(raw).value;
    ApiService.AsWrittenAgreesWhenTitleGiven(raw);
    FormRoundTrip(req);
    var form := Received(req);
    TextFormReceived(f, searchSpaceId);
    TextJob(form, decode, taskId);
  }

  /**
   * A text form that JavaScript's `trim()` leaves non-empty but Python's `strip()`
   * empties (the separators U+001C to U+001F) passes the generator's checks and is
   * refused by the backend, whose detail the component shows.
   */
  lemma SeparatorTextIsRefused(f: Generator.Form, searchSpaceId: int, decode: seq<Byte> -> Option<string>,
                               taskId: string)
    requires Generator.FirstProblem(f).None? && f.sourceType == Text && AllSpace(PyWhitespace, f.textContent)
    ensures var req := ParseGenerateRequest(Generator.BuildRequest(f, searchSpaceId)).value;
            Routes.GeneratePodcast(Received(req), true, decode, taskId) == Failure(Routes.HttpError(400, Routes.TEXT_REQUIRED))
  {
    TextFormReceived(f, searchSpaceId);
  }

  /** Such a form exists: one whose text is the single separator U+001C. */
  lemma SeparatorPassesClientCheck(f: Generator.Form)
    requires f.sourceType == Text && f.textContent == "\U{001C}"
    requires f.ttsProvider != "" && f.speaker0Voice != "" && f.speaker1Voice != ""
    ensures Generator.FirstProblem(f).None?
    ensures Generator.FirstProblemLikeServer(f) == Some(Generator.TEXT_MISSING)
  {
    BlankInBoth(f.textContent);
  }

  /** The form the backend binds for a text form that passed the generator's checks. */
  lemma TextFormReceived(f: Generator.Form, searchSpaceId: int)
    requires Generator.FirstProblem(f).None? && f.sourceType == Text
    ensures var form := Received(ParseGenerateRequest(Generator.BuildRequest(f, searchSpaceId)).value);
            && form.searchSpaceId == searchSpaceId
            && form.podcastTitle == (if f.podcastTitle == "" then Routes.DEFAULT_TITLE else f.podcastTitle)
            && form.ttsProvider == Some(f.ttsProvider)
            && form.speaker0Voice == Some(f.speaker0Voice) && form.speaker1Voice == Some(f.speaker1Voice)
            && f.speaker0Voice != "" && f.speaker1Voice != ""
            && form.sourceType == "text"
            && form.textContent == Some(f.textContent) && !AllSpace(JsWhitespace, f.textContent)
  {
    BuiltRequest(f, searchSpaceId);
  }

  /** What the handler does with such a form. */
  lemma TextJob(form: Routes.GenerateForm, decode: seq<Byte> -> Option<string>, taskId: string)
    requires form.sourceType == "text" && form.textContent.Some? && !AllSpace(PyWhitespace, form.textContent.value)
    requires Given(form.speaker0Voice) && Given(form.speaker1Voice)
    ensures var r := Routes.GeneratePodcast(form, true, decode, taskId);
            && r.Success?
            && r.value.job.sourceContent == Trim(PyWhitespace, form.textContent.value)
            && r.value.job.searchSpaceId == form.searchSpaceId
            && r.value.job.podcastTitle == form.podcastTitle
            && r.value.job.ttsProvider == form.ttsProvider
            && r.value.job.customVoices == Some(map[0 := form.speaker0Voice.value, 1 := form.speaker1Voice.value])
            && r.value.job.sourceType == "text"
            && ParseGenerateResponse(r.value.reply) == Some(taskId)
  {
    var voices := Routes.CustomVoices(form.speaker0Voice, form.speaker1Voice);
    assert voices.value == map[0 := form.speaker0Voice.value, 1 := form.speaker1Voice.value];
  }

  /** The client's generation call against the backend. */
  function Submit(raw: RawGenerateRequest, permitted: bool, decode: seq<Byte> -> Option<string>, taskId: string,
                  deniedStatus: int, shapeError: Json -> string): Result<string, string>
  {
    var s := ApiService.GeneratePodcast(raw, parts => Backend(parts, permitted, decode, taskId, deniedStatus), shapeError);
    match s.result
    case Success(id) => Success(id)
    case Failure(e) => Failure(e.Message())
  }

  /** The client's call on a valid request is the backend's answer to the form it sends. */
  lemma SubmitSends(raw: RawGenerateRequest, permitted: bool, decode: seq<Byte> -> Option<string>, taskId: string,
                    deniedStatus: int, shapeError: Json -> string)
    requires ValidRequest(raw)
    ensures var o := Backend(ApiService.EncodeFormAsWritten(raw), permitted, decode, taskId, deniedStatus);
            var r := Submit(raw, permitted, decode, taskId, deniedStatus, shapeError);
            && (o.ok ==> r == Success(taskId))
            && (!o.ok ==> r == Failure(ApiService.FailureMessage(o.status, o.body)))
  {
    var parts := ApiService.EncodeFormAsWritten(raw);
    var s := ApiService.GeneratePodcast(raw, parts => Backend(parts, permitted, decode, taskId, deniedStatus), shapeError);
    assert s.sent == Some(parts);
  }

  /**
   * Pressing generate on a text form that passes the checks (with the backend's
   * whitespace), as a permitted user:
   * the component starts polling the task the backend queued.
   */
  lemma GenerateStartsPolling(s: Generator.State, searchSpaceId: int, decode: seq<Byte> -> Option<string>,
                              taskId: string, deniedStatus: int, shapeError: Json -> string)
    requires !s.isGenerating && Generator.FirstProblemLikeServer(s.form).None? && s.form.sourceType == Text
    requires taskId != ""
    ensures var t := Generator.HandleGenerate(s, searchSpaceId,
                                              raw => Submit(raw, true, decode, taskId, deniedStatus, shapeError)).state;
            Generator.PhaseOf(t) == Generator.Waiting && t.taskId == Some(taskId)
  {
    var raw := Generator.BuildRequest(s.form, searchSpaceId);
    var req := ParseGenerateRequest(raw).value;
    TextFormStartsJob(s.form, searchSpaceId, decode, taskId);
    SubmitSends(raw, true, decode, taskId, deniedStatus, shapeError);
  }

  /** Pressing generate without permission ends in the backend's denial message, and nothing is polled. */
  lemma DeniedGenerateShowsDetail(s: Generator.State, searchSpaceId: int, decode: seq<Byte> -> Option<string>,
                                  taskId: string, deniedStatus: int, shapeError: Json -> string)
    requires !s.isGenerating && Generator.FirstProblem(s.form).None?
    ensures var t := Generator.HandleGenerate(s, searchSpaceId,
                                              raw => Submit(raw, false, decode, taskId, deniedStatus, shapeError)).state;
            && t.error == Some(Routes.CREATE_DENIED)
            && !t.isGenerating && t.taskId == s.taskId
  {
    var raw := Generator.BuildRequest(s.form, searchSpaceId);
    var req := ParseGenerateRequest(raw).value;
    ApiService.AsWrittenAgreesWhenTitleGiven(raw);
    FormRoundTrip(req);
    SubmitSends(raw, false, decode, taskId, deniedStatus, shapeError);
    DetailReachesUser(Routes.PermissionDenied(Routes.CREATE_DENIED), deniedStatus);
  }

  // ---------------------------------------------------------------------------
  // Task status, from the job queue to the component
  // ---------------------------------------------------------------------------

  /**
   * The client's status call as a poll tick: a validated status, or a throw for a
   * failed request and for a reply its validator rejects.
   */
  function StatusPoll(o: ApiService.FetchOutcome): (e: Generator.PollEvent)
    ensures e.Arrived? <==> o.Response? && o.ok && o.body.Parsed? && ParseTaskStatus(o.body.json).Some?
    ensures e.Arrived? ==> Some(e.status) == ParseTaskStatus(o.body.json)
  {
    match o
    case Response(true, _, Parsed(j)) =>
      (match ParseTaskStatus(j)
       case Some(st) => Generator.Arrived(st)
       case None => Generator.PollThrew)
    case _ => Generator.PollThrew
  }

  /** The status endpoint's answer for a job, as the client receives it. */
  function StatusResponse(job: Routes.JobResult, show: Json -> string): ApiService.FetchOutcome {
    ApiService.Response(true, 200, ApiService.Parsed(Routes.StatusReplyJson(Routes.ClassifyJob(job, show))))
  }

  /** A job still running reaches the component as `processing` with its state label. */
  lemma RunningJobIsProcessing(job: Routes.JobResult, show: Json -> string)
    requires !job.ready
    ensures StatusPoll(StatusResponse(job, show)) == Generator.Arrived(Processing(Some(job.state)))
  {
  }

  /** The worker's well-typed success record. */
  predicate WellTypedSuccess(job: Routes.JobResult) {
    && job.ready && job.successful && Routes.IsSuccessRecord(job.payload)
    && PyGet(job.payload.fields, "podcast_id", JNull).JNum?
    && PyGet(job.payload.fields, "title", JNull).JStr?
    && PyGet(job.payload.fields, "transcript_entries", JNull).JNum?
  }

  /** A well-typed success reaches the component as that success. */
  lemma SuccessIsDelivered(job: Routes.JobResult, show: Json -> string)
    requires WellTypedSuccess(job)
    ensures StatusPoll(StatusResponse(job, show)) == Generator.Arrived(Succeeded(
              PyGet(job.payload.fields, "podcast_id", JNull).n,
              PyGet(job.payload.fields, "title", JNull).s,
              PyGet(job.payload.fields, "transcript_entries", JNull).n))
  {
  }

  /**
   * A success record whose podcast id is missing or not a number is rejected by
   * the client, which treats it as a failed poll: the task is polled again.
   */
  lemma UntypedSuccessKeepsPolling(s: Generator.State, job: Routes.JobResult, show: Json -> string, hasCallback: bool)
    requires job.ready && job.successful && Routes.IsSuccessRecord(job.payload)
    requires !PyGet(job.payload.fields, "podcast_id", JNull).JNum?
    ensures StatusPoll(StatusResponse(job, show)) == Generator.PollThrew
    ensures Generator.OnPoll(s, StatusPoll(StatusResponse(job, show)), hasCallback) == s
  {
  }

  /** A job that raised reaches the component as an error with the exception's text, or "Task failed". */
  lemma FailedJobIsError(job: Routes.JobResult, show: Json -> string)
    requires job.ready && !job.successful
    ensures StatusPoll(StatusResponse(job, show))
            == Generator.Arrived(Errored(if PyTruthy(job.payload) then show(job.payload) else Routes.TASK_FAILED))
  {
  }

  /**
   * A finished job whose result is not a success record reaches the component as
   * an error: the record's own message, "Unknown error" without one, or the
   * unexpected-format message for a result that is not a record.
   */
  lemma UnsuccessfulResultIsError(job: Routes.JobResult, show: Json -> string)
    requires job.ready && job.successful && !Routes.IsSuccessRecord(job.payload)
    requires job.payload.JObj? ==> PyGet(job.payload.fields, "error", JStr(Routes.UNKNOWN_ERROR)).JStr?
    ensures StatusPoll(StatusResponse(job, show)) == Generator.Arrived(Errored(
              if job.payload.JObj? then PyGet(job.payload.fields, "error", JStr(Routes.UNKNOWN_ERROR)).s
              else Routes.UNEXPECTED_FORMAT))
  {
  }

  /**
   * Whatever the backend reports, the tick the component sees leaves the task
   * running exactly when the job is still running or its report does not pass
   * the client's validator.
   */
  lemma PendingIffNotFinished(job: Routes.JobResult, show: Json -> string)
    ensures var e := StatusPoll(StatusResponse(job, show));
            Generator.Pending(e) <==> !job.ready || e.PollThrew?
  {
    var rep := Routes.ClassifyJob(job, show);
    var j := Routes.StatusReplyJson(rep);
    if job.ready && ParseTaskStatus(j).Some? {
      assert !ParseTaskStatus(j).value.Processing?;
    }
  }

  /**
   * A polling session against the backend: while the job runs nothing changes,
   * and once it succeeds the parent is notified exactly once, with the new
   * podcast's id, whatever ticks come after.
   */
  lemma WorkerSuccessNotifiesOnce(s: Generator.State, running: seq<Routes.JobResult>, job: Routes.JobResult,
                                  later: seq<Generator.PollEvent>, show: Json -> string)
    requires Generator.Polling(s)
    requires forall i :: 0 <= i < |running| ==> !running[i].ready
    requires WellTypedSuccess(job)
    ensures var ticks := seq(|running|, i requires 0 <= i < |running| => StatusPoll(StatusResponse(running[i], show)));
            var t := Generator.Run(s, ticks + [StatusPoll(StatusResponse(job, show))] + later, true);
            && t.notified == s.notified + [PyGet(job.payload.fields, "podcast_id", JNull).n]
            && Generator.PhaseOf(t) == Generator.Done
  {
    var ticks := seq(|running|, i requires 0 <= i < |running| => StatusPoll(StatusResponse(running[i], show)));
    forall i | 0 <= i < |ticks|
      ensures Generator.Pending(ticks[i])
    {
      RunningJobIsProcessing(running[i], show);
    }
    SuccessIsDelivered(job, show);
    var d := job.payload.fields;
    Generator.SuccessNotifiesOnce(s, ticks, PyGet(d, "podcast_id", JNull).n, PyGet(d, "title", JNull).s,
                                  PyGet(d, "transcript_entries", JNull).n, later);
  }

  /** The status path the client builds is routed to the status endpoint exactly for a one-segment id. */
  lemma StatusPathRoutes(taskId: string)
    ensures Routes.MatchTaskStatus(ApiService.TaskStatusPath(taskId)).Some? <==> taskId != [] && '/' !in taskId
    ensures taskId != [] && '/' !in taskId ==> Routes.MatchTaskStatus(ApiService.TaskStatusPath(taskId)) == Some(taskId)
  {
    var path := ApiService.TaskStatusPath(taskId);
    assert path == Routes.TASK_STATUS_PREFIX + taskId + Routes.TASK_STATUS_SUFFIX;
    var r := Routes.MatchTaskStatus(path);
    if r.Some? {
      var p := |Routes.TASK_STATUS_PREFIX|;
      assert |r.value| == |taskId|;
      assert r.value == path[p..p + |taskId|];
    }
    if taskId != [] && '/' !in taskId {
      Routes.MatchTaskStatusOf(taskId);
    }
  }

  // ---------------------------------------------------------------------------
  // The voice catalogue, from the backend to the settings panel
  // ---------------------------------------------------------------------------

  /** A catalogue entry as the client's validator yields it. */
  function ClientVoice(v: VoiceTables.Voice): (t: TtsVoice)
    ensures t.id == v.id && t.name == v.name && t.description == v.description
  {
    TtsVoice(v.id, v.name, v.description)
  }

  function ClientVoices(vs: seq<VoiceTables.Voice>): (ts: seq<TtsVoice>)
    ensures |ts| == |vs| && forall i :: 0 <= i < |vs| ==> ts[i] == ClientVoice(vs[i])
  {
    seq(|vs|, i requires 0 <= i < |vs| => ClientVoice(vs[i]))
  }

  /** The catalogue reply for a segment is accepted by the client's validator, entry for entry. */
  lemma VoicesReplyParses(segment: string)
    ensures ParseTtsVoicesResponse(Routes.VoicesReply(segment)) == Some(TtsVoicesResponse(
              PercentEncoding.Unquote(segment), ClientVoices(VoiceTables.AvailableVoices(PercentEncoding.Unquote(segment)))))
  {
    var provider := PercentEncoding.Unquote(segment);
    CatalogueReplyParses(Routes.VoicesReply(segment), provider, VoiceTables.AvailableVoices(provider));
  }

  /** A reply with the provider and one voice object per catalogue entry parses to that catalogue. */
  lemma CatalogueReplyParses(j: Json, provider: string, vs: seq<VoiceTables.Voice>)
    requires j.JObj? && "provider" in j.fields && "voices" in j.fields
    requires j.fields["provider"] == JStr(provider) && j.fields["voices"].JArr?
    requires |j.fields["voices"].items| == |vs|
    requires forall i :: 0 <= i < |vs| ==> j.fields["voices"].items[i] == Routes.VoiceJson(vs[i])
    ensures ParseTtsVoicesResponse(j) == Some(TtsVoicesResponse(provider, ClientVoices(vs)))
  {
    var items := j.fields["voices"].items;
    assert forall i :: 0 <= i < |items| ==> ParseTtsVoice(items[i]) == Some(ClientVoice(vs[i]));
    var parsed := ParseVoices(items);
    assert parsed.value == ClientVoices(vs);
  }

  const NOT_FOUND := "Not Found"

  /**
   * The catalogue endpoint as one request: the server percent-decodes the path,
   * matches it with `route` (the declared route, or the path-typed one), and
   * answers with the catalogue reply or the framework's not-found reply.
   */
  function VoicesEndpoint(path: string, route: string -> Option<string>): (o: ApiService.FetchOutcome)
    ensures o.Response? && o.body.Parsed?
    ensures o.ok <==> route(PercentEncoding.Unquote(path)).Some?
    ensures o.ok ==> o.body.json == Routes.VoicesReply(route(PercentEncoding.Unquote(path)).value)
    ensures !o.ok ==> o.status == 404
  {
    match route(PercentEncoding.Unquote(path))
    case None => ApiService.Response(false, 404, ApiService.Parsed(JObj(map["detail" := JStr(NOT_FOUND)])))
    case Some(segment) => ApiService.Response(true, 200, ApiService.Parsed(Routes.VoicesReply(segment)))
  }

  /** What the panel gets from a voices request: the validated catalogue, or a failure for anything else. */
  function VoiceLoadOf(o: ApiService.FetchOutcome): (load: TtsPanel.VoiceLoad)
    ensures load.Loaded? <==> o.Response? && o.ok && o.body.Parsed? && ParseTtsVoicesResponse(o.body.json).Some?
    ensures load.Loaded? ==> load.voices == ParseTtsVoicesResponse(o.body.json).value.voices
  {
    match o
    case Response(true, _, Parsed(j)) =>
      (match ParseTtsVoicesResponse(j)
       case Some(reply) => TtsPanel.Loaded(reply.voices)
       case None => TtsPanel.LoadFailed)
    case _ => TtsPanel.LoadFailed
  }

  /** The server sees a voices request for an ASCII provider as the route prefix followed by the provider itself. */
  lemma DecodedVoicesPath(provider: string)
    requires PercentEncoding.IsAscii(provider)
    ensures PercentEncoding.Unquote(ApiService.VoicesPath(provider)) == Routes.VOICES_ROUTE + provider
  {
    PercentEncoding.UnquotePlainPrefix(ApiService.VOICES_PREFIX, PercentEncoding.EncodeURIComponent(provider));
    PercentEncoding.UnquoteEncodeRoundTrip(provider);
  }

  /**
   * As declared, the route does not match a provider holding a '/': the request is
   * not found, and the panel shows its failure and keeps both speakers' voices.
   */
  lemma SlashedProviderNotFound(p: TtsPanel.Panel, provider: string, speaker0: string, speaker1: string)
    requires PercentEncoding.IsAscii(provider) && '/' in provider
    ensures var o := VoicesEndpoint(ApiService.VoicesPath(provider), Routes.MatchVoices);
            && !o.ok && o.status == 404
            && TtsPanel.OnProviderChange(p, provider, speaker0, speaker1, VoiceLoadOf(o))
               == TtsPanel.Reload(TtsPanel.Panel(p.voices, false, Some(TtsPanel.LOAD_FAILED)), speaker0, speaker1, true)
  {
    DecodedVoicesPath(provider);
    Routes.MatchVoicesExactly(provider);
  }

  /** As declared, the route does deliver a non-empty provider without '/' or '%' to the handler. */
  lemma PlainProviderIsRouted(provider: string)
    requires PercentEncoding.IsAscii(provider) && provider != "" && '/' !in provider && '%' !in provider
    ensures var o := VoicesEndpoint(ApiService.VoicesPath(provider), Routes.MatchVoices);
            o.ok && ParseTtsVoicesResponse(o.body.json)
                    == Some(TtsVoicesResponse(provider, ClientVoices(VoiceTables.AvailableVoices(provider))))
  {
    DecodedVoicesPath(provider);
    Routes.MatchVoicesExactly(provider);
    VoicesReplyParses(provider);
  }

  /** Every provider the panel offers is an ASCII "<vendor>/<model>" string without '%'. */
  lemma OfferedProvidersAreSlashed(i: nat)
    requires i < |TtsPanel.TTS_PROVIDERS|
    ensures var v := TtsPanel.TTS_PROVIDERS[i].value;
            PercentEncoding.IsAscii(v) && '/' in v && '%' !in v
  {
    if i == 0 {
      ModelString(TtsPanel.TTS_PROVIDERS[i].value, "openai", "tts-1");
    } else if i == 1 {
      ModelString(TtsPanel.TTS_PROVIDERS[i].value, "vertex_ai", "test");
    } else if i == 2 {
      ModelString(TtsPanel.TTS_PROVIDERS[i].value, "local", "kokoro");
    } else {
      ModelString(TtsPanel.TTS_PROVIDERS[i].value, "azure", "tts-1");
    }
  }

  /** A "<vendor>/<model>" string of unreserved characters is ASCII, holds a '/' and no '%'. */
  lemma ModelString(v: string, vendor: string, model: string)
    requires v == vendor + "/" + model
    requires PercentEncoding.AllUnreserved(vendor) && PercentEncoding.AllUnreserved(model)
    ensures PercentEncoding.IsAscii(v) && '/' in v && '%' !in v
  {
    assert v[|vendor|] == '/';
    forall k | 0 <= k < |v|
      ensures v[k] as int < 128 && v[k] != '%'
    {
      if k < |vendor| {
        assert v[k] == vendor[k];
      } else if k > |vendor| {
        assert v[k] == model[k - |vendor| - 1];
      }
    }
  }

  /** As declared, choosing any provider the panel offers fails to load its voices. */
  lemma OfferedProviderFailsToLoad(p: TtsPanel.Panel, i: nat)
    requires i < |TtsPanel.TTS_PROVIDERS|
    ensures var provider := TtsPanel.TTS_PROVIDERS[i].value;
            var o := VoicesEndpoint(ApiService.VoicesPath(provider), Routes.MatchVoices);
            var r := TtsPanel.OnProviderChange(p, provider, "", "", VoiceLoadOf(o));
            r.panel.error == Some(TtsPanel.LOAD_FAILED) && !TtsPanel.SelectorsShown(r.panel)
  {
    OfferedProvidersAreSlashed(i);
    SlashedProviderNotFound(p, TtsPanel.TTS_PROVIDERS[i].value, "", "");
  }

  /**
   * With the path-typed route, asking for the voices of any ASCII provider without
   * '%' yields that provider and its catalogue.
   */
  lemma ProviderVoicesReachClient(provider: string)
    requires PercentEncoding.IsAscii(provider) && '%' !in provider
    ensures var o := VoicesEndpoint(ApiService.VoicesPath(provider), Routes.MatchVoicesAnyPath);
            o.ok && ParseTtsVoicesResponse(o.body.json)
                    == Some(TtsVoicesResponse(provider, ClientVoices(VoiceTables.AvailableVoices(provider))))
  {
    DecodedVoicesPath(provider);
    Routes.MatchVoicesAnyPathExactly(provider);
    VoicesReplyParses(provider);
  }

  /**
   * Loading `provider`'s catalogue into the panel with both speakers unset fills
   * them with its first two voices, which differ, and shows the selectors.
   */
  predicate FillsSpeakers(p: TtsPanel.Panel, provider: string) {
    var vs := ClientVoices(VoiceTables.AvailableVoices(provider));
    var r := TtsPanel.OnProviderChange(p, provider, "", "", TtsPanel.Loaded(vs));
    |vs| >= 2 && r.speaker0 == vs[0].id && r.speaker1 == vs[1].id && r.speaker0 != r.speaker1
    && TtsPanel.SelectorsShown(r.panel)
  }

  lemma CatalogueFillsSpeakers(p: TtsPanel.Panel, provider: string)
    requires provider != "" && |VoiceTables.AvailableVoices(provider)| >= 2
    ensures FillsSpeakers(p, provider)
  {
    var catalogue := VoiceTables.AvailableVoices(provider);
    assert catalogue[0].id != catalogue[1].id;
    TtsPanel.FreshSpeakersGetFirstTwo(p, provider, ClientVoices(catalogue));
  }

  /**
   * With the path-typed route, choosing any provider the panel offers loads its
   * catalogue, which fills both unset speakers with two different voices.
   */
  lemma OfferedProviderFillsSpeakers(p: TtsPanel.Panel, i: nat)
    requires i < |TtsPanel.TTS_PROVIDERS|
    ensures var provider := TtsPanel.TTS_PROVIDERS[i].value;
            && VoiceLoadOf(VoicesEndpoint(ApiService.VoicesPath(provider), Routes.MatchVoicesAnyPath))
               == TtsPanel.Loaded(ClientVoices(VoiceTables.AvailableVoices(provider)))
            && FillsSpeakers(p, provider)
  {
    var provider := TtsPanel.TTS_PROVIDERS[i].value;
    OfferedProvidersAreSlashed(i);
    ProviderVoicesReachClient(provider);
    TtsPanel.OfferedProvidersHaveVoices(i);
    assert provider != "" by {
      assert |provider| > 0;
    }
    CatalogueFillsSpeakers(p, provider);
  }
}

=== FILE: generator.dfy ===
/**
 * The podcast generator component: the checks run when the user asks for a
 * podcast, the request it then sends, and the polling of the task's status until
 * the task succeeds or fails. A poll tick is an event; the interval timer that
 * produces ticks is not modelled.
 */
module Generator {
  import opened Results
  import opened Strings
  import opened Json
  import opened Multipart
  import opened Contracts

  /** The form the user fills in. */
  datatype Form = Form(
    podcastTitle: string,
    userPrompt: string,
    sourceType: SourceType,
    textContent: string,
    documentFile: Option<DocumentFile>,
    ttsProvider: string,
    speaker0Voice: string,
    speaker1Voice: string)

  const INITIAL_FORM := Form("SurfSense Podcast", "", Text, "", None, "openai/tts-1", "", "")

  /** The component's state. `notified` lists the ids passed to the parent's callback so far. */
  datatype State = State(
    form: Form,
    isGenerating: bool,
    taskId: Option<string>,
    generatedPodcastId: Option<int>,
    error: Option<string>,
    notified: seq<int>)

  function Initial(form: Form): State {
    State(form, false, None, None, None, [])
  }

  /** Polling runs exactly while there is a task id that JavaScript treats as truthy. */
  predicate Polling(s: State) {
    s.taskId.Some? && s.taskId.value != ""
  }

  datatype Phase = Idle | Submitting | Waiting | Done | Failed

  /** The phase the state is in, as the user sees it. */
  function PhaseOf(s: State): Phase {
    if Polling(s) then Waiting
    else if s.isGenerating then Submitting
    else if s.generatedPodcastId.Some? then Done
    else if s.error.Some? then Failed
    else Idle
  }

  // ---------------------------------------------------------------------------
  // Polling
  // ---------------------------------------------------------------------------

  /** What one poll tick brings: a validated status, or a failure of the status call. */
  datatype PollEvent = Arrived(status: TaskStatus) | PollThrew

  /** A poll that leaves the task running. */
  predicate Pending(e: PollEvent) {
    e.PollThrew? || (e.Arrived? && e.status.Processing?)
  }

  /** One poll tick. `hasCallback` says whether the parent passed a callback. */
  function OnPoll(s: State, e: PollEvent, hasCallback: bool): (t: State)
    ensures !Polling(s) || Pending(e) ==> t == s
    ensures Polling(s) && e.Arrived? && e.status.Succeeded? ==>
              t == s.(isGenerating := false, taskId := None, generatedPodcastId := Some(e.status.podcastId),
                      notified := s.notified + if hasCallback then [e.status.podcastId] else [])
    ensures Polling(s) && e.Arrived? && e.status.Errored? ==>
              t == s.(isGenerating := false, taskId := None, error := Some(e.status.error))
    ensures !Polling(t) ==> t.taskId != s.taskId || !Polling(s)
  {
    if !Polling(s) then s
    else match e
      case PollThrew => s
      case Arrived(Processing(_)) => s
      case Arrived(Succeeded(id, _, _)) =>
        s.(isGenerating := false, taskId := None, generatedPodcastId := Some(id),
           notified := s.notified + if hasCallback then [id] else [])
      case Arrived(Errored(message)) =>
        s.(isGenerating := false, taskId := None, error := Some(message))
  }

  /** The state after a sequence of poll ticks. */
  function Run(s: State, events: seq<PollEvent>, hasCallback: bool): State
    decreases |events|
  {
    if events == [] then s else Run(OnPoll(s, events[0], hasCallback), events[1..], hasCallback)
  }

  lemma {:induction false} RunConcat(s: State, a: seq<PollEvent>, b: seq<PollEvent>, hasCallback: bool)
    ensures Run(s, a + b, hasCallback) == Run(Run(s, a, hasCallback), b, hasCallback)
    decreases |a|
  {
    if a == [] {
      assert a + b == b;
    } else {
      assert (a + b)[0] == a[0];
      assert (a + b)[1..] == a[1..] + b;
      RunConcat(OnPoll(s, a[0], hasCallback), a[1..], b, hasCallback);
    }
  }

  /** Without a task id nothing is polled: every tick leaves the state as it is. */
  lemma {:induction false} NoTaskNoPolling(s: State, events: seq<PollEvent>, hasCallback: bool)
    requires !Polling(s)
    ensures Run(s, events, hasCallback) == s
    decreases |events|
  {
    if events != [] {
      NoTaskNoPolling(s, events[1..], hasCallback);
    }
  }

  /** Ticks that leave the task running change nothing. */
  lemma {:induction false} PendingTicksChangeNothing(s: State, events: seq<PollEvent>, hasCallback: bool)
    requires forall i :: 0 <= i < |events| ==> Pending(events[i])
    ensures Run(s, events, hasCallback) == s
    decreases |events|
  {
    if events != [] {
      assert forall i :: 0 <= i < |events| - 1 ==> events[1..][i] == events[i + 1];
      PendingTicksChangeNothing(s, events[1..], hasCallback);
    }
  }

  /**
   * A polling session: any number of ticks that leave the task running, then a
   * success, then anything at all. It ends succeeded, with exactly one
   * notification, carrying the new podcast's id.
   */
  lemma SuccessNotifiesOnce(s: State, pending: seq<PollEvent>, id: int, title: string, entries: int,
                            later: seq<PollEvent>)
    requires Polling(s)
    requires forall i :: 0 <= i < |pending| ==> Pending(pending[i])
    ensures var t := Run(s, pending + [Arrived(Succeeded(id, title, entries))] + later, true);
            && t.notified == s.notified + [id]
            && PhaseOf(t) == Done
            && t.generatedPodcastId == Some(id)
            && !t.isGenerating && t.taskId.None?
  {
    var success := [Arrived(Succeeded(id, title, entries))];
    RunConcat(s, pending + success, later, true);
    RunConcat(s, pending, success, true);
    PendingTicksChangeNothing(s, pending, true);
    var t := OnPoll(s, success[0], true);
    assert Run(s, pending + success, true) == t;
    NoTaskNoPolling(t, later, true);
  }

  /** An error status ends the session failed, with the status's message and no notification. */
  lemma ErrorEndsSession(s: State, pending: seq<PollEvent>, message: string, later: seq<PollEvent>, hasCallback: bool)
    requires Polling(s) && s.generatedPodcastId.None?
    requires forall i :: 0 <= i < |pending| ==> Pending(pending[i])
    ensures var t := Run(s, pending + [Arrived(Errored(message))] + later, hasCallback);
            && t.notified == s.notified
            && PhaseOf(t) == Failed
            && t.error == Some(message)
  {
    var failure := [Arrived(Errored(message))];
    RunConcat(s, pending + failure, later, hasCallback);
    RunConcat(s, pending, failure, hasCallback);
    PendingTicksChangeNothing(s, pending, hasCallback);
    var t := OnPoll(s, failure[0], hasCallback);
    assert Run(s, pending + failure, hasCallback) == t;
    NoTaskNoPolling(t, later, hasCallback);
  }

  /**
   * However the ticks go, a session notifies the parent at most once, and when it
   * does, with the id it records as generated.
   */
  lemma {:induction false} AtMostOneNotification(s: State, events: seq<PollEvent>, hasCallback: bool)
    ensures var t := Run(s, events, hasCallback);
            || t.notified == s.notified
            || (&& |t.notified| == |s.notified| + 1
                && t.notified[..|s.notified|] == s.notified
                && t.generatedPodcastId == Some(t.notified[|s.notified|]))
    decreases |events|
  {
    if events != [] {
      var next := OnPoll(s, events[0], hasCallback);
      if next == s {
        AtMostOneNotification(s, events[1..], hasCallback);
      } else {
        NoTaskNoPolling(next, events[1..], hasCallback);
      }
    }
  }

  // ---------------------------------------------------------------------------
  // Asking for a podcast
  // ---------------------------------------------------------------------------

  const TEXT_MISSING := "Please enter some text content"
  const DOCUMENT_MISSING := "Please upload a document"
  const PROVIDER_MISSING := "Please select a TTS provider"
  const VOICES_MISSING := "Please select voices for both speakers"
  const START_FAILED := "Failed to start podcast generation"

  /** The form passes the first two checks: the source it names holds something to send. */
  predicate SourceGiven(f: Form) {
    && (f.sourceType == Text ==> !AllSpace(JsWhitespace, f.textContent))
    && (f.sourceType == Document ==> f.documentFile.Some?)
  }

  /** The message of the first check the form fails, in the order the checks run. */
  function FirstProblem(f: Form): (problem: Option<string>)
    ensures problem.None? <==>
              SourceGiven(f) && f.ttsProvider != ""
              && f.speaker0Voice != "" && f.speaker1Voice != ""
    ensures f.sourceType == Text && AllSpace(JsWhitespace, f.textContent) ==> problem == Some(TEXT_MISSING)
    ensures f.sourceType == Document && f.documentFile.None? ==> problem == Some(DOCUMENT_MISSING)
    ensures SourceGiven(f) && f.ttsProvider == "" ==> problem == Some(PROVIDER_MISSING)
    ensures SourceGiven(f) && f.ttsProvider != "" && (f.speaker0Voice == "" || f.speaker1Voice == "") ==>
              problem == Some(VOICES_MISSING)
    ensures problem == Some(PROVIDER_MISSING) ==> SourceGiven(f)
    ensures problem == Some(VOICES_MISSING) ==> SourceGiven(f) && f.ttsProvider != ""
  {
    if f.sourceType == Text && Trim(JsWhitespace, f.textContent) == "" then Some(TEXT_MISSING)
    else if f.sourceType == Document && f.documentFile.None? then Some(DOCUMENT_MISSING)
    else if f.ttsProvider == "" then Some(PROVIDER_MISSING)
    else if f.speaker0Voice == "" || f.speaker1Voice == "" then Some(VOICES_MISSING)
    else None
  }

  /**
   * The form checks with the text check the backend applies: a text that Python's
   * `strip()` empties is refused before anything is sent.
   */
  function FirstProblemLikeServer(f: Form): (problem: Option<string>)
    ensures problem.None? <==>
              FirstProblem(f).None? && (f.sourceType == Text ==> !AllSpace(PyWhitespace, f.textContent))
    ensures f.sourceType == Text && AllSpace(PyWhitespace, f.textContent) ==> problem == Some(TEXT_MISSING)
    ensures problem != Some(TEXT_MISSING) ==> problem == FirstProblem(f)
  {
    if f.sourceType == Text && Trim(PyWhitespace, f.textContent) == "" then Some(TEXT_MISSING) else FirstProblem(f)
  }

  /** The request built from a form that passed the checks. */
  function BuildRequest(f: Form, searchSpaceId: int): (raw: RawGenerateRequest)
    requires FirstProblem(f).None?
    ensures ValidRequest(raw)
    ensures raw.textContent.Undefined? <==> f.sourceType == Document
    ensures raw.documentFile.Undefined? <==> f.sourceType == Text
    ensures raw.userPrompt.Undefined? <==> f.userPrompt == ""
    ensures raw.podcastTitle == Value(JStr(f.podcastTitle))
  {
    RawGenerateRequest(
      Value(JNum(searchSpaceId)),
      Value(JStr(f.podcastTitle)),
      if f.userPrompt == "" then Undefined else Value(JStr(f.userPrompt)),
      Value(JStr(f.ttsProvider)),
      Value(JStr(f.speaker0Voice)),
      Value(JStr(f.speaker1Voice)),
      Value(JStr(if f.sourceType == Text then "text" else "document")),
      if f.sourceType == Text then Value(JStr(f.textContent)) else Undefined,
      if f.sourceType == Document then FileValue(f.documentFile.value) else Undefined)
  }

  /** The outcome of pressing the generate button: the state afterwards and the request sent, if any. */
  datatype Attempt = Attempt(state: State, sent: Option<RawGenerateRequest>)

  /**
   * Pressing the generate button. The button is disabled while generating. `submit`
   * is the client's generation call: the task id, or the message of the error it raised.
   */
  function HandleGenerate(s: State, searchSpaceId: int, submit: RawGenerateRequest -> Result<string, string>)
    : (a: Attempt)
    ensures s.isGenerating || FirstProblem(s.form).Some? ==> a == Attempt(s, None)
    ensures a.sent.Some? <==> !s.isGenerating && FirstProblem(s.form).None?
    ensures a.sent.Some? ==> a.sent.value == BuildRequest(s.form, searchSpaceId)
    ensures a.sent.Some? ==> a.state.form == s.form && a.state.notified == s.notified
                             && a.state.generatedPodcastId.None?
    ensures a.sent.Some? && submit(a.sent.value).Success? ==>
              a.state.isGenerating && a.state.error.None? && a.state.taskId == Some(submit(a.sent.value).value)
    ensures a.sent.Some? && submit(a.sent.value).Failure? ==>
              && !a.state.isGenerating && a.state.taskId == s.taskId
              && a.state.error == Some(if submit(a.sent.value).error == "" then START_FAILED
                                       else submit(a.sent.value).error)
  {
    if s.isGenerating || FirstProblem(s.form).Some? then Attempt(s, None)
    else
      var raw := BuildRequest(s.form, searchSpaceId);
      var started := s.(isGenerating := true, error := None, generatedPodcastId := None);
      match submit(raw)
      case Success(taskId) => Attempt(started.(taskId := Some(taskId)), Some(raw))
      case Failure(message) =>
        Attempt(started.(isGenerating := false, error := Some(if message == "" then START_FAILED else message)), Some(raw))
  }

  /** Once the task id arrives, polling starts (for any id the backend's queue hands out). */
  lemma StartedTaskIsPolled(s: State, searchSpaceId: int, submit: RawGenerateRequest -> Result<string, string>)
    requires !s.isGenerating && FirstProblem(s.form).None?
    requires submit(BuildRequest(s.form, searchSpaceId)).Success?
    requires submit(BuildRequest(s.form, searchSpaceId)).value != ""
    ensures PhaseOf(HandleGenerate(s, searchSpaceId, submit).state) == Waiting
  {
  }
}

=== FILE: history.dfy ===
/**
 * The podcast history list: how a duration and a provider are shown, what a
 * delete does to the list and the selection, the download link, and the play
 * button that expands one podcast at a time.
 */
module History {
  import opened Results
  import opened Strings
  import opened Contracts
  import Routes
  import TtsPanel

  // ---------------------------------------------------------------------------
  // Formatting
  // ---------------------------------------------------------------------------

  /** JavaScript's `%`: the remainder takes the sign of the dividend. */
  function JsRem(a: int, b: int): (r: int)
    requires b > 0
    ensures a >= 0 ==> r == a % b
    ensures a < 0 ==> r == -((-a) % b)
  {
    if a >= 0 then a % b else -((-a) % b)
  }

  /** `padStart(2, "0")`. */
  function PadTwo(s: string): (r: string)
    ensures |s| >= 2 ==> r == s
    ensures |s| < 2 ==> |r| == 2 && r[2 - |s|..] == s && forall k :: 0 <= k < 2 - |s| ==> r[k] == '0'
  {
    if |s| >= 2 then s else if |s| == 1 then "0" + s else "00"
  }

  const NOT_AVAILABLE := "N/A"

  /** A duration in seconds as minutes and two-digit seconds; a missing or zero duration is "N/A". */
  function FormatDuration(seconds: Option<int>): (r: string)
    ensures seconds.None? || seconds == Some(0) ==> r == NOT_AVAILABLE
    ensures seconds.Some? && seconds.value != 0 ==>
              r == IntToString(seconds.value / 60) + ":" + PadTwo(IntToString(JsRem(seconds.value, 60)))
  {
    match seconds
    case None => NOT_AVAILABLE
    case Some(n) =>
      if n == 0 then NOT_AVAILABLE
      else IntToString(n / 60) + ":" + PadTwo(IntToString(JsRem(n, 60)))
  }

  /** Reading "m:ss" back: the minutes before the colon and the seconds after it. */
  function ReadDuration(text: string): Option<nat> {
    match IndexOf(text, ':')
    case None => None
    case Some(k) =>
      match (ParseNat(text[..k]), ParseNat(text[k + 1..]))
      case (Some(m), Some(ss)) => if |text[k + 1..]| == 2 && ss < 60 then Some(m * 60 + ss) else None
      case _ => None
  }

  lemma PadTwoDigits(n: nat)
    requires n < 60
    ensures var p := PadTwo(NatToString(n));
            |p| == 2 && AllDigits(p) && ParseNat(p) == Some(n)
  {
    var s := NatToString(n);
    NatToStringValue(n);
    if n < 10 {
      assert s == [DigitChar(n)];
      var p := PadTwo(s);
      assert p == ['0', DigitChar(n)];
      assert DigitsValue(p[..1]) == 0;
    } else {
      assert |s| == 2 by {
        assert NatToString(n / 10) == [DigitChar(n / 10)];
      }
    }
  }

  /** For a positive whole number of seconds, the shown minutes times 60 plus the shown seconds is the input. */
  lemma DurationRoundTrip(n: nat)
    requires n > 0
    ensures ReadDuration(FormatDuration(Some(n))) == Some(n)
  {
    var q, r := n / 60, n % 60;
    FormatPositive(n);
    ReadMinutesSeconds(q, r);
    assert q * 60 + r == n;
  }

  lemma FormatPositive(n: nat)
    requires n > 0
    ensures FormatDuration(Some(n)) == NatToString(n / 60) + ":" + PadTwo(NatToString(n % 60))
  {
  }

  /** "m:ss" with two-digit seconds below 60 reads back as m * 60 + ss. */
  lemma ReadMinutesSeconds(q: nat, r: nat)
    requires r < 60
    ensures ReadDuration(NatToString(q) + ":" + PadTwo(NatToString(r))) == Some(q * 60 + r)
  {
    var m, ss := NatToString(q), PadTwo(NatToString(r));
    PadTwoDigits(r);
    assert ':' !in m by {
      assert AllDigits(m);
    }
    SplitAtColon(m, ss);
    NatRoundTrip(q);
    ReadDurationAt(m + ":" + ss, |m|, q, r);
  }

  lemma ReadDurationAt(text: string, k: nat, minutes: nat, seconds: nat)
    requires IndexOf(text, ':') == Some(k)
    requires ParseNat(text[..k]) == Some(minutes)
    requires ParseNat(text[k + 1..]) == Some(seconds) && |text[k + 1..]| == 2 && seconds < 60
    ensures ReadDuration(text) == Some(minutes * 60 + seconds)
  {
  }

  /** The first colon of "m:ss" is the one after the minutes when they hold none. */
  lemma SplitAtColon(m: string, ss: string)
    requires ':' !in m
    ensures var text := m + ":" + ss;
            IndexOf(text, ':') == Some(|m|) && text[..|m|] == m && text[|m| + 1..] == ss
  {
    var text := m + ":" + ss;
    assert text[..|m|] == m;
    assert text[|m|] == ':';
    assert text[|m| + 1..] == ss;
  }

  /** The label shown for a podcast's provider. */
  function ProviderLabel(provider: Option<string>): (shown: string)
    ensures provider.None? || provider == Some("") ==> shown == "Default"
    ensures provider.Some? && provider.value != "" ==>
              shown == if Contains(provider.value, "openai") then "OpenAI"
                       else if Contains(provider.value, "vertex") then "Vertex AI"
                       else if Contains(provider.value, "kokoro") then "Kokoro"
                       else if Contains(provider.value, "azure") then "Azure"
                       else provider.value
  {
    match provider
    case None => "Default"
    case Some(p) =>
      if p == "" then "Default"
      else if Contains(p, "openai") then "OpenAI"
      else if Contains(p, "vertex") then "Vertex AI"
      else if Contains(p, "kokoro") then "Kokoro"
      else if Contains(p, "azure") then "Azure"
      else p
  }

  /** Any provider string whose vendor part is one of the four gets that vendor's label. */
  lemma VendorLabels(model: string)
    requires !Contains(model, "openai") && !Contains(model, "vertex") && !Contains(model, "kokoro")
    requires !Contains(model, "azure")
    ensures ProviderLabel(Some("openai/" + model)) == "OpenAI"
    ensures ProviderLabel(Some(model)) == (if model == "" then "Default" else model)
  {
    var p := "openai/" + model;
    assert OccursAt(p, "openai", 0);
  }

  /** The checks run in order: a string naming two vendors gets the first vendor's label in the check order. */
  lemma FirstCheckWins(p: string)
    requires Contains(p, "openai") && Contains(p, "azure")
    ensures ProviderLabel(Some(p)) == "OpenAI"
  {
  }

  // ---------------------------------------------------------------------------
  // The list
  // ---------------------------------------------------------------------------

  /** The list without the podcasts with id `id`. */
  function RemoveId(podcasts: seq<Podcast>, id: int): (r: seq<Podcast>)
    ensures |r| <= |podcasts|
    ensures forall p :: p in r <==> p in podcasts && p.id != id
  {
    if podcasts == [] then []
    else (if podcasts[0].id == id then [] else [podcasts[0]]) + RemoveId(podcasts[1..], id)
  }

  /** Removing is applied piece by piece, so the podcasts kept stay in their order. */
  lemma {:induction false} RemoveIdConcat(a: seq<Podcast>, b: seq<Podcast>, id: int)
    ensures RemoveId(a + b, id) == RemoveId(a, id) + RemoveId(b, id)
    decreases |a|
  {
    if a == [] {
      assert a + b == b;
    } else {
      assert (a + b)[0] == a[0];
      assert (a + b)[1..] == a[1..] + b;
      RemoveIdConcat(a[1..], b, id);
    }
  }

  /** A list without that id is left as it is. */
  lemma {:induction false} RemoveAbsentId(podcasts: seq<Podcast>, id: int)
    requires forall i :: 0 <= i < |podcasts| ==> podcasts[i].id != id
    ensures RemoveId(podcasts, id) == podcasts
    decreases |podcasts|
  {
    if podcasts != [] {
      assert forall i :: 0 <= i < |podcasts| - 1 ==> podcasts[1..][i] == podcasts[i + 1];
      RemoveAbsentId(podcasts[1..], id);
      assert podcasts == [podcasts[0]] + podcasts[1..];
    }
  }

  /** The list's part of the component state: the podcasts, the expanded one, the one awaiting confirmation. */
  datatype ListState = ListState(podcasts: seq<Podcast>, selected: Option<int>, toDelete: Option<int>)

  /**
   * Deleting podcast `id`; `deleted` says whether the server call succeeded.
   * Whatever happens, nothing awaits confirmation afterwards.
   */
  function HandleDelete(s: ListState, id: int, deleted: bool): (t: ListState)
    ensures t.toDelete.None?
    ensures deleted ==> t.podcasts == RemoveId(s.podcasts, id)
    ensures deleted ==> (t.selected.None? <==> s.selected.None? || s.selected == Some(id))
    ensures deleted && s.selected != Some(id) ==> t.selected == s.selected
    ensures !deleted ==> t.podcasts == s.podcasts && t.selected == s.selected
  {
    if deleted then
      ListState(RemoveId(s.podcasts, id), if s.selected == Some(id) then None else s.selected, None)
    else s.(toDelete := None)
  }

  /**
   * Pressing "Delete" in the confirmation dialog: the delete runs only for an id
   * JavaScript treats as truthy, so a podcast with id 0 is never deleted. The
   * button closes the dialog, and closing it clears the pending id, so nothing
   * awaits confirmation afterwards.
   */
  function ConfirmDelete(s: ListState, deleted: bool): (t: ListState)
    ensures t.toDelete.None?
    ensures s.toDelete.None? || s.toDelete == Some(0) ==> t == s.(toDelete := None)
    ensures s.toDelete.Some? && s.toDelete.value != 0 ==> t == HandleDelete(s, s.toDelete.value, deleted)
  {
    match s.toDelete
    case Some(id) => if id != 0 then HandleDelete(s, id, deleted) else s.(toDelete := None)
    case None => s
  }

  /** Confirming a pending id 0 deletes nothing, keeps the expanded podcast and closes the dialog. */
  lemma ZeroIdIsNeverDeleted(s: ListState, deleted: bool)
    requires s.toDelete == Some(0)
    ensures ConfirmDelete(s, deleted).podcasts == s.podcasts
    ensures ConfirmDelete(s, deleted).selected == s.selected
    ensures ConfirmDelete(s, deleted).toDelete.None?
  {
  }

  /** After a successful delete no podcast in the list has that id. */
  lemma DeletedIdIsGone(s: ListState, id: int)
    ensures forall p :: p in HandleDelete(s, id, true).podcasts ==> p.id != id
  {
  }

  /** The play button: pressing it on the expanded podcast collapses it, on any other expands that one. */
  function TogglePlay(selected: Option<int>, id: int): (r: Option<int>)
    ensures selected == Some(id) ==> r.None?
    ensures selected != Some(id) ==> r == Some(id)
  {
    if selected == Some(id) then None else Some(id)
  }

  /** Pressing play twice on the same podcast, starting with nothing expanded, ends with nothing expanded. */
  lemma TogglePlayTwice(id: int, other: int)
    ensures TogglePlay(TogglePlay(None, id), id).None?
    ensures other != id ==> TogglePlay(TogglePlay(Some(other), id), id).None?
  {
  }

  /** A download link: the audio path and the file name the browser saves it under. */
  datatype Download = Download(href: string, fileName: string)

  /** The download for a podcast; refused when it has no audio file. */
  function HandleDownload(p: Podcast): (d: Option<Download>)
    ensures d.None? <==> p.fileLocation.None? || p.fileLocation == Some("")
    ensures d.Some? ==> d.value.fileName == p.title + ".mp3"
    ensures d.Some? ==> d.value.href == "/api/v1/podcasts/" + IntToString(p.id) + "/audio"
  {
    if p.fileLocation.None? || p.fileLocation.value == "" then None
    else Some(Download("/api/v1/podcasts/" + IntToString(p.id) + "/audio", p.title + ".mp3"))
  }

  /** The download link is the backend's audio route for the podcast's own id. */
  lemma DownloadIsStreamed(p: Podcast)
    requires HandleDownload(p).Some?
    ensures Routes.MatchAudio(HandleDownload(p).value.href) == Some(p.id)
  {
    assert HandleDownload(p).value.href == Routes.PODCASTS_PREFIX + IntToString(p.id) + "/audio";
    Routes.MatchAudioExactly(IntToString(p.id));
    IntRoundTrip(p.id);
  }

  /** Each provider the settings panel offers is shown in the history under its vendor's label. */
  lemma OfferedProvidersLabelled(i: nat)
    requires i < |TtsPanel.TTS_PROVIDERS|
    ensures ProviderLabel(Some(TtsPanel.TTS_PROVIDERS[i].value)) == ["OpenAI", "Vertex AI", "Kokoro", "Azure"][i]
  {
    var p := TtsPanel.TTS_PROVIDERS[i].value;
    if i == 0 {
      OpenAiShown(p);
    } else if i == 1 {
      VertexShown(p);
    } else if i == 2 {
      KokoroShown(p);
    } else {
      AzureShown(p);
    }
  }

  // Each vendor check before the matching one is ruled out by a character of its
  // needle that the provider string lacks. The provider string is passed in as a
  // concatenation rather than written as one literal, which would make the
  // verifier unroll `Contains` over every character of it.

  lemma OpenAiShown(p: string)
    requires p == "openai" + "/tts-1"
    ensures ProviderLabel(Some(p)) == "OpenAI"
  {
    assert OccursAt(p, "openai", 0);
  }

  lemma VertexShown(p: string)
    requires p == "vertex_ai" + "/test"
    ensures ProviderLabel(Some(p)) == "Vertex AI"
  {
    CharNotIn(p, "openai", 0);
    assert OccursAt(p, "vertex", 0);
  }

  lemma KokoroShown(p: string)
    requires p == "local/" + "kokoro"
    ensures ProviderLabel(Some(p)) == "Kokoro"
  {
    CharNotIn(p, "openai", 1);
    CharNotIn(p, "vertex", 0);
    assert OccursAt(p, "kokoro", 6);
  }

  lemma AzureShown(p: string)
    requires p == "azure" + "/tts-1"
    ensures ProviderLabel(Some(p)) == "Azure"
  {
    CharNotIn(p, "openai", 0);
    CharNotIn(p, "vertex", 0);
    CharNotIn(p, "kokoro", 0);
    assert OccursAt(p, "azure", 0);
  }

  /** A needle holding a character the text lacks does not occur in it. */
  lemma CharNotIn(s: string, needle: string, j: nat)
    requires j < |needle| && needle[j] !in s
    ensures !Contains(s, needle)
  {
    forall i | 0 <= i && i + |needle| <= |s|
      ensures !OccursAt(s, needle, i)
    {
      assert s[i..i + |needle|][j] == s[i + j];
    }
  }
}

=== FILE: json.dfy ===
/**
 * Decoded JSON values as they travel between the backend and the client, with
 * the two truthiness rules the code relies on (Python's and JavaScript's, and
 * the test on an optional string on which they agree) and
 * JavaScript's string conversion of a value.
 */
module Json {
  import opened Results
  import opened Strings

  /** A decoded JSON value. Numbers are integers in this model. */
  datatype Json =
    | JNull
    | JBool(b: bool)
    | JNum(n: int)
    | JStr(s: string)
    | JArr(items: seq<Json>)
    | JObj(fields: map<string, Json>)

  /** Python truthiness: `None`, `False`, `0`, `""`, `[]` and `{}` are false. */
  predicate PyTruthy(j: Json) {
    match j
    case JNull => false
    case JBool(b) => b
    case JNum(n) => n != 0
    case JStr(s) => s != ""
    case JArr(items) => items != []
    case JObj(fields) => fields != map[]
  }

  /** JavaScript truthiness: `null`, `false`, `0` and `""` are false; every array and object is true. */
  predicate JsTruthy(j: Json) {
    match j
    case JNull => false
    case JBool(b) => b
    case JNum(n) => n != 0
    case JStr(s) => s != ""
    case JArr(_) => true
    case JObj(_) => true
  }

  /**
   * An optional string member that is truthy: present and non-empty. Python's
   * `if v` on a `str | None` and JavaScript's `if (v)` on a string agree on it.
   */
  predicate Given(v: Option<string>) {
    v.Some? && v.value != ""
  }

  /** The member when it is truthy, and absent otherwise. */
  function Truthy(v: Option<string>): (r: Option<string>)
    ensures r.Some? <==> Given(v)
    ensures r.Some? ==> r == v
  {
    if Given(v) then v else None
  }

  /** The member `key` of an object; `None` (JavaScript `undefined`) when absent or not an object. */
  function Member(j: Json, key: string): (r: Option<Json>)
    ensures r.Some? <==> j.JObj? && key in j.fields
    ensures r.Some? ==> r.value == j.fields[key]
  {
    if j.JObj? && key in j.fields then Some(j.fields[key]) else None
  }

  /** Python `d.get(key, default)`: the stored value when the key is present, even if it is `None`. */
  function PyGet(d: map<string, Json>, key: string, default: Json): (r: Json)
    ensures key in d ==> r == d[key]
    ensures key !in d ==> r == default
  {
    if key in d then d[key] else default
  }

  /**
   * JavaScript `String(v)`: strings are themselves, `null` is "null", arrays join
   * their elements' conversions with "," (a `null` element becomes ""), objects are
   * "[object Object]".
   */
  function JsString(j: Json): (r: string)
    ensures j.JStr? ==> r == j.s
    ensures j.JObj? ==> r == "[object Object]"
    ensures j.JNum? ==> r == IntToString(j.n)
    decreases j
  {
    match j
    case JNull => "null"
    case JBool(b) => if b then "true" else "false"
    case JNum(n) => IntToString(n)
    case JStr(s) => s
    case JArr(items) =>
      Join(seq(|items|, i requires 0 <= i < |items| => if items[i].JNull? then "" else JsString(items[i])), ",")
    case JObj(_) => "[object Object]"
  }
}

=== FILE: multipart.dfy ===
/** The multipart form body that carries a generation request from the client to the backend. */
module Multipart {
  import opened Results

  /** An uploaded document: its file name and its bytes. */
  datatype DocumentFile = DocumentFile(name: string, bytes: seq<Byte>)

  /** One part of a multipart form: a named text value or a named file. */
  datatype FormPart = TextPart(name: string, value: string) | FilePart(name: string, file: DocumentFile) {
    function Name(): string {
      match this
      case TextPart(n, _) => n
      case FilePart(n, _) => n
    }
  }

  /**
   * The last part called `name`, whatever its kind: a name sent more than once
   * binds its last value.
   */
  function LastPart(parts: seq<FormPart>, name: string): (r: Option<FormPart>)
    ensures r.Some? <==> HasPart(parts, name)
    ensures r.Some? ==> r.value.Name() == name && r.value in parts
  {
    if parts == [] then None
    else if parts[|parts| - 1].Name() == name then Some(parts[|parts| - 1])
    else
      var front := parts[..|parts| - 1];
      var r := LastPart(front, name);
      assert forall i :: 0 <= i < |front| ==> front[i] == parts[i];
      assert HasPart(parts, name) ==> HasPart(front, name) by {
        if HasPart(parts, name) {
          var i :| 0 <= i < |parts| && parts[i].Name() == name;
          assert i < |front|;
        }
      }
      r
  }

  /** The part `LastPart` finds sits at some index with no part of that name after it. */
  lemma {:induction false} LastPartIsLast(parts: seq<FormPart>, name: string)
    requires HasPart(parts, name)
    ensures exists i :: 0 <= i < |parts| && parts[i] == LastPart(parts, name).value
                        && forall j :: i < j < |parts| ==> parts[j].Name() != name
    decreases |parts|
  {
    var n := |parts| - 1;
    if parts[n].Name() == name {
      assert parts[n] == LastPart(parts, name).value;
    } else {
      var front := parts[..n];
      assert LastPart(parts, name) == LastPart(front, name);
      assert HasPart(front, name);
      LastPartIsLast(front, name);
      var i :| 0 <= i < |front| && front[i] == LastPart(front, name).value
               && forall j :: i < j < |front| ==> front[j].Name() != name;
      assert parts[i] == front[i];
      forall j | i < j < |parts|
        ensures parts[j].Name() != name
      {
        if j < n {
          assert parts[j] == front[j];
        }
      }
    }
  }

  /** The value of the last part called `name`, when that part is a text part. */
  function TextField(parts: seq<FormPart>, name: string): (r: Option<string>)
    ensures r.Some? ==> TextPart(name, r.value) in parts && LastPart(parts, name) == Some(TextPart(name, r.value))
    ensures r.None? <==> !HasPart(parts, name) || LastPart(parts, name).value.FilePart?
  {
    match LastPart(parts, name)
    case Some(TextPart(_, v)) => Some(v)
    case _ => None
  }

  /** The last part called `name`, when that part is a file part. */
  function FileField(parts: seq<FormPart>, name: string): (r: Option<DocumentFile>)
    ensures r.Some? ==> FilePart(name, r.value) in parts && LastPart(parts, name) == Some(FilePart(name, r.value))
    ensures r.None? <==> !HasPart(parts, name) || LastPart(parts, name).value.TextPart?
  {
    match LastPart(parts, name)
    case Some(FilePart(_, f)) => Some(f)
    case _ => None
  }

  /** No two parts share a name. */
  predicate DistinctNames(parts: seq<FormPart>) {
    forall i, j :: 0 <= i < j < |parts| ==> parts[i].Name() != parts[j].Name()
  }

  /** Some part is called `name`. */
  predicate HasPart(parts: seq<FormPart>, name: string) {
    exists i :: 0 <= i < |parts| && parts[i].Name() == name
  }

  lemma HasPartConcat(a: seq<FormPart>, b: seq<FormPart>, name: string)
    ensures HasPart(a + b, name) <==> HasPart(a, name) || HasPart(b, name)
  {
    if HasPart(a, name) {
      var i :| 0 <= i < |a| && a[i].Name() == name;
      assert (a + b)[i] == a[i];
    }
    if HasPart(b, name) {
      var i :| 0 <= i < |b| && b[i].Name() == name;
      assert (a + b)[|a| + i] == b[i];
    }
    if HasPart(a + b, name) {
      var i :| 0 <= i < |a + b| && (a + b)[i].Name() == name;
      if i >= |a| {
        assert b[i - |a|] == (a + b)[i];
      } else {
        assert a[i] == (a + b)[i];
      }
    }
  }

  /** A later section that uses a name overrides an earlier one; otherwise the earlier one is read. */
  lemma {:induction false} LastPartConcat(a: seq<FormPart>, b: seq<FormPart>, name: string)
    ensures LastPart(a + b, name) == if HasPart(b, name) then LastPart(b, name) else LastPart(a, name)
    decreases |b|
  {
    if b == [] {
      assert a + b == a;
    } else {
      var ab := a + b;
      var last := b[|b| - 1];
      assert ab[|ab| - 1] == last;
      if last.Name() == name {
        assert HasPart(b, name) by { assert b[|b| - 1].Name() == name; }
        assert LastPart(ab, name) == Some(last);
        assert LastPart(b, name) == Some(last);
      } else {
        var front := b[..|b| - 1];
        var abFront := ab[..|ab| - 1];
        assert LastPart(ab, name) == LastPart(abFront, name);
        assert abFront == a + front by {
          assert forall i :: 0 <= i < |abFront| ==> abFront[i] == (a + front)[i];
        }
        assert LastPart(b, name) == LastPart(front, name);
        LastPartConcat(a, front, name);
      }
    }
  }

  /** Parts with other names in front of a form do not change which text value is read. */
  lemma TextFieldSkip(a: seq<FormPart>, b: seq<FormPart>, name: string)
    requires !HasPart(a, name)
    ensures TextField(a + b, name) == TextField(b, name)
  {
    LastPartConcat(a, b, name);
  }

  /** Parts with other names behind a form do not change which text value is read. */
  lemma TextFieldKeep(a: seq<FormPart>, b: seq<FormPart>, name: string)
    requires !HasPart(b, name)
    ensures TextField(a + b, name) == TextField(a, name)
  {
    LastPartConcat(a, b, name);
  }

  /** Parts with other names in front of a form do not change which file is read. */
  lemma FileFieldSkip(a: seq<FormPart>, b: seq<FormPart>, name: string)
    requires !HasPart(a, name)
    ensures FileField(a + b, name) == FileField(b, name)
  {
    LastPartConcat(a, b, name);
  }

  /** A name used only in the middle section of a form is read from that section. */
  lemma MiddleSection(a: seq<FormPart>, m: seq<FormPart>, z: seq<FormPart>, name: string)
    requires !HasPart(a, name) && !HasPart(z, name)
    ensures HasPart(a + m + z, name) <==> HasPart(m, name)
    ensures TextField(a + m + z, name) == TextField(m, name)
  {
    HasPartConcat(a, m, name);
    HasPartConcat(a + m, z, name);
    TextFieldKeep(a + m, z, name);
    TextFieldSkip(a, m, name);
  }

  /** When a name is sent twice, the second value is the one bound. */
  lemma RepeatedNameBindsLast(name: string, first: string, second: string)
    ensures TextField([TextPart(name, first), TextPart(name, second)], name) == Some(second)
  {
  }
}

=== FILE: percent_encoding.dfy ===
/**
 * Percent-encoding of one URL path segment as the client produces it
 * (JavaScript `encodeURIComponent`) and its decoding on the backend
 * (Python `urllib.parse.unquote`).
 */
module PercentEncoding {
  import opened Results

  /** The characters `encodeURIComponent` leaves as they are. */
  predicate IsUnreserved(c: char) {
    ('A' <= c <= 'Z') || ('a' <= c <= 'z') || ('0' <= c <= '9') ||
    c == '-' || c == '_' || c == '.' || c == '!' || c == '~' || c == '*' || c == '\'' || c == '(' || c == ')'
  }

  predicate IsHex(c: char) {
    ('0' <= c <= '9') || ('a' <= c <= 'f') || ('A' <= c <= 'F')
  }

  predicate IsAscii(s: string) {
    forall i :: 0 <= i < |s| ==> s[i] as int < 128
  }

  /** Upper-case hexadecimal digit, as `encodeURIComponent` writes it. */
  function HexDigit(d: nat): (c: char)
    requires d < 16
    ensures IsHex(c) && !('a' <= c <= 'f')
  {
    if d < 10 then (d + '0' as int) as char else (d - 10 + 'A' as int) as char
  }

  /** The value of a hexadecimal digit of either case. */
  function HexValue(c: char): (v: nat)
    requires IsHex(c)
    ensures v < 16
  {
    if '0' <= c <= '9' then c as int - '0' as int
    else if 'a' <= c <= 'f' then c as int - 'a' as int + 10
    else c as int - 'A' as int + 10
  }

  lemma HexDigitValue(d: nat)
    requires d < 16
    ensures HexValue(HexDigit(d)) == d
  {
  }

  /** The UTF-8 encoding of one Unicode scalar value. */
  function Utf8(c: char): (bytes: seq<Byte>)
    ensures 1 <= |bytes| <= 4
    ensures c as int < 128 ==> bytes == [c as int]
  {
    var n := c as int;
    if n < 0x80 then [n]
    else if n < 0x800 then [0xC0 + n / 64, 0x80 + n % 64]
    else if n < 0x10000 then [0xE0 + n / 4096, 0x80 + (n / 64) % 64, 0x80 + n % 64]
    else [0xF0 + n / 262144, 0x80 + (n / 4096) % 64, 0x80 + (n / 64) % 64, 0x80 + n % 64]
  }

  /** "%XY" for one octet, with upper-case hexadecimal digits. */
  function PercentOctets(bytes: seq<Byte>): (r: string)
    ensures |r| == 3 * |bytes|
    ensures forall i :: 0 <= i < |r| ==> r[i] == '%' || IsHex(r[i])
  {
    if bytes == [] then []
    else ['%', HexDigit(bytes[0] / 16), HexDigit(bytes[0] % 16)] + PercentOctets(bytes[1..])
  }

  function EncodeChar(c: char): (r: string)
    ensures IsUnreserved(c) ==> r == [c]
    ensures !IsUnreserved(c) ==> |r| >= 3 && r[0] == '%'
  {
    if IsUnreserved(c) then [c] else PercentOctets(Utf8(c))
  }

  /**
   * `encodeURIComponent`: every character outside the unreserved set becomes the
   * percent-escapes of its UTF-8 octets, so the result never holds a '/' and
   * stays one path segment.
   */
  function EncodeURIComponent(s: string): (r: string)
    ensures forall i :: 0 <= i < |r| ==> IsUnreserved(r[i]) || r[i] == '%'
    ensures '/' !in r && '?' !in r && '#' !in r
    ensures (forall i :: 0 <= i < |s| ==> IsUnreserved(s[i])) ==> r == s
  {
    if s == [] then []
    else
      var head := EncodeChar(s[0]);
      assert forall i :: 0 <= i < |head| ==> IsUnreserved(head[i]) || head[i] == '%';
      head + EncodeURIComponent(s[1..])
  }

  /**
   * Python `unquote` on its ASCII range: each "%XY" with two hexadecimal digits
   * of either case and a value below 0x80 becomes that character; any other '%'
   * is kept literally; '+' is not touched.
   */
  function Unquote(s: string): (r: string)
    ensures |r| <= |s|
    ensures '%' !in s ==> r == s
    decreases |s|
  {
    if s == [] then []
    else if |s| >= 3 && s[0] == '%' && IsHex(s[1]) && IsHex(s[2]) && HexValue(s[1]) * 16 + HexValue(s[2]) < 128 then
      [(HexValue(s[1]) * 16 + HexValue(s[2])) as char] + Unquote(s[3..])
    else
      [s[0]] + Unquote(s[1..])
  }

  lemma {:induction false} UnquoteEncodeChar(c: char, rest: string)
    requires c as int < 128
    ensures Unquote(EncodeChar(c) + rest) == [c] + Unquote(rest)
  {
    if IsUnreserved(c) {
      assert ([c] + rest)[1..] == rest;
    } else {
      var n := c as int;
      HexDigitValue(n / 16);
      HexDigitValue(n % 16);
      var e := EncodeChar(c);
      assert e == ['%', HexDigit(n / 16), HexDigit(n % 16)];
      assert (e + rest)[3..] == rest;
    }
  }

  /** The backend's `unquote` recovers every ASCII provider string the client encoded. */
  lemma {:induction false} UnquoteEncodeRoundTrip(s: string)
    requires IsAscii(s)
    ensures Unquote(EncodeURIComponent(s)) == s
  {
    if s != [] {
      assert IsAscii(s[1..]) by {
        assert forall i :: 0 <= i < |s| - 1 ==> s[1..][i] == s[i + 1];
      }
      UnquoteEncodeRoundTrip(s[1..]);
      UnquoteEncodeChar(s[0], EncodeURIComponent(s[1..]));
      assert [s[0]] + s[1..] == s;
    }
  }

  /** Text without a '%' in front of a string is kept as it is and does not change how the rest decodes. */
  lemma {:induction false} UnquotePlainPrefix(a: string, b: string)
    requires NoPercent(a)
    ensures Unquote(a + b) == a + Unquote(b)
    decreases |a|
  {
    if a == [] {
      assert a + b == b;
    } else {
      var c, tail := a[0], a[1..];
      NoPercentTail(a);
      UnquotePlainPrefix(tail, b);
      UnquotePlainHead(c, tail + b);
      ConsConcat(a, b);
      ConsConcat(a, Unquote(b));
    }
  }

  /** Splitting off the first character commutes with concatenation. */
  lemma ConsConcat(a: string, b: string)
    requires a != []
    ensures a + b == [a[0]] + (a[1..] + b)
  {
  }

  predicate NoPercent(s: string) {
    forall i :: 0 <= i < |s| ==> s[i] != '%'
  }

  lemma NoPercentTail(s: string)
    requires s != [] && NoPercent(s)
    ensures s[0] != '%' && NoPercent(s[1..])
  {
    assert forall i :: 0 <= i < |s| - 1 ==> s[1..][i] == s[i + 1];
  }

  /** A character other than '%' is kept as it is. */
  lemma UnquotePlainHead(c: char, rest: string)
    requires c != '%'
    ensures Unquote([c] + rest) == [c] + Unquote(rest)
  {
    assert ([c] + rest)[1..] == rest;
  }

  lemma {:induction false} EncodeConcat(a: string, b: string)
    ensures EncodeURIComponent(a + b) == EncodeURIComponent(a) + EncodeURIComponent(b)
  {
    if a == [] {
      assert a + b == b;
    } else {
      assert (a + b)[0] == a[0];
      assert (a + b)[1..] == a[1..] + b;
      EncodeConcat(a[1..], b);
      assert EncodeChar(a[0]) + (EncodeURIComponent(a[1..]) + EncodeURIComponent(b))
        == (EncodeChar(a[0]) + EncodeURIComponent(a[1..])) + EncodeURIComponent(b);
    }
  }

  predicate AllUnreserved(s: string) {
    forall i :: 0 <= i < |s| ==> IsUnreserved(s[i])
  }

  /** A "<vendor>/<model>" string is sent with its one '/' escaped as "%2F". */
  lemma EncodeModelString(vendor: string, model: string)
    requires AllUnreserved(vendor) && AllUnreserved(model)
    ensures EncodeURIComponent(vendor + "/" + model) == vendor + "%2F" + model
  {
    assert EncodeURIComponent("/") == "%2F" by {
      assert EncodeChar('/') == "%2F";
      assert EncodeURIComponent("/") == EncodeChar('/') + EncodeURIComponent([]);
    }
    EncodeConcat(vendor, "/");
    EncodeConcat(vendor + "/", model);
  }

  /** The model-string example: "openai/tts-1" travels as "openai%2Ftts-1" and decodes back. */
  lemma ProviderSegmentExample()
    ensures EncodeURIComponent("openai/tts-1") == "openai%2Ftts-1"
    ensures Unquote("openai%2Ftts-1") == "openai/tts-1"
  {
    ExampleParts();
    EncodeModelString("openai", "tts-1");
    UnquoteEncodeRoundTrip("openai/tts-1");
  }

  lemma ExampleParts()
    ensures AllUnreserved("openai") && AllUnreserved("tts-1")
    ensures "openai/tts-1" == "openai" + "/" + "tts-1"
    ensures "openai%2Ftts-1" == "openai" + "%2F" + "tts-1"
    ensures IsAscii("openai/tts-1")
  {
  }
}

=== FILE: podcast_routes.dfy ===
/**
 * The backend's podcast routes: the listing endpoint's pagination guard, the
 * classification of a background job's result into the three-way task status,
 * the voice-catalogue endpoint, and the validation of a generation form up to
 * the submission of its job.
 *
 * The database, the permission check and the job queue are outside this model:
 * the rows a query would select, whether the permission check passes, and the id
 * the queue assigns to a new job are parameters.
 */
module Routes {
  import opened Results
  import opened Strings
  import opened Json
  import opened Multipart
  import VoiceTables
  import PercentEncoding

  /** Why a request was refused. */
  datatype RouteError =
      /** An explicit HTTP error with its status code and detail text. */
    | HttpError(status: int, detail: string)
      /** The permission check refused the user; its status code belongs to that check. */
    | PermissionDenied(detail: string)
      /** The framework rejected the request because a form field is missing or of the wrong type (422). */
    | Unprocessable(field: string)

  // ---------------------------------------------------------------------------
  // Listing podcasts
  // ---------------------------------------------------------------------------

  const INVALID_PAGINATION := "Invalid pagination parameters"
  const READ_DENIED := "You don't have permission to read podcasts in this search space"

  function Min(a: int, b: int): int {
    if a <= b then a else b
  }

  /** A query's OFFSET `skip` LIMIT `limit` applied to the rows it selects. */
  function Page<T>(rows: seq<T>, skip: nat, limit: nat): (r: seq<T>)
    ensures |r| == if skip >= |rows| then 0 else Min(limit, |rows| - skip)
    ensures forall i :: 0 <= i < |r| ==> r[i] == rows[skip + i]
  {
    if skip >= |rows| then []
    else if skip + limit >= |rows| then rows[skip..]
    else rows[skip..skip + limit]
  }

  /** The query parameters' defaults when the request leaves them out. */
  const DEFAULT_SKIP := 0
  const DEFAULT_LIMIT := 100

  /**
   * Listing podcasts. `skip` and `limit` are the query parameters as sent (None
   * when the request leaves one out); `rows` are the rows the query would select
   * (those of the given search space, or of every search space the user belongs to).
   */
  function ReadPodcasts<T>(skip: Option<int>, limit: Option<int>, searchSpaceId: Option<int>, permitted: bool,
                           rows: seq<T>)
    : (r: Result<seq<T>, RouteError>)
    ensures var k, n := skip.GetOr(DEFAULT_SKIP), limit.GetOr(DEFAULT_LIMIT);
            && (r == Failure(HttpError(400, INVALID_PAGINATION)) <==> k < 0 || n < 1)
            && (r.Failure? && r.error.PermissionDenied? <==> k >= 0 && n >= 1 && searchSpaceId.Some? && !permitted)
            && (r.Success? ==> k >= 0 && n >= 1 && r.value == Page(rows, k, n))
            && (r.Success? ==> |r.value| <= n)
  {
    var k, n := skip.GetOr(DEFAULT_SKIP), limit.GetOr(DEFAULT_LIMIT);
    if k < 0 || n < 1 then Failure(HttpError(400, INVALID_PAGINATION))
    else if searchSpaceId.Some? && !permitted then Failure(PermissionDenied(READ_DENIED))
    else Success(Page(rows, k, n))
  }

  /**
   * A request that leaves the query parameters out pages from the first row and
   * gets at most 100 rows; the history list sends only `limit`.
   */
  lemma OmittedPagingDefaults<T>(limit: Option<int>, searchSpaceId: Option<int>, permitted: bool, rows: seq<T>)
    requires searchSpaceId.None? || permitted
    requires limit.None? || limit.value >= 1
    ensures var r := ReadPodcasts(None, limit, searchSpaceId, permitted, rows);
            && r.Success?
            && (|rows| > 0 ==> r.value[0] == rows[0])
            && (limit.None? ==> |r.value| == Min(DEFAULT_LIMIT, |rows|))
            && (limit.Some? ==> |r.value| == Min(limit.value, |rows|))
  {
  }

  /** The pagination guard decides before any query: neither the rows nor the permission matter. */
  lemma PaginationGuardComesFirst<T>(skip: Option<int>, limit: Option<int>, searchSpaceId: Option<int>,
                                     permitted: bool, rows: seq<T>, otherRows: seq<T>)
    requires skip.GetOr(DEFAULT_SKIP) < 0 || limit.GetOr(DEFAULT_LIMIT) < 1
    ensures ReadPodcasts(skip, limit, searchSpaceId, permitted, rows)
            == ReadPodcasts(skip, limit, None, true, otherRows)
  {
  }

  /** Consecutive pages partition the selected rows. */
  lemma PagesConcatenate<T>(rows: seq<T>, skip: nat, a: nat, b: nat)
    ensures Page(rows, skip, a) + Page(rows, skip + a, b) == Page(rows, skip, a + b)
  {
    var p, q, pq := Page(rows, skip, a), Page(rows, skip + a, b), Page(rows, skip, a + b);
    assert |p + q| == |pq|;
    forall i | 0 <= i < |pq|
      ensures (p + q)[i] == pq[i]
    {
      if i < |p| {
        assert (p + q)[i] == p[i];
      } else {
        assert (p + q)[i] == q[i - |p|] == rows[skip + a + (i - |p|)];
        assert |p| == a;
      }
    }
  }

  // ---------------------------------------------------------------------------
  // Task status
  // ---------------------------------------------------------------------------

  /**
   * What the job queue reports about a job: whether it has finished, whether it
   * finished without raising, its state label, and its return value (or, for a
   * job that raised, the exception, here a value rendered by `show`).
   */
  datatype JobResult = JobResult(ready: bool, successful: bool, state: string, payload: Json)

  /** The task-status reply, before it is serialised. Its members are passed through unvalidated. */
  datatype StatusReply =
    | ProcessingReply(state: string)
    | SuccessReply(podcastId: Json, title: Json, transcriptEntries: Json)
    | ErrorReply(error: Json)

  const UNKNOWN_ERROR := "Unknown error"
  const UNEXPECTED_FORMAT := "Unexpected task result format"
  const TASK_FAILED := "Task failed"

  /** A finished job's return value that reports success. */
  predicate IsSuccessRecord(payload: Json) {
    payload.JObj? && PyGet(payload.fields, "status", JNull) == JStr("success")
  }

  /**
   * The classifier of the task-status endpoint. `show` is Python's `str()` of a
   * job's exception.
   */
  function ClassifyJob(job: JobResult, show: Json -> string): (rep: StatusReply)
    ensures rep.ProcessingReply? <==> !job.ready
    ensures rep.ProcessingReply? ==> rep.state == job.state
    ensures rep.SuccessReply? <==> job.ready && job.successful && IsSuccessRecord(job.payload)
    ensures rep.SuccessReply? ==>
              && rep.podcastId == PyGet(job.payload.fields, "podcast_id", JNull)
              && rep.title == PyGet(job.payload.fields, "title", JNull)
              && rep.transcriptEntries == PyGet(job.payload.fields, "transcript_entries", JNull)
    ensures job.ready && job.successful && job.payload.JObj? && !IsSuccessRecord(job.payload) ==>
              rep == ErrorReply(PyGet(job.payload.fields, "error", JStr(UNKNOWN_ERROR)))
    ensures job.ready && job.successful && !job.payload.JObj? ==> rep == ErrorReply(JStr(UNEXPECTED_FORMAT))
    ensures job.ready && !job.successful ==>
              rep == ErrorReply(JStr(if PyTruthy(job.payload) then show(job.payload) else TASK_FAILED))
  {
    if !job.ready then ProcessingReply(job.state)
    else if !job.successful then
      ErrorReply(JStr(if PyTruthy(job.payload) then show(job.payload) else TASK_FAILED))
    else if !job.payload.JObj? then ErrorReply(JStr(UNEXPECTED_FORMAT))
    else
      var d := job.payload.fields;
      if PyGet(d, "status", JNull) == JStr("success") then
        SuccessReply(PyGet(d, "podcast_id", JNull), PyGet(d, "title", JNull), PyGet(d, "transcript_entries", JNull))
      else ErrorReply(PyGet(d, "error", JStr(UNKNOWN_ERROR)))
  }

  /** The JSON body of a task-status reply. */
  function StatusReplyJson(rep: StatusReply): (j: Json)
    ensures j.JObj? && "status" in j.fields
    ensures j.fields["status"] == JStr(match rep
                                       case ProcessingReply(_) => "processing"
                                       case SuccessReply(_, _, _) => "success"
                                       case ErrorReply(_) => "error")
  {
    match rep
    case ProcessingReply(st) => JObj(map["status" := JStr("processing"), "state" := JStr(st)])
    case SuccessReply(id, t, n) =>
      JObj(map["status" := JStr("success"), "podcast_id" := id, "title" := t, "transcript_entries" := n])
    case ErrorReply(e) => JObj(map["status" := JStr("error"), "error" := e])
  }

  // ---------------------------------------------------------------------------
  // Voice catalogue
  // ---------------------------------------------------------------------------

  function VoiceJson(v: VoiceTables.Voice): Json {
    JObj(map["id" := JStr(v.id), "name" := JStr(v.name), "description" := JStr(v.description)])
  }

  /** The catalogue reply for a provider path segment, which is percent-decoded first. */
  function VoicesReply(segment: string): (j: Json)
    ensures j.JObj? && j.fields.Keys == {"provider", "voices"}
    ensures j.fields["provider"] == JStr(PercentEncoding.Unquote(segment))
    ensures j.fields["voices"].JArr?
    ensures var vs := VoiceTables.AvailableVoices(PercentEncoding.Unquote(segment));
            |j.fields["voices"].items| == |vs|
            && forall i :: 0 <= i < |vs| ==> j.fields["voices"].items[i] == VoiceJson(vs[i])
  {
    var provider := PercentEncoding.Unquote(segment);
    var vs := VoiceTables.AvailableVoices(provider);
    JObj(map["provider" := JStr(provider), "voices" := JArr(seq(|vs|, i requires 0 <= i < |vs| => VoiceJson(vs[i])))])
  }

  const VOICES_ROUTE := "/api/v1/podcasts/tts-voices/"

  /**
   * The catalogue route as declared, matched against the request path the server
   * has already percent-decoded: a plain path parameter is one non-empty segment,
   * so a provider holding a '/' is not matched.
   */
  function MatchVoices(path: string): (segment: Option<string>)
    ensures segment.Some? ==> path == VOICES_ROUTE + segment.value && segment.value != "" && '/' !in segment.value
  {
    var n := |VOICES_ROUTE|;
    if |path| > n && path[..n] == VOICES_ROUTE && '/' !in path[n..] then
      assert path == path[..n] + path[n..];
      Some(path[n..])
    else None
  }

  /** The route matches exactly the single non-empty segments after its prefix. */
  lemma MatchVoicesExactly(segment: string)
    ensures MatchVoices(VOICES_ROUTE + segment) == if segment != "" && '/' !in segment then Some(segment) else None
  {
    var path := VOICES_ROUTE + segment;
    assert path[..|VOICES_ROUTE|] == VOICES_ROUTE && path[|VOICES_ROUTE|..] == segment;
  }

  /**
   * The route with a path-typed parameter (`{provider:path}`): everything after
   * the prefix, '/' included, is the provider.
   */
  function MatchVoicesAnyPath(path: string): (rest: Option<string>)
    ensures rest.Some? ==> path == VOICES_ROUTE + rest.value
  {
    var n := |VOICES_ROUTE|;
    if |path| >= n && path[..n] == VOICES_ROUTE then
      assert path == path[..n] + path[n..];
      Some(path[n..])
    else None
  }

  /** The path-typed route matches everything after its prefix. */
  lemma MatchVoicesAnyPathExactly(rest: string)
    ensures MatchVoicesAnyPath(VOICES_ROUTE + rest) == Some(rest)
  {
    var path := VOICES_ROUTE + rest;
    assert path[..|VOICES_ROUTE|] == VOICES_ROUTE && path[|VOICES_ROUTE|..] == rest;
  }

  // ---------------------------------------------------------------------------
  // Streaming a podcast's audio
  // ---------------------------------------------------------------------------

  const PODCASTS_PREFIX := "/api/v1/podcasts/"

  /**
   * The two streaming routes, `/podcasts/{podcast_id}/audio` and `/stream`: the
   * id is one non-empty segment, then read as an integer.
   */
  function MatchAudio(path: string): (id: Option<int>)
    ensures id.Some? ==> exists segment :: AudioPath(segment, path) && ParseInt(segment) == id
  {
    match AudioSegment(path)
    case Some(segment) => ParseInt(segment)
    case None => None
  }

  /** `path` is a streaming path whose id segment is `segment`. */
  predicate AudioPath(segment: string, path: string) {
    && segment != "" && '/' !in segment
    && (path == PODCASTS_PREFIX + segment + "/audio" || path == PODCASTS_PREFIX + segment + "/stream")
  }

  function AudioSegment(path: string): (segment: Option<string>)
    ensures segment.Some? ==> AudioPath(segment.value, path)
  {
    var n := |PODCASTS_PREFIX|;
    if |path| > n && path[..n] == PODCASTS_PREFIX then
      var rest := path[n..];
      assert path == PODCASTS_PREFIX + rest;
      match SplitSuffix(rest, "/audio")
      case Some(segment) =>
        assert path == PODCASTS_PREFIX + segment + "/audio";
        Some(segment)
      case None =>
        match SplitSuffix(rest, "/stream")
        case Some(segment) =>
          assert path == PODCASTS_PREFIX + segment + "/stream";
          Some(segment)
        case None => None
    else None
  }

  /** `text` as a single non-empty segment followed by `suffix`. */
  function SplitSuffix(text: string, suffix: string): (segment: Option<string>)
    ensures segment.Some? ==> text == segment.value + suffix && segment.value != "" && '/' !in segment.value
  {
    var k := |text| - |suffix|;
    if k > 0 && text[k..] == suffix && '/' !in text[..k] then
      assert text == text[..k] + text[k..];
      Some(text[..k])
    else None
  }

  /** The audio route reads back exactly the ids written as one segment. */
  lemma MatchAudioExactly(segment: string)
    ensures MatchAudio(PODCASTS_PREFIX + segment + "/audio")
            == if segment != "" && '/' !in segment then ParseInt(segment) else None
  {
    var path := PODCASTS_PREFIX + segment + "/audio";
    var n := |PODCASTS_PREFIX|;
    assert path[..n] == PODCASTS_PREFIX;
    var rest := path[n..];
    assert rest == segment + "/audio";
    var k := |rest| - 6;
    assert rest[k..] == "/audio" && rest[..k] == segment;
    assert rest[|rest| - 1] == 'o';
    assert SplitSuffix(rest, "/stream").None?;
  }

  // ---------------------------------------------------------------------------
  // Generating a podcast
  // ---------------------------------------------------------------------------

  const DEFAULT_TITLE := "SurfSense Podcast"
  const DEFAULT_SOURCE_TYPE := "text"
  const CREATE_DENIED := "You don't have permission to create podcasts in this search space"
  const TEXT_REQUIRED := "text_content is required when source_type is 'text'"
  const DOCUMENT_REQUIRED := "document_file is required when source_type is 'document'"
  const UNDECODABLE := "Could not decode document. Please upload a text file or implement ETL service."
  const BAD_SOURCE_TYPE := "source_type must be 'text' or 'document'"

  /** The generation form's fields after the framework has bound them. */
  datatype GenerateForm = GenerateForm(
    searchSpaceId: int,
    podcastTitle: string,
    userPrompt: Option<string>,
    ttsProvider: Option<string>,
    speaker0Voice: Option<string>,
    speaker1Voice: Option<string>,
    sourceType: string,
    textContent: Option<string>,
    documentFile: Option<DocumentFile>)

  /** A text form field as the framework binds it: an empty value counts as absent. */
  function FormText(parts: seq<FormPart>, name: string): (r: Option<string>)
    ensures r.Some? ==> r.value != "" && TextField(parts, name) == r
    ensures r.None? ==> TextField(parts, name).None? || TextField(parts, name) == Some("")
  {
    match TextField(parts, name)
    case Some(v) => if v == "" then None else Some(v)
    case None => None
  }

  /** Binding the multipart body to the form's parameters, with their declared defaults. */
  function ReadForm(parts: seq<FormPart>): (r: Result<GenerateForm, RouteError>)
    ensures r.Failure? <==> FormText(parts, "search_space_id").None?
                            || ParseInt(FormText(parts, "search_space_id").value).None?
    ensures r.Failure? ==> r.error == Unprocessable("search_space_id")
    ensures r.Success? ==>
              && ParseInt(FormText(parts, "search_space_id").value) == Some(r.value.searchSpaceId)
              && r.value.podcastTitle == FormText(parts, "podcast_title").GetOr(DEFAULT_TITLE)
              && r.value.sourceType == FormText(parts, "source_type").GetOr(DEFAULT_SOURCE_TYPE)
              && r.value.userPrompt == FormText(parts, "user_prompt")
              && r.value.ttsProvider == FormText(parts, "tts_provider")
              && r.value.speaker0Voice == FormText(parts, "speaker_0_voice")
              && r.value.speaker1Voice == FormText(parts, "speaker_1_voice")
              && r.value.textContent == FormText(parts, "text_content")
              && r.value.documentFile == FileField(parts, "document_file")
  {
    match FormText(parts, "search_space_id")
    case None => Failure(Unprocessable("search_space_id"))
    case Some(idText) =>
      match ParseInt(idText)
      case None => Failure(Unprocessable("search_space_id"))
      case Some(id) =>
        Success(GenerateForm(
          id,
          FormText(parts, "podcast_title").GetOr(DEFAULT_TITLE),
          FormText(parts, "user_prompt"),
          FormText(parts, "tts_provider"),
          FormText(parts, "speaker_0_voice"),
          FormText(parts, "speaker_1_voice"),
          FormText(parts, "source_type").GetOr(DEFAULT_SOURCE_TYPE),
          FormText(parts, "text_content"),
          FileField(parts, "document_file")))
  }

  /** The per-speaker voice overrides handed to the job. */
  function CustomVoices(speaker0: Option<string>, speaker1: Option<string>): (r: Option<map<int, string>>)
    ensures r.None? <==> !Given(speaker0) && !Given(speaker1)
    ensures r.Some? ==> r.value.Keys <= {0, 1}
    ensures r.Some? ==> (0 in r.value <==> Given(speaker0)) && (1 in r.value <==> Given(speaker1))
    ensures r.Some? && 0 in r.value ==> r.value[0] == speaker0.value
    ensures r.Some? && 1 in r.value ==> r.value[1] == speaker1.value
  {
    if !Given(speaker0) && !Given(speaker1) then None
    else
      var m0: map<int, string> := if Given(speaker0) then map[0 := speaker0.value] else map[];
      Some(if Given(speaker1) then m0[1 := speaker1.value] else m0)
  }

  /**
   * The content the job works from: the stripped text, or the document's bytes
   * as decoded by `decode` (UTF-8 decoding, which may fail).
   */
  function SourceContent(form: GenerateForm, decode: seq<Byte> -> Option<string>): (r: Result<string, RouteError>)
    ensures form.sourceType == "text" ==>
              if form.textContent.None? || AllSpace(PyWhitespace, form.textContent.value)
              then r == Failure(HttpError(400, TEXT_REQUIRED))
              else r == Success(Trim(PyWhitespace, form.textContent.value)) && r.value != ""
    ensures form.sourceType == "document" ==>
              if form.documentFile.None? then r == Failure(HttpError(400, DOCUMENT_REQUIRED))
              else if decode(form.documentFile.value.bytes).None? then r == Failure(HttpError(400, UNDECODABLE))
              else r == Success(decode(form.documentFile.value.bytes).value)
    ensures form.sourceType !in {"text", "document"} ==> r == Failure(HttpError(400, BAD_SOURCE_TYPE))
  {
    if form.sourceType == "text" then
      if form.textContent.None? || Trim(PyWhitespace, form.textContent.value) == "" then Failure(HttpError(400, TEXT_REQUIRED))
      else Success(Trim(PyWhitespace, form.textContent.value))
    else if form.sourceType == "document" then
      match form.documentFile
      case None => Failure(HttpError(400, DOCUMENT_REQUIRED))
      case Some(f) =>
        match decode(f.bytes)
        case None => Failure(HttpError(400, UNDECODABLE))
        case Some(content) => Success(content)
    else Failure(HttpError(400, BAD_SOURCE_TYPE))
  }

  /** The arguments a generation job is submitted with. */
  datatype JobArgs = JobArgs(
    sourceContent: string,
    searchSpaceId: int,
    podcastTitle: string,
    userPrompt: Option<string>,
    ttsProvider: Option<string>,
    customVoices: Option<map<int, string>>,
    sourceType: string)

  /** An accepted generation request: the job submitted and the reply sent. */
  datatype Accepted = Accepted(job: JobArgs, reply: Json)

  function GenerateReplyJson(taskId: string): Json {
    JObj(map["status" := JStr("processing"), "task_id" := JStr(taskId)])
  }

  /**
   * The generation endpoint. The permission check runs first; a job is submitted
   * (and given the id `taskId` by the queue) only when the source is usable.
   */
  function GeneratePodcast(form: GenerateForm, permitted: bool, decode: seq<Byte> -> Option<string>, taskId: string)
    : (r: Result<Accepted, RouteError>)
    ensures !permitted ==> r == Failure(PermissionDenied(CREATE_DENIED))
    ensures permitted ==> (r.Success? <==> SourceContent(form, decode).Success?)
    ensures permitted && r.Failure? ==> r.error == SourceContent(form, decode).error
    ensures r.Success? ==> form.sourceType in {"text", "document"}
    ensures r.Success? ==> r.value.job == JobArgs(
              SourceContent(form, decode).value, form.searchSpaceId, form.podcastTitle, form.userPrompt,
              form.ttsProvider, CustomVoices(form.speaker0Voice, form.speaker1Voice), form.sourceType)
    ensures r.Success? ==> r.value.reply == GenerateReplyJson(taskId)
  {
    if !permitted then Failure(PermissionDenied(CREATE_DENIED))
    else
      match SourceContent(form, decode)
      case Failure(e) => Failure(e)
      case Success(content) =>
        var job := JobArgs(content, form.searchSpaceId, form.podcastTitle, form.userPrompt, form.ttsProvider,
                           CustomVoices(form.speaker0Voice, form.speaker1Voice), form.sourceType);
        Success(Accepted(job, GenerateReplyJson(taskId)))
  }

  /** A text request with nothing but whitespace submits no job, whatever else the form holds. */
  lemma BlankTextSubmitsNothing(form: GenerateForm, permitted: bool, decode: seq<Byte> -> Option<string>, taskId: string)
    requires form.sourceType == "text"
    requires form.textContent.Some? ==> AllSpace(PyWhitespace, form.textContent.value)
    ensures GeneratePodcast(form, permitted, decode, taskId).Failure?
  {
  }

  /** A submitted text job works from content with no surrounding whitespace. */
  lemma SubmittedTextIsStripped(form: GenerateForm, permitted: bool, decode: seq<Byte> -> Option<string>, taskId: string)
    requires form.sourceType == "text"
    requires GeneratePodcast(form, permitted, decode, taskId).Success?
    ensures var c := GeneratePodcast(form, permitted, decode, taskId).value.job.sourceContent;
            c != [] && !IsSpace(PyWhitespace, c[0]) && !IsSpace(PyWhitespace, c[|c| - 1])
            && c == form.textContent.value[LeadingSpaces(PyWhitespace, form.textContent.value)..LeadingSpaces(PyWhitespace, form.textContent.value) + |c|]
  {
  }

  // ---------------------------------------------------------------------------
  // Route templates
  // ---------------------------------------------------------------------------

  const TASK_STATUS_PREFIX := "/api/v1/podcasts/task/"
  const TASK_STATUS_SUFFIX := "/status"

  /** Matching a request path against the task-status route; a path parameter is one non-empty segment. */
  function MatchTaskStatus(path: string): (taskId: Option<string>)
    ensures taskId.Some? ==> path == TASK_STATUS_PREFIX + taskId.value + TASK_STATUS_SUFFIX
    ensures taskId.Some? ==> taskId.value != [] && '/' !in taskId.value
  {
    var p, s := |TASK_STATUS_PREFIX|, |TASK_STATUS_SUFFIX|;
    if |path| > p + s && path[..p] == TASK_STATUS_PREFIX && path[|path| - s..] == TASK_STATUS_SUFFIX
       && '/' !in path[p..|path| - s]
    then
      var id := path[p..|path| - s];
      assert path == path[..p] + id + path[|path| - s..];
      Some(id)
    else None
  }

  /** Every single-segment id is recovered from its status path. */
  lemma MatchTaskStatusOf(taskId: string)
    requires taskId != [] && '/' !in taskId
    ensures MatchTaskStatus(TASK_STATUS_PREFIX + taskId + TASK_STATUS_SUFFIX) == Some(taskId)
  {
    var path := TASK_STATUS_PREFIX + taskId + TASK_STATUS_SUFFIX;
    var p, s := |TASK_STATUS_PREFIX|, |TASK_STATUS_SUFFIX|;
    assert path[..p] == TASK_STATUS_PREFIX;
    assert path[|path| - s..] == TASK_STATUS_SUFFIX;
    assert path[p..|path| - s] == taskId;
  }
}

=== FILE: podcast_types.dfy ===
/**
 * The client's wire contracts: the shapes the web client accepts from the
 * backend and the generation request it accepts from its own callers, each as a
 * datatype with a validator that either yields the typed value or rejects.
 * A validator accepts an object with extra members and ignores them, as the
 * client's schema library does.
 */
module Contracts {
  import opened Results
  import opened Json
  import opened Multipart

  // ---------------------------------------------------------------------------
  // Podcast entity
  // ---------------------------------------------------------------------------

  /** One line of a transcript: who speaks and what is said. */
  datatype TranscriptEntry = TranscriptEntry(speakerId: int, dialog: string)

  /** A generated podcast as listed by the backend. */
  datatype Podcast = Podcast(
    id: int,
    title: string,
    transcript: Option<seq<TranscriptEntry>>,
    fileLocation: Option<string>,
    searchSpaceId: int,
    ttsProvider: Option<string>,
    ttsVoices: Option<map<string, string>>,
    sourceType: Option<string>,
    durationSeconds: Option<int>,
    createdAt: string,
    updatedAt: Option<string>)

  function ParseString(j: Json): (r: Option<string>)
    ensures r.Some? <==> j.JStr?
    ensures r.Some? ==> r.value == j.s
  {
    if j.JStr? then Some(j.s) else None
  }

  function ParseNumber(j: Json): (r: Option<int>)
    ensures r.Some? <==> j.JNum?
    ensures r.Some? ==> r.value == j.n
  {
    if j.JNum? then Some(j.n) else None
  }

  /** A required member of type `T` read by `parse`. */
  function Required<T>(j: Json, key: string, parse: Json -> Option<T>): (r: Option<T>)
    ensures r.Some? ==> j.JObj? && key in j.fields && parse(j.fields[key]) == r
  {
    if j.JObj? && key in j.fields then parse(j.fields[key]) else None
  }

  /** An optional member: absent gives `Some(None)`; present must parse (`null` is not absent). */
  function OptionalMember<T>(j: Json, key: string, parse: Json -> Option<T>): (r: Option<Option<T>>)
    requires j.JObj?
    ensures key !in j.fields ==> r == Some(None)
  {
    if key !in j.fields then Some(None)
    else match parse(j.fields[key])
      case Some(v) => Some(Some(v))
      case None => None
  }

  /** A nullable value read by `parse`: `null` is none. */
  function Unnull<T>(v: Json, parse: Json -> Option<T>): (r: Option<T>)
    ensures v == JNull ==> r.None?
    ensures v != JNull ==> r == parse(v)
  {
    if v == JNull then None else parse(v)
  }

  /** A transcript entry: a numeric `speaker_id` and a string `dialog`, read as they are. */
  function ParseTranscriptEntry(j: Json): (r: Option<TranscriptEntry>)
    ensures r.Some? <==> j.JObj? && "speaker_id" in j.fields && j.fields["speaker_id"].JNum?
                         && "dialog" in j.fields && j.fields["dialog"].JStr?
    ensures r.Some? ==> j.fields["speaker_id"] == JNum(r.value.speakerId) && j.fields["dialog"] == JStr(r.value.dialog)
  {
    match (Required(j, "speaker_id", ParseNumber), Required(j, "dialog", ParseString))
    case (Some(s), Some(d)) => Some(TranscriptEntry(s, d))
    case _ => None
  }

  function TranscriptEntryJson(e: TranscriptEntry): Json {
    JObj(map["speaker_id" := JNum(e.speakerId), "dialog" := JStr(e.dialog)])
  }

  /** An entry as the backend writes it is read back as itself. */
  lemma TranscriptEntryRoundTrip(e: TranscriptEntry)
    ensures ParseTranscriptEntry(TranscriptEntryJson(e)) == Some(e)
  {
  }

  /** An array whose every element parses; the parsed elements keep their order. */
  function ParseEntries(items: seq<Json>): (r: Option<seq<TranscriptEntry>>)
    ensures r.Some? <==> forall i :: 0 <= i < |items| ==> ParseTranscriptEntry(items[i]).Some?
    ensures r.Some? ==> |r.value| == |items|
    ensures r.Some? ==> forall i :: 0 <= i < |items| ==> ParseTranscriptEntry(items[i]) == Some(r.value[i])
  {
    if items == [] then Some([])
    else match (ParseTranscriptEntry(items[0]), ParseEntries(items[1..]))
      case (Some(e), Some(rest)) =>
        assert forall i :: 1 <= i < |items| ==> items[i] == items[1..][i - 1];
        Some([e] + rest)
      case (None, _) => None
      case (_, None) =>
        assert forall i :: 0 <= i < |items| - 1 ==> items[1..][i] == items[i + 1];
        None
  }

  function ParseTranscript(j: Json): (r: Option<seq<TranscriptEntry>>)
    ensures r.Some? <==> j.JArr? && forall i :: 0 <= i < |j.items| ==> ParseTranscriptEntry(j.items[i]).Some?
    ensures r.Some? ==> |r.value| == |j.items|
                        && forall i :: 0 <= i < |j.items| ==> ParseTranscriptEntry(j.items[i]) == Some(r.value[i])
  {
    if j.JArr? then ParseEntries(j.items) else None
  }

  function TranscriptJson(es: seq<TranscriptEntry>): (j: Json)
    ensures j.JArr? && |j.items| == |es|
    ensures forall i :: 0 <= i < |es| ==> j.items[i] == TranscriptEntryJson(es[i])
  {
    JArr(seq(|es|, i requires 0 <= i < |es| => TranscriptEntryJson(es[i])))
  }

  /** A transcript as the backend writes it is read back entry for entry. */
  lemma TranscriptRoundTrip(es: seq<TranscriptEntry>)
    ensures ParseTranscript(TranscriptJson(es)) == Some(es)
  {
    var j := TranscriptJson(es);
    forall i | 0 <= i < |es|
      ensures ParseTranscriptEntry(j.items[i]) == Some(es[i])
    {
      TranscriptEntryRoundTrip(es[i]);
    }
    assert ParseEntries(j.items).value == es;
  }

  /** A record whose every value is a string. */
  function ParseStringRecord(j: Json): (r: Option<map<string, string>>)
    ensures r.Some? <==> j.JObj? && forall k :: k in j.fields ==> j.fields[k].JStr?
    ensures r.Some? ==> r.value.Keys == j.fields.Keys && forall k :: k in r.value ==> j.fields[k] == JStr(r.value[k])
    ensures r.Some? ==> j == StringRecordJson(r.value)
  {
    if j.JObj? && forall k :: k in j.fields ==> j.fields[k].JStr? then
      var m := map k | k in j.fields :: j.fields[k].s;
      assert j.fields == StringRecordJson(m).fields;
      Some(m)
    else None
  }

  function StringRecordJson(m: map<string, string>): Json {
    JObj(map k | k in m :: JStr(m[k]))
  }

  /** A string record as the backend writes it is read back as itself. */
  lemma StringRecordRoundTrip(m: map<string, string>)
    ensures ParseStringRecord(StringRecordJson(m)) == Some(m)
  {
    var r := ParseStringRecord(StringRecordJson(m));
    assert r.Some?;
    assert r.value == m;
  }

  /** A nullable member as written: `null` for none, else the value in the form `show` gives it. */
  function NullOr<T>(v: Option<T>, show: T -> Json): Json {
    match v
    case None => JNull
    case Some(x) => show(x)
  }

  function StringJson(s: string): Json {
    JStr(s)
  }

  function NumberJson(n: int): Json {
    JNum(n)
  }

  /** Reading a nullable value and writing it back gives the value that was read. */
  lemma NullableReadBack<T>(v: Json, parse: Json -> Option<T>, show: T -> Json)
    requires v == JNull || parse(v).Some?
    requires v != JNull ==> show(parse(v).value) == v
    ensures NullOr(Unnull(v, parse), show) == v
  {
  }

  /** The members the podcast schema reads, each present with its type; the nullable ones may be `null`. */
  predicate PodcastShaped(j: Json) {
    j.JObj? && CoreShaped(j.fields) && DetailsShaped(j.fields)
  }

  /** The identifying members: numeric id and search space, string title and creation time, optional update time. */
  predicate CoreShaped(f: map<string, Json>) {
    && "id" in f && f["id"].JNum?
    && "title" in f && f["title"].JStr?
    && "search_space_id" in f && f["search_space_id"].JNum?
    && "created_at" in f && f["created_at"].JStr?
    && ("updated_at" in f ==> f["updated_at"].JStr?)
  }

  /** The nullable members: the transcript, the audio file, the voice settings, the source type and the duration. */
  predicate DetailsShaped(f: map<string, Json>) {
    && "podcast_transcript" in f
    && (f["podcast_transcript"] == JNull || ParseTranscript(f["podcast_transcript"]).Some?)
    && "file_location" in f && (f["file_location"] == JNull || f["file_location"].JStr?)
    && "tts_provider" in f && (f["tts_provider"] == JNull || f["tts_provider"].JStr?)
    && "tts_voices" in f && (f["tts_voices"] == JNull || ParseStringRecord(f["tts_voices"]).Some?)
    && "source_type" in f && (f["source_type"] == JNull || f["source_type"].JStr?)
    && "duration_seconds" in f && (f["duration_seconds"] == JNull || f["duration_seconds"].JNum?)
  }

  /** The members of `j` that `p` was read from agree with `p`. */
  predicate PodcastReadFrom(j: Json, p: Podcast)
    requires PodcastShaped(j)
  {
    CoreReadFrom(j.fields, p) && DetailsReadFrom(j.fields, p)
  }

  predicate CoreReadFrom(f: map<string, Json>, p: Podcast)
    requires CoreShaped(f)
  {
    && f["id"] == JNum(p.id) && f["title"] == JStr(p.title)
    && f["search_space_id"] == JNum(p.searchSpaceId) && f["created_at"] == JStr(p.createdAt)
    && (if "updated_at" in f then p.updatedAt == Some(f["updated_at"].s) else p.updatedAt.None?)
  }

  predicate DetailsReadFrom(f: map<string, Json>, p: Podcast)
    requires DetailsShaped(f)
  {
    && (if f["podcast_transcript"] == JNull then p.transcript.None?
        else p.transcript == ParseTranscript(f["podcast_transcript"]))
    && f["file_location"] == NullOr(p.fileLocation, StringJson)
    && f["tts_provider"] == NullOr(p.ttsProvider, StringJson)
    && f["tts_voices"] == NullOr(p.ttsVoices, StringRecordJson)
    && f["source_type"] == NullOr(p.sourceType, StringJson)
    && f["duration_seconds"] == NullOr(p.durationSeconds, NumberJson)
  }

  /** A podcast is accepted exactly when its members have their types, and is read from them. */
  function ParsePodcast(j: Json): (r: Option<Podcast>)
    ensures r.Some? <==> PodcastShaped(j)
    ensures r.Some? ==> PodcastReadFrom(j, r.value)
  {
    if !PodcastShaped(j) then None
    else
      ReadsCore(j.fields);
      ReadsDetails(j.fields);
      Some(ReadPodcast(j.fields))
  }

  function ReadPodcast(f: map<string, Json>): Podcast
    requires CoreShaped(f) && DetailsShaped(f)
  {
    Podcast(
      f["id"].n, f["title"].s,
      Unnull(f["podcast_transcript"], ParseTranscript),
      Unnull(f["file_location"], ParseString),
      f["search_space_id"].n,
      Unnull(f["tts_provider"], ParseString),
      Unnull(f["tts_voices"], ParseStringRecord),
      Unnull(f["source_type"], ParseString),
      Unnull(f["duration_seconds"], ParseNumber),
      f["created_at"].s,
      if "updated_at" in f then Some(f["updated_at"].s) else None)
  }

  lemma ReadsCore(f: map<string, Json>)
    requires CoreShaped(f) && DetailsShaped(f)
    ensures CoreReadFrom(f, ReadPodcast(f))
  {
  }

  lemma ReadsDetails(f: map<string, Json>)
    requires CoreShaped(f) && DetailsShaped(f)
    ensures DetailsReadFrom(f, ReadPodcast(f))
  {
    NullableReadBack(f["file_location"], ParseString, StringJson);
    NullableReadBack(f["tts_provider"], ParseString, StringJson);
    NullableReadBack(f["tts_voices"], ParseStringRecord, StringRecordJson);
    NullableReadBack(f["source_type"], ParseString, StringJson);
    NullableReadBack(f["duration_seconds"], ParseNumber, NumberJson);
  }

  /** A podcast as the backend writes it; `updated_at` is left out when there is none. */
  function PodcastJson(p: Podcast): Json {
    var always := PodcastFields(
      JNum(p.id), JStr(p.title), NullOr(p.transcript, TranscriptJson), NullOr(p.fileLocation, StringJson),
      JNum(p.searchSpaceId), NullOr(p.ttsProvider, StringJson), NullOr(p.ttsVoices, StringRecordJson),
      NullOr(p.sourceType, StringJson), NullOr(p.durationSeconds, NumberJson), JStr(p.createdAt));
    JObj(if p.updatedAt.Some? then always["updated_at" := JStr(p.updatedAt.value)] else always)
  }

  /** The members always written, by name. */
  function PodcastFields(id: Json, title: Json, transcript: Json, fileLocation: Json, searchSpaceId: Json,
                         ttsProvider: Json, ttsVoices: Json, sourceType: Json, duration: Json, createdAt: Json)
    : (f: map<string, Json>)
    ensures "id" in f && f["id"] == id
    ensures "title" in f && f["title"] == title
    ensures "podcast_transcript" in f && f["podcast_transcript"] == transcript
    ensures "file_location" in f && f["file_location"] == fileLocation
    ensures "search_space_id" in f && f["search_space_id"] == searchSpaceId
    ensures "tts_provider" in f && f["tts_provider"] == ttsProvider
    ensures "tts_voices" in f && f["tts_voices"] == ttsVoices
    ensures "source_type" in f && f["source_type"] == sourceType
    ensures "duration_seconds" in f && f["duration_seconds"] == duration
    ensures "created_at" in f && f["created_at"] == createdAt
    ensures "updated_at" !in f
  {
    map["id" := id, "title" := title, "podcast_transcript" := transcript, "file_location" := fileLocation,
        "search_space_id" := searchSpaceId, "tts_provider" := ttsProvider, "tts_voices" := ttsVoices,
        "source_type" := sourceType, "duration_seconds" := duration, "created_at" := createdAt]
  }

  /** Every podcast as the backend writes it is read back as itself. */
  lemma PodcastRoundTrip(p: Podcast)
    ensures ParsePodcast(PodcastJson(p)) == Some(p)
  {
    var f := PodcastJson(p).fields;
    PodcastMembers(p);
    WrittenCoreIsShaped(f, p);
    WrittenDetailsReadBack(f, p);
    assert ReadPodcast(f) == p;
  }

  /** The members of a podcast as written, one by one. */
  lemma PodcastMembers(p: Podcast)
    ensures WrittenFrom(PodcastJson(p).fields, p)
  {
  }

  /** `f` holds the members the backend writes for `p`. */
  predicate WrittenFrom(f: map<string, Json>, p: Podcast) {
    && "id" in f && f["id"] == JNum(p.id)
    && "title" in f && f["title"] == JStr(p.title)
    && "podcast_transcript" in f && f["podcast_transcript"] == NullOr(p.transcript, TranscriptJson)
    && "file_location" in f && f["file_location"] == NullOr(p.fileLocation, StringJson)
    && "search_space_id" in f && f["search_space_id"] == JNum(p.searchSpaceId)
    && "tts_provider" in f && f["tts_provider"] == NullOr(p.ttsProvider, StringJson)
    && "tts_voices" in f && f["tts_voices"] == NullOr(p.ttsVoices, StringRecordJson)
    && "source_type" in f && f["source_type"] == NullOr(p.sourceType, StringJson)
    && "duration_seconds" in f && f["duration_seconds"] == NullOr(p.durationSeconds, NumberJson)
    && "created_at" in f && f["created_at"] == JStr(p.createdAt)
    && ("updated_at" in f <==> p.updatedAt.Some?)
    && (p.updatedAt.Some? ==> f["updated_at"] == JStr(p.updatedAt.value))
  }

  lemma WrittenCoreIsShaped(f: map<string, Json>, p: Podcast)
    requires WrittenFrom(f, p)
    ensures CoreShaped(f)
    ensures "updated_at" in f ==> p.updatedAt == Some(f["updated_at"].s)
  {
  }

  /** The nullable members as written read back as the podcast's own values. */
  lemma WrittenDetailsReadBack(f: map<string, Json>, p: Podcast)
    requires WrittenFrom(f, p)
    ensures DetailsShaped(f)
    ensures Unnull(f["podcast_transcript"], ParseTranscript) == p.transcript
    ensures Unnull(f["file_location"], ParseString) == p.fileLocation
    ensures Unnull(f["tts_provider"], ParseString) == p.ttsProvider
    ensures Unnull(f["tts_voices"], ParseStringRecord) == p.ttsVoices
    ensures Unnull(f["source_type"], ParseString) == p.sourceType
    ensures Unnull(f["duration_seconds"], ParseNumber) == p.durationSeconds
  {
    if p.transcript.Some? {
      TranscriptRoundTrip(p.transcript.value);
    }
    if p.ttsVoices.Some? {
      StringRecordRoundTrip(p.ttsVoices.value);
    }
  }

  // ---------------------------------------------------------------------------
  // Voices
  // ---------------------------------------------------------------------------

  datatype TtsVoice = TtsVoice(id: string, name: string, description: string)

  datatype TtsVoicesResponse = TtsVoicesResponse(provider: string, voices: seq<TtsVoice>)

  function ParseTtsVoice(j: Json): (r: Option<TtsVoice>)
    ensures r.Some? <==> j.JObj? && "id" in j.fields && j.fields["id"].JStr?
                         && "name" in j.fields && j.fields["name"].JStr?
                         && "description" in j.fields && j.fields["description"].JStr?
    ensures r.Some? ==> j.fields["id"] == JStr(r.value.id) && j.fields["name"] == JStr(r.value.name)
                        && j.fields["description"] == JStr(r.value.description)
  {
    match (Required(j, "id", ParseString), Required(j, "name", ParseString), Required(j, "description", ParseString))
    case (Some(i), Some(n), Some(d)) => Some(TtsVoice(i, n, d))
    case _ => None
  }

  function TtsVoiceJson(v: TtsVoice): Json {
    JObj(map["id" := JStr(v.id), "name" := JStr(v.name), "description" := JStr(v.description)])
  }

  function ParseVoices(items: seq<Json>): (r: Option<seq<TtsVoice>>)
    ensures r.Some? <==> forall i :: 0 <= i < |items| ==> ParseTtsVoice(items[i]).Some?
    ensures r.Some? ==> |r.value| == |items|
    ensures r.Some? ==> forall i :: 0 <= i < |items| ==> ParseTtsVoice(items[i]) == Some(r.value[i])
  {
    if items == [] then Some([])
    else match (ParseTtsVoice(items[0]), ParseVoices(items[1..]))
      case (Some(v), Some(rest)) =>
        assert forall i :: 1 <= i < |items| ==> items[i] == items[1..][i - 1];
        Some([v] + rest)
      case (None, _) => None
      case (_, None) =>
        assert forall i :: 0 <= i < |items| - 1 ==> items[1..][i] == items[i + 1];
        None
  }

  /** A catalogue reply is accepted exactly when it has a string provider and an array of voices, read in order. */
  function ParseTtsVoicesResponse(j: Json): (r: Option<TtsVoicesResponse>)
    ensures r.Some? <==> j.JObj? && "provider" in j.fields && j.fields["provider"].JStr?
                         && "voices" in j.fields && j.fields["voices"].JArr?
                         && ParseVoices(j.fields["voices"].items).Some?
    ensures r.Some? ==> j.fields["provider"] == JStr(r.value.provider)
                        && Some(r.value.voices) == ParseVoices(j.fields["voices"].items)
  {
    match (Required(j, "provider", ParseString), Required(j, "voices", (v: Json) => if v.JArr? then ParseVoices(v.items) else None))
    case (Some(p), Some(vs)) => Some(TtsVoicesResponse(p, vs))
    case _ => None
  }

  function TtsVoicesResponseJson(resp: TtsVoicesResponse): Json {
    var vs := resp.voices;
    JObj(map["provider" := JStr(resp.provider),
             "voices" := JArr(seq(|vs|, i requires 0 <= i < |vs| => TtsVoiceJson(vs[i])))])
  }

  /** A catalogue reply written from a provider and its voices is read back as itself. */
  lemma TtsVoicesResponseRoundTrip(resp: TtsVoicesResponse)
    ensures ParseTtsVoicesResponse(TtsVoicesResponseJson(resp)) == Some(resp)
  {
    var items := TtsVoicesResponseJson(resp).fields["voices"].items;
    assert forall i :: 0 <= i < |items| ==> ParseTtsVoice(items[i]) == Some(resp.voices[i]);
    assert ParseVoices(items).value == resp.voices;
  }

  // ---------------------------------------------------------------------------
  // Generate podcast
  // ---------------------------------------------------------------------------

  /** A runtime value a caller may put in a request member: `undefined`, a JSON value, or a `File`. */
  datatype JsValue = Undefined | Value(j: Json) | FileValue(file: DocumentFile)

  /** A generation request exactly as a caller hands it to the client. */
  datatype RawGenerateRequest = RawGenerateRequest(
    searchSpaceId: JsValue,
    podcastTitle: JsValue,
    userPrompt: JsValue,
    ttsProvider: JsValue,
    speaker0Voice: JsValue,
    speaker1Voice: JsValue,
    sourceType: JsValue,
    textContent: JsValue,
    documentFile: JsValue)

  datatype SourceType = Text | Document

  /** A validated generation request. */
  datatype GenerateRequest = GenerateRequest(
    searchSpaceId: int,
    podcastTitle: string,
    userPrompt: Option<string>,
    ttsProvider: Option<string>,
    speaker0Voice: Option<string>,
    speaker1Voice: Option<string>,
    sourceType: SourceType,
    textContent: Option<string>,
    documentFile: Option<DocumentFile>)

  /** The title used when the caller gives none; the backend's form default is the same text. */
  const DEFAULT_PODCAST_TITLE := "SurfSense Podcast"

  /** One validation problem: the member it concerns and the schema library's message. */
  datatype Issue = Issue(path: string, message: string)

  /** The schema library's name for the runtime type of a value. */
  function TypeName(v: JsValue): string {
    match v
    case Undefined => "undefined"
    case FileValue(_) => "object"
    case Value(j) =>
      match j
      case JNull => "null"
      case JBool(_) => "boolean"
      case JNum(_) => "number"
      case JStr(_) => "string"
      case JArr(_) => "array"
      case JObj(_) => "object"
  }

  /** The message for a value of the wrong type; a missing value is reported as "Required". */
  function TypeMismatch(path: string, expected: string, v: JsValue): Issue {
    Issue(path, if v.Undefined? then "Required" else "Expected " + expected + ", received " + TypeName(v))
  }

  /** Problems with one member, `[]` when it is valid. */
  function CheckNumber(path: string, v: JsValue): (issues: seq<Issue>)
    ensures issues == [] <==> v.Value? && v.j.JNum?
    ensures issues == [] || (|issues| == 1 && issues[0].path == path)
  {
    if v.Value? && v.j.JNum? then [] else [TypeMismatch(path, "number", v)]
  }

  /** A member that holds a string or is absent. */
  predicate OptionalStringValid(v: JsValue) {
    v.Undefined? || (v.Value? && v.j.JStr?)
  }

  function CheckOptionalString(path: string, v: JsValue): (issues: seq<Issue>)
    ensures issues == [] <==> OptionalStringValid(v)
    ensures issues == [] || (|issues| == 1 && issues[0].path == path)
  {
    if OptionalStringValid(v) then [] else [TypeMismatch(path, "string", v)]
  }

  predicate IsSourceTypeName(v: JsValue) {
    v == Value(JStr("text")) || v == Value(JStr("document"))
  }

  function CheckSourceType(v: JsValue): (issues: seq<Issue>)
    ensures issues == [] <==> IsSourceTypeName(v)
    ensures issues == [] || (|issues| == 1 && issues[0].path == "source_type")
  {
    if IsSourceTypeName(v) then []
    else if v.Value? && v.j.JStr? then
      [Issue("source_type", "Invalid enum value. Expected 'text' | 'document', received '" + v.j.s + "'")]
    else [TypeMismatch("source_type", "'text' | 'document'", v)]
  }

  function CheckOptionalFile(v: JsValue): (issues: seq<Issue>)
    ensures issues == [] <==> v.Undefined? || v.FileValue?
    ensures issues == [] || (|issues| == 1 && issues[0].path == "document_file")
  {
    if v.Undefined? || v.FileValue? then [] else [Issue("document_file", "Input not instance of File")]
  }

  /** Every problem of a raw request, member by member in the schema's order. */
  function RequestIssues(raw: RawGenerateRequest): seq<Issue> {
    CheckNumber("search_space_id", raw.searchSpaceId)
    + CheckOptionalString("podcast_title", raw.podcastTitle)
    + CheckOptionalString("user_prompt", raw.userPrompt)
    + CheckOptionalString("tts_provider", raw.ttsProvider)
    + CheckOptionalString("speaker_0_voice", raw.speaker0Voice)
    + CheckOptionalString("speaker_1_voice", raw.speaker1Voice)
    + CheckSourceType(raw.sourceType)
    + CheckOptionalString("text_content", raw.textContent)
    + CheckOptionalFile(raw.documentFile)
  }

  /** A raw request that passes every member check. */
  predicate ValidRequest(raw: RawGenerateRequest) {
    && raw.searchSpaceId.Value? && raw.searchSpaceId.j.JNum?
    && OptionalStringValid(raw.podcastTitle)
    && OptionalStringValid(raw.userPrompt)
    && OptionalStringValid(raw.ttsProvider)
    && OptionalStringValid(raw.speaker0Voice)
    && OptionalStringValid(raw.speaker1Voice)
    && IsSourceTypeName(raw.sourceType)
    && OptionalStringValid(raw.textContent)
    && (raw.documentFile.Undefined? || raw.documentFile.FileValue?)
  }

  /** An optional string member that passed its check. */
  function OptString(v: JsValue): Option<string> {
    if v.Value? && v.j.JStr? then Some(v.j.s) else None
  }

  /**
   * The generation-request validator: the typed request when every member is
   * valid (an absent title becomes the default title), otherwise every issue.
   */
  function ParseGenerateRequest(raw: RawGenerateRequest): (r: Result<GenerateRequest, seq<Issue>>)
    ensures r.Success? <==> ValidRequest(raw)
    ensures r.Failure? ==> r.error != [] && r.error == RequestIssues(raw)
    ensures r.Success? && raw.podcastTitle.Undefined? ==> r.value.podcastTitle == DEFAULT_PODCAST_TITLE
    ensures r.Success? && raw.podcastTitle.Value? ==> r.value.podcastTitle == raw.podcastTitle.j.s
    ensures r.Success? ==> (r.value.sourceType == Text <==> raw.sourceType == Value(JStr("text")))
  {
    var issues := RequestIssues(raw);
    if issues != [] then Failure(issues)
    else
      Success(GenerateRequest(
        raw.searchSpaceId.j.n,
        OptString(raw.podcastTitle).GetOr(DEFAULT_PODCAST_TITLE),
        OptString(raw.userPrompt),
        OptString(raw.ttsProvider),
        OptString(raw.speaker0Voice),
        OptString(raw.speaker1Voice),
        if raw.sourceType == Value(JStr("text")) then Text else Document,
        OptString(raw.textContent),
        if raw.documentFile.FileValue? then Some(raw.documentFile.file) else None))
  }

  /** The members an issue list speaks of, in order. */
  function IssuePaths(issues: seq<Issue>): (paths: seq<string>)
    ensures |paths| == |issues|
    ensures forall i :: 0 <= i < |issues| ==> paths[i] == issues[i].path
  {
    seq(|issues|, i requires 0 <= i < |issues| => issues[i].path)
  }

  lemma IssuePathsConcat(a: seq<Issue>, b: seq<Issue>)
    ensures IssuePaths(a + b) == IssuePaths(a) + IssuePaths(b)
  {
  }

  lemma SingleCheckPaths(issues: seq<Issue>, path: string, valid: bool)
    requires valid ==> issues == []
    requires !valid ==> |issues| == 1 && issues[0].path == path
    ensures IssuePaths(issues) == Bad(path, valid)
  {
  }

  /** `[name]` when the member named `name` is not valid. */
  function Bad(name: string, valid: bool): seq<string> {
    if valid then [] else [name]
  }

  /** The names of the members of `raw` that fail their check, in the schema's member order. */
  function InvalidMembers(raw: RawGenerateRequest): seq<string> {
    Bad("search_space_id", raw.searchSpaceId.Value? && raw.searchSpaceId.j.JNum?)
    + Bad("podcast_title", OptionalStringValid(raw.podcastTitle))
    + Bad("user_prompt", OptionalStringValid(raw.userPrompt))
    + Bad("tts_provider", OptionalStringValid(raw.ttsProvider))
    + Bad("speaker_0_voice", OptionalStringValid(raw.speaker0Voice))
    + Bad("speaker_1_voice", OptionalStringValid(raw.speaker1Voice))
    + Bad("source_type", IsSourceTypeName(raw.sourceType))
    + Bad("text_content", OptionalStringValid(raw.textContent))
    + Bad("document_file", raw.documentFile.Undefined? || raw.documentFile.FileValue?)
  }

  /**
   * The issue list names exactly the members that are invalid, one issue per
   * member, in the schema's order: none is missed, none is invented.
   */
  lemma IssuesNameEveryBadMember(raw: RawGenerateRequest)
    ensures IssuePaths(RequestIssues(raw)) == InvalidMembers(raw)
  {
    RequestIssuePathsSplit(raw);
    ChecksNameBadMembers(raw);
  }

  lemma ChecksNameBadMembers(raw: RawGenerateRequest)
    ensures IssuePaths(CheckNumber("search_space_id", raw.searchSpaceId))
      == Bad("search_space_id", raw.searchSpaceId.Value? && raw.searchSpaceId.j.JNum?)
    ensures IssuePaths(CheckOptionalString("podcast_title", raw.podcastTitle)) == Bad("podcast_title", OptionalStringValid(raw.podcastTitle))
    ensures IssuePaths(CheckOptionalString("user_prompt", raw.userPrompt)) == Bad("user_prompt", OptionalStringValid(raw.userPrompt))
    ensures IssuePaths(CheckOptionalString("tts_provider", raw.ttsProvider)) == Bad("tts_provider", OptionalStringValid(raw.ttsProvider))
    ensures IssuePaths(CheckOptionalString("speaker_0_voice", raw.speaker0Voice)) == Bad("speaker_0_voice", OptionalStringValid(raw.speaker0Voice))
    ensures IssuePaths(CheckOptionalString("speaker_1_voice", raw.speaker1Voice)) == Bad("speaker_1_voice", OptionalStringValid(raw.speaker1Voice))
    ensures IssuePaths(CheckSourceType(raw.sourceType)) == Bad("source_type", IsSourceTypeName(raw.sourceType))
    ensures IssuePaths(CheckOptionalString("text_content", raw.textContent)) == Bad("text_content", OptionalStringValid(raw.textContent))
    ensures IssuePaths(CheckOptionalFile(raw.documentFile)) == Bad("document_file", raw.documentFile.Undefined? || raw.documentFile.FileValue?)
  {
    SingleCheckPaths(CheckNumber("search_space_id", raw.searchSpaceId), "search_space_id",
      raw.searchSpaceId.Value? && raw.searchSpaceId.j.JNum?);
    SingleCheckPaths(CheckOptionalString("podcast_title", raw.podcastTitle), "podcast_title", OptionalStringValid(raw.podcastTitle));
    SingleCheckPaths(CheckOptionalString("user_prompt", raw.userPrompt), "user_prompt", OptionalStringValid(raw.userPrompt));
    SingleCheckPaths(CheckOptionalString("tts_provider", raw.ttsProvider), "tts_provider", OptionalStringValid(raw.ttsProvider));
    SingleCheckPaths(CheckOptionalString("speaker_0_voice", raw.speaker0Voice), "speaker_0_voice", OptionalStringValid(raw.speaker0Voice));
    SingleCheckPaths(CheckOptionalString("speaker_1_voice", raw.speaker1Voice), "speaker_1_voice", OptionalStringValid(raw.speaker1Voice));
    SingleCheckPaths(CheckSourceType(raw.sourceType), "source_type", IsSourceTypeName(raw.sourceType));
    SingleCheckPaths(CheckOptionalString("text_content", raw.textContent), "text_content", OptionalStringValid(raw.textContent));
    SingleCheckPaths(CheckOptionalFile(raw.documentFile), "document_file", raw.documentFile.Undefined? || raw.documentFile.FileValue?);
  }

  lemma RequestIssuePathsSplit(raw: RawGenerateRequest)
    ensures IssuePaths(RequestIssues(raw)) ==
      IssuePaths(CheckNumber("search_space_id", raw.searchSpaceId))
      + IssuePaths(CheckOptionalString("podcast_title", raw.podcastTitle))
      + IssuePaths(CheckOptionalString("user_prompt", raw.userPrompt))
      + IssuePaths(CheckOptionalString("tts_provider", raw.ttsProvider))
      + IssuePaths(CheckOptionalString("speaker_0_voice", raw.speaker0Voice))
      + IssuePaths(CheckOptionalString("speaker_1_voice", raw.speaker1Voice))
      + IssuePaths(CheckSourceType(raw.sourceType))
      + IssuePaths(CheckOptionalString("text_content", raw.textContent))
      + IssuePaths(CheckOptionalFile(raw.documentFile))
  {
    var c1 := CheckNumber("search_space_id", raw.searchSpaceId);
    var c2 := CheckOptionalString("podcast_title", raw.podcastTitle);
    var c3 := CheckOptionalString("user_prompt", raw.userPrompt);
    var c4 := CheckOptionalString("tts_provider", raw.ttsProvider);
    var c5 := CheckOptionalString("speaker_0_voice", raw.speaker0Voice);
    var c6 := CheckOptionalString("speaker_1_voice", raw.speaker1Voice);
    var c7 := CheckSourceType(raw.sourceType);
    var c8 := CheckOptionalString("text_content", raw.textContent);
    var c9 := CheckOptionalFile(raw.documentFile);
    var s2 := c1 + c2;
    var s3 := s2 + c3;
    var s4 := s3 + c4;
    var s5 := s4 + c5;
    var s6 := s5 + c6;
    var s7 := s6 + c7;
    var s8 := s7 + c8;
    var s9 := s8 + c9;
    assert RequestIssues(raw) == s9;
    IssuePathsConcat(c1, c2);
    IssuePathsConcat(s2, c3);
    IssuePathsConcat(s3, c4);
    IssuePathsConcat(s4, c5);
    IssuePathsConcat(s5, c6);
    IssuePathsConcat(s6, c7);
    IssuePathsConcat(s7, c8);
    IssuePathsConcat(s8, c9);
  }

  /** The reply to a generation request: a task handle for a job still processing. */
  function ParseGenerateResponse(j: Json): (taskId: Option<string>)
    ensures taskId.Some? <==> Member(j, "status") == Some(JStr("processing")) && j.JObj? && "task_id" in j.fields && j.fields["task_id"].JStr?
    ensures taskId.Some? ==> Member(j, "task_id") == Some(JStr(taskId.value))
  {
    if Member(j, "status") == Some(JStr("processing")) then Required(j, "task_id", ParseString) else None
  }

  // ---------------------------------------------------------------------------
  // Task status
  // ---------------------------------------------------------------------------

  /** The status of a generation task, discriminated by its `status` member. */
  datatype TaskStatus =
    | Processing(state: Option<string>)
    | Succeeded(podcastId: int, title: string, transcriptEntries: int)
    | Errored(error: string)

  /** The wire form of a status (the inverse of `ParseTaskStatus`). */
  function TaskStatusJson(s: TaskStatus): Json {
    match s
    case Processing(None) => JObj(map["status" := JStr("processing")])
    case Processing(Some(st)) => JObj(map["status" := JStr("processing"), "state" := JStr(st)])
    case Succeeded(id, t, n) =>
      JObj(map["status" := JStr("success"), "podcast_id" := JNum(id), "title" := JStr(t), "transcript_entries" := JNum(n)])
    case Errored(e) => JObj(map["status" := JStr("error"), "error" := JStr(e)])
  }

  /** The discriminated-union validator for a task status. */
  function ParseTaskStatus(j: Json): (r: Option<TaskStatus>)
    ensures r.Some? ==> j.JObj? && "status" in j.fields
    ensures r.Some? && r.value.Processing? ==> j.fields["status"] == JStr("processing")
    ensures r.Some? && r.value.Succeeded? ==> j.fields["status"] == JStr("success")
    ensures r.Some? && r.value.Errored? ==> j.fields["status"] == JStr("error")
    ensures Member(j, "status") == Some(JStr("success")) ==>
      (r.Some? <==> (Member(j, "podcast_id").Some? && Member(j, "podcast_id").value.JNum?
                    && Member(j, "title").Some? && Member(j, "title").value.JStr?
                    && Member(j, "transcript_entries").Some? && Member(j, "transcript_entries").value.JNum?))
    ensures Member(j, "status") == Some(JStr("error")) ==>
      (r.Some? <==> Member(j, "error").Some? && Member(j, "error").value.JStr?)
    ensures Member(j, "status") == Some(JStr("processing")) ==>
      (r.Some? <==> Member(j, "state").None? || Member(j, "state").value.JStr?)
    ensures r.Some? && r.value.Processing? ==>
      r.value.state == if Member(j, "state").None? then None else Some(Member(j, "state").value.s)
    ensures r.Some? && r.value.Succeeded? ==>
      r.value == Succeeded(Member(j, "podcast_id").value.n, Member(j, "title").value.s,
                           Member(j, "transcript_entries").value.n)
    ensures r.Some? && r.value.Errored? ==> r.value == Errored(Member(j, "error").value.s)
  {
    match Member(j, "status")
    case Some(JStr("processing")) =>
      (match OptionalMember(j, "state", ParseString)
       case Some(st) => Some(Processing(st))
       case None => None)
    case Some(JStr("success")) =>
      (match (Required(j, "podcast_id", ParseNumber), Required(j, "title", ParseString),
              Required(j, "transcript_entries", ParseNumber))
       case (Some(id), Some(t), Some(n)) => Some(Succeeded(id, t, n))
       case _ => None)
    case Some(JStr("error")) =>
      (match Required(j, "error", ParseString)
       case Some(e) => Some(Errored(e))
       case None => None)
    case _ => None
  }

  /** The union has exactly three variants, and every status survives the wire unchanged. */
  lemma TaskStatusRoundTrip(s: TaskStatus)
    ensures ParseTaskStatus(TaskStatusJson(s)) == Some(s)
  {
  }

  /** A `null` podcast id is not a valid success. */
  lemma NullPodcastIdRejected(title: string, entries: int)
    ensures ParseTaskStatus(JObj(map["status" := JStr("success"), "podcast_id" := JNull,
                                     "title" := JStr(title), "transcript_entries" := JNum(entries)])).None?
  {
  }

  /** An optional `state` may be left out, but a `null` one is not a string. */
  lemma NullStateRejected()
    ensures ParseTaskStatus(JObj(map["status" := JStr("processing"), "state" := JNull])).None?
    ensures ParseTaskStatus(JObj(map["status" := JStr("processing")])) == Some(Processing(None))
  {
  }

  /** Any other discriminator is rejected. */
  lemma UnknownStatusRejected(j: Json)
    requires Member(j, "status").Some?
    requires Member(j, "status").value !in {JStr("processing"), JStr("success"), JStr("error")}
    ensures ParseTaskStatus(j).None?
  {
  }
}

=== FILE: results.dfy ===
/** Option and Result values shared by every module of the model. */
module Results {

  /** A value that may be absent: Python's `None`, TypeScript's `null`/`undefined`. */
  datatype Option<+T> = None | Some(value: T) {
    function GetOr(default: T): T {
      match this
      case Some(v) => v
      case None => default
    }
  }

  /** The outcome of an operation that either produces a value or raises an error. */
  datatype Result<+T, +E> = Success(value: T) | Failure(error: E)

  /** An octet of an uploaded document. */
  type Byte = x: int | 0 <= x < 256
}

=== FILE: strings.dfy ===
/**
 * ASCII text helpers used by both the Python backend and the TypeScript client:
 * whitespace trimming (Python `str.strip`, JavaScript `String.prototype.trim`,
 * which disagree on four control characters), ASCII lower-casing, substring
 * search, joining, and decimal printing/parsing.
 */
module Strings {
  import opened Results

  /** Whose notion of ASCII whitespace a test or a trim follows. */
  datatype Whitespace =
    | JsWhitespace  // JavaScript `trim()` and `\s`
    | PyWhitespace  // Python `str.isspace()` and `str.strip()`

  /**
   * Space, tab, line feed, vertical tab, form feed and carriage return for both;
   * Python also counts the separators U+001C to U+001F.
   */
  predicate IsSpace(ws: Whitespace, c: char) {
    || c == ' ' || c == '\t' || c == '\n' || c == '\r' || c == '\U{000B}' || c == '\U{000C}'
    || (ws == PyWhitespace && '\U{001C}' <= c <= '\U{001F}')
  }

  predicate AllSpace(ws: Whitespace, s: string) {
    forall i :: 0 <= i < |s| ==> IsSpace(ws, s[i])
  }

  /** Whatever JavaScript counts as blank, Python does too; not the other way round. */
  lemma BlankInBoth(s: string)
    ensures AllSpace(JsWhitespace, s) ==> AllSpace(PyWhitespace, s)
    ensures AllSpace(PyWhitespace, "\U{001C}") && !AllSpace(JsWhitespace, "\U{001C}")
  {
    assert "\U{001C}"[0] == '\U{001C}';
  }

  /** Number of leading whitespace characters. */
  function LeadingSpaces(ws: Whitespace, s: string): (k: nat)
    ensures k <= |s| && AllSpace(ws, s[..k])
    ensures k < |s| ==> !IsSpace(ws, s[k])
  {
    if s == [] || !IsSpace(ws, s[0]) then 0
    else
      var k := LeadingSpaces(ws, s[1..]);
      assert s[..k + 1] == [s[0]] + s[1..][..k];
      k + 1
  }

  /** Number of trailing whitespace characters. */
  function TrailingSpaces(ws: Whitespace, s: string): (k: nat)
    ensures k <= |s| && AllSpace(ws, s[|s| - k..])
    ensures k < |s| ==> !IsSpace(ws, s[|s| - k - 1])
  {
    if s == [] || !IsSpace(ws, s[|s| - 1]) then 0
    else
      var p := s[..|s| - 1];
      var k := TrailingSpaces(ws, p);
      assert s[|s| - (k + 1)..] == p[|p| - k..] + [s[|s| - 1]];
      k + 1
  }

  /** Drops whitespace at both ends: JavaScript `trim()` or Python `strip()`, restricted to ASCII. */
  function Trim(ws: Whitespace, s: string): (r: string)
    ensures LeadingSpaces(ws, s) + |r| <= |s|
    ensures r == s[LeadingSpaces(ws, s)..LeadingSpaces(ws, s) + |r|]
    ensures AllSpace(ws, s[..LeadingSpaces(ws, s)]) && AllSpace(ws, s[LeadingSpaces(ws, s) + |r|..])
    ensures r == [] <==> AllSpace(ws, s)
    ensures r != [] ==> !IsSpace(ws, r[0]) && !IsSpace(ws, r[|r| - 1])
  {
    var k := LeadingSpaces(ws, s);
    if k == |s| then
      assert s[..k] == s;
      ""
    else
      var e := TrailingSpaces(ws, s);
      assert !IsSpace(ws, s[k]);
      assert e < |s| - k;
      var r := s[k..|s| - e];
      assert s[k + |r|..] == s[|s| - e..];
      assert r[0] == s[k];
      r
  }

  /** ASCII lower-casing of one character (Python `str.lower` on ASCII). */
  function LowerChar(c: char): (r: char)
    ensures 'A' <= c <= 'Z' ==> r as int == c as int + 32
    ensures !('A' <= c <= 'Z') ==> r == c
  {
    if 'A' <= c <= 'Z' then (c as int + 32) as char else c
  }

  function Lower(s: string): (r: string)
    ensures |r| == |s|
    ensures forall i :: 0 <= i < |s| ==> r[i] == LowerChar(s[i])
  {
    seq(|s|, i requires 0 <= i < |s| => LowerChar(s[i]))
  }

  /** `needle` occurs in `s` starting at index `i`. */
  predicate OccursAt(s: string, needle: string, i: int) {
    0 <= i && i + |needle| <= |s| && s[i..i + |needle|] == needle
  }

  /** Substring test by scanning from the left (JavaScript `String.prototype.includes`). */
  function Contains(s: string, needle: string): (b: bool)
    ensures b <==> exists i :: OccursAt(s, needle, i)
    decreases |s|
  {
    if |needle| <= |s| && s[..|needle|] == needle then
      assert OccursAt(s, needle, 0);
      true
    else if s == [] then
      assert forall i :: !OccursAt(s, needle, i);
      false
    else
      var b := Contains(s[1..], needle);
      assert forall i :: OccursAt(s[1..], needle, i) <==> OccursAt(s, needle, i + 1) by {
        forall i ensures OccursAt(s[1..], needle, i) <==> OccursAt(s, needle, i + 1) {
          if 0 <= i && i + |needle| <= |s| - 1 {
            assert s[1..][i..i + |needle|] == s[i + 1..i + 1 + |needle|];
          }
        }
      }
      assert !OccursAt(s, needle, 0);
      assert forall i :: OccursAt(s, needle, i) ==> i >= 1 && OccursAt(s[1..], needle, i - 1);
      b
  }

  /** Index of the first occurrence of `c`, if any. */
  function IndexOf(s: string, c: char): (r: Option<nat>)
    ensures r.None? <==> c !in s
    ensures r.Some? ==> r.value < |s| && s[r.value] == c && c !in s[..r.value]
  {
    if s == [] then None
    else if s[0] == c then Some(0)
    else
      match IndexOf(s[1..], c)
      case None => None
      case Some(k) =>
        assert s[..k + 1] == [s[0]] + s[1..][..k];
        Some(k + 1)
  }

  /** Concatenation of `parts` with `sep` between neighbours (Python `sep.join`, JavaScript `Array.join`). */
  function Join(parts: seq<string>, sep: string): (r: string)
    ensures parts == [] ==> r == ""
    ensures |parts| == 1 ==> r == parts[0]
    ensures |parts| >= 1 ==> |r| >= |parts[0]| && r[..|parts[0]|] == parts[0]
  {
    if parts == [] then ""
    else if |parts| == 1 then parts[0]
    else parts[0] + sep + Join(parts[1..], sep)
  }

  predicate IsDigit(c: char) {
    '0' <= c <= '9'
  }

  predicate AllDigits(s: string) {
    forall i :: 0 <= i < |s| ==> IsDigit(s[i])
  }

  function DigitChar(d: nat): (c: char)
    requires d < 10
    ensures IsDigit(c) && c as int - '0' as int == d
  {
    (d + '0' as int) as char
  }

  /** The value of a string of decimal digits, most significant first. */
  function DigitsValue(s: string): nat
    requires AllDigits(s)
  {
    if s == [] then 0 else DigitsValue(s[..|s| - 1]) * 10 + (s[|s| - 1] as int - '0' as int)
  }

  /** Shortest decimal rendering of a natural number (`String(n)`, Python `str(n)`). */
  function NatToString(n: nat): (r: string)
    ensures |r| >= 1 && AllDigits(r)
    ensures |r| > 1 ==> r[0] != '0'
    ensures '-' !in r && '/' !in r
  {
    if n < 10 then [DigitChar(n)] else NatToString(n / 10) + [DigitChar(n % 10)]
  }

  /** Decimal rendering of an integer, with a leading '-' when negative. */
  function IntToString(n: int): (r: string)
    ensures |r| >= 1
    ensures '/' !in r
    ensures n >= 0 ==> AllDigits(r)
    ensures n < 0 ==> r[0] == '-' && AllDigits(r[1..])
  {
    if n >= 0 then NatToString(n) else "-" + NatToString(-n)
  }

  /** A non-empty string of decimal digits as a natural number. */
  function ParseNat(s: string): (r: Option<nat>)
    ensures r.Some? <==> s != [] && AllDigits(s)
  {
    if s != [] && AllDigits(s) then Some(DigitsValue(s)) else None
  }

  /** An optionally negative decimal integer; anything else is rejected. */
  function ParseInt(s: string): (r: Option<int>)
    ensures r.Some? && r.value < 0 ==> s != [] && s[0] == '-'
    ensures s != [] && AllDigits(s) ==> r.Some? && r.value >= 0
  {
    if s != [] && s[0] == '-' then
      match ParseNat(s[1..])
      case Some(v) => Some(-(v as int))
      case None => None
    else
      match ParseNat(s)
      case Some(v) => Some(v)
      case None => None
  }

  lemma {:induction false} NatToStringValue(n: nat)
    ensures DigitsValue(NatToString(n)) == n
    decreases n
  {
    if n >= 10 {
      var r := NatToString(n);
      NatToStringValue(n / 10);
      assert r[..|r| - 1] == NatToString(n / 10);
    }
  }

  /** Printing then parsing a natural number gives it back. */
  lemma NatRoundTrip(n: nat)
    ensures ParseNat(NatToString(n)) == Some(n)
  {
    NatToStringValue(n);
  }

  /** Printing then parsing an integer gives it back. */
  lemma IntRoundTrip(n: int)
    ensures ParseInt(IntToString(n)) == Some(n)
  {
    if n >= 0 {
      NatRoundTrip(n);
    } else {
      NatRoundTrip(-n);
      assert IntToString(n)[1..] == NatToString(-n);
    }
  }
}

=== FILE: tts_panel.dfy ===
/**
 * The text-to-speech settings panel: the providers offered, loading a
 * provider's voices, choosing default voices for speakers that have none, and
 * when the voice selectors are shown.
 */
module TtsPanel {
  import opened Results
  import opened Contracts
  import VoiceTables
  import opened Strings

  /** An entry of the provider selector: the provider string sent to the backend and its label. */
  datatype ProviderOption = ProviderOption(value: string, shownAs: string)

  const TTS_PROVIDERS: seq<ProviderOption> := [
    ProviderOption("openai/tts-1", "OpenAI TTS"),
    ProviderOption("vertex_ai/test", "Google Vertex AI"),
    ProviderOption("local/kokoro", "Kokoro (Local)"),
    ProviderOption("azure/tts-1", "Azure TTS")
  ]

  /** The panel's own state. */
  datatype Panel = Panel(voices: seq<TtsVoice>, loading: bool, error: Option<string>)

  const INITIAL_PANEL := Panel([], false, None)
  const LOAD_FAILED := "Failed to load voices"

  /** What the voice request comes to: the catalogue, or a failure of the call. */
  datatype VoiceLoad = Loaded(voices: seq<TtsVoice>) | LoadFailed

  /** The panel and the two speakers' voices after the provider changed, and whether voices were requested. */
  datatype Reload = Reload(panel: Panel, speaker0: string, speaker1: string, fetched: bool)

  /** The voice a speaker keeps, or the catalogue entry at `index` when it has none and the catalogue is long enough. */
  function AutoSelect(current: string, voices: seq<TtsVoice>, index: nat): (chosen: string)
    ensures current != "" ==> chosen == current
    ensures current == "" && index < |voices| ==> chosen == voices[index].id
    ensures current == "" && index >= |voices| ==> chosen == ""
  {
    if current == "" && index < |voices| then voices[index].id else current
  }

  /**
   * The provider-change effect. An empty provider clears the voices without a
   * request; otherwise `load` is the outcome of the request.
   */
  function OnProviderChange(p: Panel, provider: string, speaker0: string, speaker1: string, load: VoiceLoad)
    : (r: Reload)
    ensures provider == "" ==> r == Reload(p.(voices := []), speaker0, speaker1, false)
    ensures provider != "" ==> r.fetched && !r.panel.loading
    ensures provider != "" && load.Loaded? ==>
              && r.panel == Panel(load.voices, false, None)
              && r.speaker0 == AutoSelect(speaker0, load.voices, 0)
              && r.speaker1 == AutoSelect(speaker1, load.voices, 1)
    ensures provider != "" && load.LoadFailed? ==>
              r == Reload(Panel(p.voices, false, Some(LOAD_FAILED)), speaker0, speaker1, true)
  {
    if provider == "" then Reload(p.(voices := []), speaker0, speaker1, false)
    else
      match load
      case Loaded(vs) => Reload(Panel(vs, false, None), AutoSelect(speaker0, vs, 0), AutoSelect(speaker1, vs, 1), true)
      case LoadFailed => Reload(Panel(p.voices, false, Some(LOAD_FAILED)), speaker0, speaker1, true)
  }

  /** The voice selectors are shown when nothing is loading, there is no error, and there are voices. */
  predicate SelectorsShown(p: Panel) {
    !p.loading && p.error.None? && |p.voices| > 0
  }

  /** A chosen voice is never replaced by a load. */
  lemma ChosenVoicesKept(p: Panel, provider: string, speaker0: string, speaker1: string, load: VoiceLoad)
    requires speaker0 != "" && speaker1 != ""
    ensures var r := OnProviderChange(p, provider, speaker0, speaker1, load);
            r.speaker0 == speaker0 && r.speaker1 == speaker1
  {
  }

  /** After a failed load the selectors are hidden and the error is shown. */
  lemma FailureHidesSelectors(p: Panel, provider: string, speaker0: string, speaker1: string)
    requires provider != ""
    ensures var r := OnProviderChange(p, provider, speaker0, speaker1, LoadFailed);
            !SelectorsShown(r.panel) && r.panel.error == Some(LOAD_FAILED)
  {
  }

  /** After a load with at least two voices, both unset speakers get distinct catalogue voices when ids are distinct. */
  lemma FreshSpeakersGetFirstTwo(p: Panel, provider: string, voices: seq<TtsVoice>)
    requires provider != "" && |voices| >= 2 && voices[0].id != voices[1].id
    ensures var r := OnProviderChange(p, provider, "", "", Loaded(voices));
            && r.speaker0 == voices[0].id && r.speaker1 == voices[1].id && r.speaker0 != r.speaker1
            && SelectorsShown(r.panel)
  {
  }

  /** Every provider offered has a backend catalogue with at least two voices to choose from. */
  lemma OfferedProvidersHaveVoices(i: nat)
    requires i < |TTS_PROVIDERS|
    ensures |VoiceTables.AvailableVoices(TTS_PROVIDERS[i].value)| >= 2
  {
    if i == 0 {
      OptionIsKnown(0, "openai", "tts-1");
    } else if i == 1 {
      OptionIsKnown(1, "vertex_ai", "test");
    } else if i == 3 {
      OptionIsKnown(3, "azure", "tts-1");
    }
    assert VoiceTables.IsKnownProvider(TTS_PROVIDERS[i].value);
  }

  lemma OptionIsKnown(i: nat, vendor: string, model: string)
    requires i < |TTS_PROVIDERS| && vendor in {"openai", "vertex_ai", "azure"}
    requires TTS_PROVIDERS[i].value == vendor + "/" + model
    ensures VoiceTables.IsKnownProvider(TTS_PROVIDERS[i].value)
  {
    VendorIsKnown(vendor, model);
  }

  lemma VendorIsKnown(vendor: string, model: string)
    requires vendor in {"openai", "vertex_ai", "azure"}
    ensures VoiceTables.IsKnownProvider(vendor + "/" + model)
  {
    VoiceTables.ProviderTypeOfModelString(vendor, model);
    assert Lower(vendor) == vendor;
  }
}

=== FILE: voice_tables.dfy ===
/**
 * The text-to-speech voice tables of the podcast agent: which voice each speaker
 * gets by default for a provider string, and which voices a provider offers.
 * A provider string is "<vendor>/<model>" (for example "openai/tts-1"); only the
 * vendor part, lower-cased, selects a table, except for the exact string
 * "local/kokoro".
 */
module VoiceTables {
  import opened Results
  import opened Strings

  /**
   * A default voice: a bare voice name (Kokoro, OpenAI, Azure), a Vertex AI
   * `{languageCode, name}` record, or the empty dict returned for unknown vendors.
   */
  datatype VoiceConfig = NamedVoice(name: string) | VertexVoice(languageCode: string, name: string) | NoVoice

  /** One catalog entry, as listed to the client. */
  datatype Voice = Voice(id: string, name: string, description: string)

  /** The only provider string that selects the local Kokoro engine; the comparison is exact. */
  const KOKORO_PROVIDER := "local/kokoro"

  /** The vendor part of a provider string: everything before the first '/', lower-cased. */
  function ProviderType(provider: string): (r: string)
    ensures '/' !in r
    ensures |r| <= |provider|
    ensures '/' !in provider ==> r == Lower(provider)
  {
    match IndexOf(provider, '/')
    case None => Lower(provider)
    case Some(i) => Lower(provider[..i])
  }

  /** A model string "<vendor>/<rest>" has vendor type `Lower(vendor)`, whatever `rest` holds. */
  lemma ProviderTypeOfModelString(vendor: string, rest: string)
    requires '/' !in vendor
    ensures ProviderType(vendor + "/" + rest) == Lower(vendor)
  {
    var p := vendor + "/" + rest;
    assert p[|vendor|] == '/';
    assert p[..|vendor|] == vendor;
    var i := IndexOf(p, '/').value;
    assert i == |vendor|;
  }

  /** The vendor type does not depend on the case of the provider string. */
  lemma ProviderTypeIgnoresCase(provider: string)
    ensures ProviderType(Lower(provider)) == ProviderType(provider)
  {
    var l := Lower(provider);
    assert forall k :: 0 <= k < |provider| ==> (l[k] == '/' <==> provider[k] == '/');
    match IndexOf(provider, '/')
    case None =>
      assert '/' !in l;
      assert Lower(l) == l;
    case Some(i) =>
      var j := IndexOf(l, '/').value;
      assert j == i;
      assert l[..i] == Lower(provider[..i]);
      assert Lower(Lower(provider[..i])) == Lower(provider[..i]);
  }

  const KOKORO_SPEAKER_VOICES: seq<string> := ["am_adam", "af_bella"]
  const KOKORO_FALLBACK := "af_heart"

  const OPENAI_SPEAKER_VOICES: seq<string> := ["alloy", "echo", "fable", "onyx", "nova", "shimmer"]
  const AZURE_SPEAKER_VOICES: seq<string> := ["alloy", "echo", "fable", "onyx", "nova", "shimmer"]

  const VERTEX_SPEAKER_VOICES: seq<VoiceConfig> := [
    VertexVoice("en-US", "en-US-Studio-O"),
    VertexVoice("en-US", "en-US-Studio-M"),
    VertexVoice("en-UK", "en-UK-Studio-A"),
    VertexVoice("en-UK", "en-UK-Studio-B"),
    VertexVoice("en-AU", "en-AU-Studio-A"),
    VertexVoice("en-AU", "en-AU-Studio-B")
  ]

  /** Python `table.get(speaker, fallback)` over a table keyed 0 .. |table| - 1. */
  function SpeakerEntry<T>(table: seq<T>, speaker: int, fallback: T): (r: T)
    ensures 0 <= speaker < |table| ==> r == table[speaker]
    ensures !(0 <= speaker < |table|) ==> r == fallback
  {
    if 0 <= speaker < |table| then table[speaker] else fallback
  }

  /** The vendor types that have their own tables. */
  predicate IsKnownType(t: string) {
    t == "openai" || t == "vertex_ai" || t == "azure"
  }

  /** The provider strings for which the agent has voices. */
  predicate IsKnownProvider(provider: string) {
    provider == KOKORO_PROVIDER || IsKnownType(ProviderType(provider))
  }

  /** The voice of speaker `speaker` under `provider` (get_voice_for_provider). */
  function VoiceForProvider(provider: string, speaker: int): (r: VoiceConfig)
    ensures r == NoVoice <==> !IsKnownProvider(provider)
    ensures provider == KOKORO_PROVIDER ==> r.NamedVoice?
    ensures provider != KOKORO_PROVIDER && ProviderType(provider) == "vertex_ai" ==> r.VertexVoice?
    ensures provider != KOKORO_PROVIDER && ProviderType(provider) in {"openai", "azure"} ==>
      r.NamedVoice? && (!(0 <= speaker < 6) ==> r.name == "alloy")
    ensures provider != KOKORO_PROVIDER && ProviderType(provider) == "vertex_ai" && !(0 <= speaker < 6) ==>
      r == VERTEX_SPEAKER_VOICES[0]
  {
    if provider == KOKORO_PROVIDER then
      NamedVoice(SpeakerEntry(KOKORO_SPEAKER_VOICES, speaker, KOKORO_FALLBACK))
    else
      var t := ProviderType(provider);
      if t == "openai" then NamedVoice(SpeakerEntry(OPENAI_SPEAKER_VOICES, speaker, "alloy"))
      else if t == "vertex_ai" then SpeakerEntry(VERTEX_SPEAKER_VOICES, speaker, VERTEX_SPEAKER_VOICES[0])
      else if t == "azure" then NamedVoice(SpeakerEntry(AZURE_SPEAKER_VOICES, speaker, "alloy"))
      else NoVoice
  }

  const KOKORO_VOICES: seq<Voice> := [
    Voice("am_adam", "Adam (Male)", "American English male voice"),
    Voice("af_bella", "Bella (Female)", "American English female voice"),
    Voice("af_heart", "Heart (Female)", "American English female voice (warm)"),
    Voice("af_sarah", "Sarah (Female)", "American English female voice"),
    Voice("am_michael", "Michael (Male)", "American English male voice"),
    Voice("bf_emma", "Emma (Female)", "British English female voice"),
    Voice("bm_george", "George (Male)", "British English male voice")
  ]

  const OPENAI_VOICES: seq<Voice> := [
    Voice("alloy", "Alloy", "Neutral, balanced voice"),
    Voice("echo", "Echo", "Male, clear voice"),
    Voice("fable", "Fable", "British, expressive voice"),
    Voice("onyx", "Onyx", "Deep, authoritative voice"),
    Voice("nova", "Nova", "Female, energetic voice"),
    Voice("shimmer", "Shimmer", "Female, soft voice")
  ]

  const VERTEX_VOICES: seq<Voice> := [
    Voice("en-US-Studio-O", "US Studio O", "US English neutral voice"),
    Voice("en-US-Studio-M", "US Studio M", "US English male voice"),
    Voice("en-UK-Studio-A", "UK Studio A", "UK English voice A"),
    Voice("en-UK-Studio-B", "UK Studio B", "UK English voice B"),
    Voice("en-AU-Studio-A", "AU Studio A", "Australian English voice A"),
    Voice("en-AU-Studio-B", "AU Studio B", "Australian English voice B")
  ]

  const AZURE_VOICES: seq<Voice> := [
    Voice("alloy", "Alloy", "Neutral, balanced voice"),
    Voice("echo", "Echo", "Male, clear voice"),
    Voice("fable", "Fable", "British, expressive voice"),
    Voice("onyx", "Onyx", "Deep, authoritative voice"),
    Voice("nova", "Nova", "Female, energetic voice"),
    Voice("shimmer", "Shimmer", "Female, soft voice")
  ]

  /** No two entries of a catalog share an id. */
  predicate DistinctIds(voices: seq<Voice>) {
    forall i, j :: 0 <= i < j < |voices| ==> voices[i].id != voices[j].id
  }

  /** The ids of a catalog, in order. */
  function VoiceIds(voices: seq<Voice>): (ids: seq<string>)
    ensures |ids| == |voices|
    ensures forall i :: 0 <= i < |voices| ==> ids[i] == voices[i].id
  {
    seq(|voices|, i requires 0 <= i < |voices| => voices[i].id)
  }

  /** The voices a provider offers (get_available_voices). */
  function AvailableVoices(provider: string): (r: seq<Voice>)
    ensures r == [] <==> !IsKnownProvider(provider)
    ensures IsKnownProvider(provider) ==> |r| >= 6
    ensures DistinctIds(r)
  {
    if provider == KOKORO_PROVIDER then KOKORO_VOICES
    else
      var t := ProviderType(provider);
      if t == "openai" then OPENAI_VOICES
      else if t == "vertex_ai" then VERTEX_VOICES
      else if t == "azure" then AZURE_VOICES
      else []
  }

  /** The id a default voice is known by in the catalog: its name (Vertex AI: the `name` field). */
  function DefaultVoiceId(c: VoiceConfig): Option<string> {
    match c
    case NamedVoice(n) => Some(n)
    case VertexVoice(_, n) => Some(n)
    case NoVoice => None
  }

  /**
   * Every default voice, for every speaker index and including the fallbacks, is
   * offered by the same provider's catalog.
   */
  lemma DefaultVoicesAreOffered(provider: string, speaker: int)
    requires IsKnownProvider(provider)
    ensures DefaultVoiceId(VoiceForProvider(provider, speaker)).Some?
    ensures DefaultVoiceId(VoiceForProvider(provider, speaker)).value in VoiceIds(AvailableVoices(provider))
  {
    if provider == KOKORO_PROVIDER {
      KokoroDefaultOffered(speaker);
    } else {
      var t := ProviderType(provider);
      if t == "vertex_ai" {
        VertexDefaultOffered(speaker);
      } else if t == "openai" {
        NamedDefaultOffered(OPENAI_SPEAKER_VOICES, OPENAI_VOICES, speaker);
      } else {
        assert AZURE_SPEAKER_VOICES == OPENAI_SPEAKER_VOICES && AZURE_VOICES == OPENAI_VOICES;
        NamedDefaultOffered(AZURE_SPEAKER_VOICES, AZURE_VOICES, speaker);
      }
    }
  }

  lemma KokoroDefaultOffered(speaker: int)
    ensures SpeakerEntry(KOKORO_SPEAKER_VOICES, speaker, KOKORO_FALLBACK) in VoiceIds(KOKORO_VOICES)
  {
    var ids := VoiceIds(KOKORO_VOICES);
    assert ids[0] == "am_adam" && ids[1] == "af_bella" && ids[2] == "af_heart";
  }

  lemma VertexDefaultOffered(speaker: int)
    ensures DefaultVoiceId(SpeakerEntry(VERTEX_SPEAKER_VOICES, speaker, VERTEX_SPEAKER_VOICES[0])).Some?
    ensures DefaultVoiceId(SpeakerEntry(VERTEX_SPEAKER_VOICES, speaker, VERTEX_SPEAKER_VOICES[0])).value
            in VoiceIds(VERTEX_VOICES)
  {
    var k := if 0 <= speaker < 6 then speaker else 0;
    assert VoiceIds(VERTEX_VOICES)[k] == DefaultVoiceId(VERTEX_SPEAKER_VOICES[k]).value;
  }

  /** A speaker table that lists the catalog's first ids in order, with "alloy" (the first id) as fallback. */
  lemma NamedDefaultOffered(table: seq<string>, catalog: seq<Voice>, speaker: int)
    requires table == OPENAI_SPEAKER_VOICES && catalog == OPENAI_VOICES
    ensures SpeakerEntry(table, speaker, "alloy") in VoiceIds(catalog)
  {
    var k := if 0 <= speaker < 6 then speaker else 0;
    assert VoiceIds(catalog)[k] == table[k];
  }

  /** OpenAI and Azure share one speaker table and one catalog. */
  lemma OpenAIAndAzureAgree(openai: string, azure: string, speaker: int)
    requires openai != KOKORO_PROVIDER && ProviderType(openai) == "openai"
    requires azure != KOKORO_PROVIDER && ProviderType(azure) == "azure"
    ensures VoiceForProvider(openai, speaker) == VoiceForProvider(azure, speaker)
    ensures AvailableVoices(openai) == AvailableVoices(azure)
  {
  }

  /** Kokoro's speaker table: Adam hosts, Bella co-hosts, every other speaker is Heart. */
  lemma KokoroSpeakers(speaker: int)
    ensures VoiceForProvider("local/kokoro", 0) == NamedVoice("am_adam")
    ensures VoiceForProvider("local/kokoro", 1) == NamedVoice("af_bella")
    ensures speaker != 0 && speaker != 1 ==> VoiceForProvider("local/kokoro", speaker) == NamedVoice("af_heart")
  {
  }

  /** The Kokoro match is exact: any other spelling falls to the vendor "local", which has no voices. */
  lemma KokoroMatchIsExact(speaker: int)
    ensures VoiceForProvider("Local/Kokoro", speaker) == NoVoice
    ensures AvailableVoices("Local/Kokoro") == []
  {
    LocalVendor();
    assert "Local/Kokoro"[0] != KOKORO_PROVIDER[0];
  }

  lemma LocalVendor()
    ensures ProviderType("Local/Kokoro") == "local"
  {
    assert "Local/Kokoro" == "Local" + "/" + "Kokoro";
    ProviderTypeOfModelString("Local", "Kokoro");
    assert Lower("Local") == "local";
  }
}
